=== FILE: README.md ===
# Memai-AI editor core in Dafny

This project models the client-side state and geometry logic of the Memai-AI
image editor, a React application. In the editor a user pans and zooms an image,
draws a crop rectangle or picks one of the objects an AI model detected, and
sends the region with a prompt for an AI edit. The user can also drag an
expansion ("magic ratio") rectangle for out-painting. Every returned image goes
onto an undo/redo history. The model covers:

- `History`: the linear history of image sources with a cursor (`useHistory`).
- `Selection`: free-hand crop drawing and click-to-select of detected objects (`useSelection`).
- `Viewport`: the zoom/pan controller with its live and committed transforms, the
  wheel debounce, the fit-to-container reset and the screen-to-image mapping (`useViewport`).
- `MagicRatio`: the preset rectangles of the aspect-ratio buttons and the eight-handle
  constrained resize of the expansion rectangle (`useEditor`).
- `Editor`: the editor's orchestration of these, including mode switches, pointer
  routing, results of AI calls, loading and hint texts, the timer text and the
  download name (`useEditor`).
- `EditorView`: the decisions the editor component takes from that state: cursors,
  the drawing order of candidates, clicks on candidates and button enablement (`Editor.tsx`).
- `Projects`: the project gallery: creating, selecting, saving and deleting projects (`useAppLogic`).
- `Translations`: the English and Indonesian tables and the `t(key, ...args)`
  lookup (`LanguageContext`).
- `Template`: the `{i}` substitution behind `t`, with `String.prototype.replace`
  and its `$` replacement patterns (`LanguageContext`).
- `DataUrl`, `Gemini`: how the AI service splits data URLs with
  `^data:(image\/.+);base64,(.+)$`, assembles them, maps detection replies to
  candidates and reads identification replies (`geminiService`).
- `Canvas`: the arithmetic of the canvas helpers: the downscale rule, the extended
  canvas and its mask, the crop mask rectangle and the luminance-to-alpha rule (`canvasUtils`).

All state is immutable: every event handler is a pure function from the old
state (and the event's data) to the new state. Numbers are Dafny `real`s;
`Math.round(x)` is `floor(x + 0.5)`. Everything the browser or the network
supplies is a parameter. This covers pointer positions, `Math.exp` of the wheel
delta, natural image sizes, container and image rectangles, AI results (`None`
for a failed call) and timer expiry (an explicit step). Object identity
(`cropRect === object.box`) is modelled by tagging a crop with the id of the
object it came from; a detected object's id is its position in the reply.

A locked corner drag whose normalized deltas are equal in size derives the width
from the height (hooks/useEditor.ts:397-401), and so does the model
(`MagicRatio.CornerTieBreak`). The editor's handle drag uses the code's ratio
lock, the preset's w / h applied to the rectangle's normalized sides
(`Editor.MouseMove`). A drag under the lock measured in pixels, which the preset
rectangles evidently intend, is modelled beside it as `Editor.PixelLockedMouseMove`
(see Findings).

## Model

| member | source | states |
|---|---|---|
| History.Reset | hooks/useHistory.ts:40-43 | a reset history holds just the given image, with neither undo nor redo available |
| History.Commit | hooks/useHistory.ts:15-22 | a commit keeps the entries up to the cursor, drops the redo tail, appends the new image as current, and reports it for saving |
| History.Undo | hooks/useHistory.ts:24-30 | undo moves the cursor back one entry and reports that entry; at the first entry it changes nothing and reports nothing |
| History.Redo | hooks/useHistory.ts:32-38 | redo moves the cursor forward one entry and reports it; at the last entry it is a no-op |
| History.UndoThenRedo | hooks/useHistory.ts:24-38 | redo after undo restores the history exactly and re-reports the image that was current |
| History.RedoThenUndo | hooks/useHistory.ts:24-38 | undo after redo restores the history exactly |
| History.UndoCommit | hooks/useHistory.ts:15-30 | undoing a commit returns to the image that was current before it |
| History.Apply | hooks/useHistory.ts:12-43 | every history operation keeps the cursor inside the list |
| History.RunValid | hooks/useHistory.ts:12-43 | any sequence of operations keeps the history well formed and never empty |
| History.BranchingScenario | hooks/useHistory.ts:15-30 | committing after an undo discards the undone branch: A, B, C, undo, D gives [A, B, D] with no redo |
| Selection.Clear | hooks/useSelection.ts:16-19 | clearing removes the crop and the candidate list and leaves an ongoing draw alone |
| Selection.SelectObject | hooks/useSelection.ts:21-23 | selecting an object makes its own box the crop, tagged with that object |
| Selection.Span | hooks/useSelection.ts:41-46 | the drawn rectangle runs from the smaller to the larger coordinate of anchor and pointer on each axis |
| Selection.MouseDown | hooks/useSelection.ts:25-31 | a press inside the image starts a draw anchored at that point, with a zero-size crop there; a press outside does nothing |
| Selection.MouseMove | hooks/useSelection.ts:33-48 | during a draw inside the image the crop becomes the anchor-pointer span; otherwise nothing changes |
| Selection.MouseUp | hooks/useSelection.ts:50-63 | releasing ends the draw, discards a crop of width or height below 0.02, and otherwise reports it as completed |
| Selection.SpanSymmetric | hooks/useSelection.ts:41-46 | the span is the same whichever corner the draw starts from |
| Selection.SpanWithinUnitSquare | hooks/useSelection.ts:41-46 | a draw between points inside the image stays inside the image |
| Selection.TinyDrawDiscarded | hooks/useSelection.ts:50-63 | a 0.01 by 0.01 draw leaves no crop and completes nothing |
| Selection.SelectedIsExactlyTheChosenObject | components/Editor.tsx:98-102 | after selecting candidate k, exactly candidate k is highlighted when the ids are distinct |
| Selection.DrawnRectSelectsNothing | components/Editor.tsx:98-102 | a freshly drawn crop highlights no candidate |
| Viewport.CommitState | hooks/useViewport.ts:40-48 | committing copies the live zoom and pan into the observable state and changes nothing else |
| Viewport.DebounceElapsed | hooks/useViewport.ts:114-116 | when the debounce fires, a pending commit is carried out and none is pending afterwards; nothing else changes, so a drag in progress continues |
| Viewport.FitZoom | hooks/useViewport.ts:73-81 | the fit zoom is the largest at which the image fills at most 95% of the container on both axes and exactly 95% on one, or 1 without a container size |
| Viewport.ResetViewToFit | hooks/useViewport.ts:65-89 | the reset sets the live and committed zoom to the fit zoom with no pan and changes nothing else, and does nothing without an image or container size |
| Viewport.HandleWheel | hooks/useViewport.ts:91-117 | a ctrl-wheel scales the live zoom by the growth factor, saturating at 0.2 below and 5 above, and shows the zoom direction; a plain wheel pans by the deltas; both defer the commit, and neither touches the committed transform, the pan flag or the drag anchors |
| Viewport.HandleZoom | hooks/useViewport.ts:148-153 | a zoom button scales the zoom by the factor, saturating at 0.2 below and 5 above, and commits the zoom but not the pan; nothing else changes |
| Viewport.PanMouseDown | hooks/useViewport.ts:155-159 | a press starts panning from the pointer and the current pan, keeping both transforms, a pending commit and the zoom indicator |
| Viewport.PanMouseMove | hooks/useViewport.ts:161-170 | while panning, the live pan is the start pan plus the pointer's travel; otherwise nothing changes |
| Viewport.PanMouseUp | hooks/useViewport.ts:172-177 | releasing a pan stops it and commits the live zoom and pan, which stay as they were, and changes nothing else; without a pan nothing changes |
| Viewport.RelativeCoords | hooks/useViewport.ts:179-198 | a pointer maps to normalized image coordinates exactly when it is inside the rendered image, and the result is in the unit square |
| Viewport.OperationsPreserveValid | hooks/useViewport.ts:65-177 | every viewport operation keeps both zooms positive |
| Viewport.CommitIdempotent | hooks/useViewport.ts:40-48 | committing twice is the same as committing once |
| Viewport.WheelBurstCommitsLastState | hooks/useViewport.ts:91-117 | after a burst of wheel ticks and one debounce, the committed state is the last tick's live state |
| Viewport.FitExample | hooks/useViewport.ts:76-81 | a 2000x1000 image in a 1000x1000 container fits at zoom 0.475 |
| Viewport.FitZoomNotClamped | hooks/useViewport.ts:79-81 | the fit zoom is not clamped to the wheel's range: it can exceed 5 or fall below 0.2 |
| Viewport.DragBackRestoresPan | hooks/useViewport.ts:155-177 | dragging away and back to the press point restores the pan |
| Viewport.RelativeCoordsRoundTrip | hooks/useViewport.ts:179-198 | a pointer placed at a normalized point of the image maps back to that point |
| MagicRatio.RatioValue | hooks/useEditor.ts:242-243 | a preset's ratio w / h is positive |
| MagicRatio.RatioNameParses | hooks/useEditor.ts:242-243 | splitting a preset's name "w:h" at the colon gives back w and h |
| MagicRatio.ImageRatio | hooks/useEditor.ts:246 | the natural width over height of an image with a size is positive |
| MagicRatio.PresetRect | hooks/useEditor.ts:246-266 | a preset rectangle is centred, spans the image fully on one axis, covers it, and has the preset's aspect in pixels |
| MagicRatio.PresetAtLeastWholeImage | hooks/useEditor.ts:249-265 | a preset rectangle is at least as large as the image on both axes |
| MagicRatio.ParseHandle | components/Editor.tsx:104 | a string is read as a handle only if it is that handle's name |
| MagicRatio.ParseHandleName | components/Editor.tsx:104 | every handle's name reads back as that handle |
| MagicRatio.NormalizedDelta | hooks/useEditor.ts:374-378 | the pointer's travel divided by the zoom and by the natural size gives the normalized delta |
| MagicRatio.ProposeFree | hooks/useEditor.ts:421-436 | a free drag moves only the dragged edges and keeps the opposite edges fixed |
| MagicRatio.ProposeLockedCorner | hooks/useEditor.ts:387-406 | a locked corner drag keeps the ratio and the opposite corner, and the axis with the larger delta decides the size |
| MagicRatio.ProposeLockedSide | hooks/useEditor.ts:408-413 | a locked side drag sets the width from the delta, derives the height, keeps the vertical centre and the opposite side |
| MagicRatio.ProposeLockedEnd | hooks/useEditor.ts:414-419 | a locked top or bottom drag sets the height from the delta, derives the width, keeps the horizontal centre and the opposite edge |
| MagicRatio.Propose | hooks/useEditor.ts:383-436 | a drag proposal is the free one without a lock and the corner, side or end rule with one, and every locked proposal has the locked ratio |
| MagicRatio.ApplyProposal | hooks/useEditor.ts:438-440 | a proposal is taken only when both sides exceed 0.2; otherwise the rectangle stays |
| MagicRatio.DragTo | hooks/useEditor.ts:368-441 | a drag step takes the proposal from the drag's start whenever both of its sides exceed 0.2, and otherwise keeps the current rectangle; a changed result is larger than 0.2 on both sides |
| MagicRatio.AsWrittenLock | hooks/useEditor.ts:383-385 | the source's lock is the preset's w / h, applied to normalized sizes |
| MagicRatio.PixelLock | hooks/useEditor.ts:383-385 | the corrected lock is w / h divided by the image's own ratio, so that the locked ratio holds in pixels |
| MagicRatio.IsRatioChanged | hooks/useEditor.ts:466 | the rectangle counts as changed exactly when it differs from the whole frame |
| MagicRatio.LockedDragKeepsRatio | hooks/useEditor.ts:387-420 | under a lock, a rectangle with the locked ratio keeps it through any drag step |
| MagicRatio.StillProposalIsStart | hooks/useEditor.ts:387-420 | a zero delta proposes the start rectangle when it already has the locked ratio |
| MagicRatio.DragNotCumulative | hooks/useEditor.ts:374-381 | each move is measured from the drag's start, so an accepted move ignores the moves before it |
| MagicRatio.CornerTieBreak | hooks/useEditor.ts:397-401 | with deltas of equal size, a locked corner drag derives the width from the height |
| MagicRatio.AsWrittenLockMatchesPresetOnlyOnSquareImages | hooks/useEditor.ts:242-266 | the source's lock agrees with its own preset rectangles exactly when the image is square |
| MagicRatio.AsWrittenStillDragReshapesPreset | hooks/useEditor.ts:383-440 | with the source's lock, a drag step that ends at the press point on the bottom-right corner of the 1:1 preset of a 200x100 image turns the 1x2 rectangle into a 2x2 one |
| MagicRatio.PresetHasPixelLock | hooks/useEditor.ts:249-266 | every preset rectangle already has the corrected lock's ratio |
| MagicRatio.PixelLockGivesPixelRatio | hooks/useEditor.ts:383-385 | a rectangle held at the corrected lock of a preset has the preset's w / h in pixels |
| MagicRatio.StillDragKeepsPreset | hooks/useEditor.ts:368-441 | with the corrected lock, a still press on any handle of a preset leaves it unchanged |
| Editor.Open | hooks/useEditor.ts:24-33 | a new editor shows the project's image with no undo, the pan tool, no modes and the whole frame |
| Editor.LoadProject | hooks/useEditor.ts:123-132 | switching project resets the history to its image, the tool, the modes, the selection, the prompt and the label, and keeps the expansion rectangle, its ratio, the pointer-gesture fields and space-panning; the view is fitted to the image when both sizes are known (only its zoom and pan change) and kept otherwise |
| Editor.Refit | hooks/useViewport.ts:128-142 | on image load, window resize and project change the view is fitted to the image (fit zoom, no pan, its flags and drag anchors kept) when both sizes are known, and nothing else changes |
| Editor.PanToggle | hooks/useEditor.ts:193-199 | outside crop mode the toggle selects pan; in crop mode it swaps pan and crop |
| Editor.ClearSelection | hooks/useEditor.ts:201-205 | clearing removes the crop, the candidates, the prompt and the label and nothing else |
| Editor.MagicCropToggle | hooks/useEditor.ts:207-219 | entering crop mode selects the crop tool and leaves magic-ratio mode; leaving it selects pan and clears the crop, candidates, prompt and label; nothing else changes |
| Editor.CancelMagicRatio | hooks/useEditor.ts:221-225 | cancelling leaves magic-ratio mode with no ratio and an unchanged frame |
| Editor.SelectAspectRatio | hooks/useEditor.ts:227-267 | choosing a ratio enters magic-ratio mode with pan and clears the crop, candidates, prompt and label, changing nothing else but the rectangle and ratio; with an image size a preset installs that ratio's preset rectangle (covering the image, at the ratio in pixels) and free installs the whole frame; without one the rectangle and ratio stay |
| Editor.DrawManually | hooks/useEditor.ts:269-273 | drawing manually empties the candidates, the crop, the prompt and the label and selects the crop tool, changing nothing else |
| Editor.DetectObjectsReturned | hooks/useEditor.ts:275-283 | a detection clears the crop, candidates, prompt and label and, when it returns, shows its candidates with the crop tool; nothing else changes |
| Editor.SelectDetectedObject | hooks/useEditor.ts:459-464 | selecting a candidate highlights it, takes its label, empties the prompt and selects the crop tool, changing nothing else |
| Editor.SpaceKey | hooks/useEditor.ts:134-155 | space starts space-panning unless typed into a text field, and releasing it always stops it |
| Editor.ComposePrompt | hooks/useEditor.ts:289-301 | the prompt sent is prefixed with the selected label, else with the identified one, else sent as typed, and always ends with the typed prompt |
| Editor.GenerateReturned | hooks/useEditor.ts:285-314 | a returned edit is committed as a new undoable entry with no redo and saved; it clears the crop, the candidates, the prompt and the selected label, leaves crop mode with the pan tool and changes nothing else; without a crop or result nothing changes |
| Editor.ExpansionReturned | hooks/useEditor.ts:316-324 | a returned expansion is committed as a new undoable entry with no redo and saved, leaves magic-ratio mode and changes nothing else |
| Editor.UpscaleReturned | hooks/useEditor.ts:326-333 | a returned upscale is committed as a new undoable entry with no redo and saved, and nothing else changes |
| Editor.Undo | hooks/useEditor.ts:60-62 | the editor's undo changes only the history and saves the image it returns to |
| Editor.Redo | hooks/useEditor.ts:60-62 | the editor's redo changes only the history and saves the image it moves to |
| Editor.RouteMouseDown | hooks/useEditor.ts:345-366 | a press is ignored while loading, else drags a handle in magic-ratio mode, else pans when panning is possible, else draws in crop mode with no candidates |
| Editor.MouseDown | hooks/useEditor.ts:345-366 | a handle press records the handle, the press point and the current rectangle and changes nothing else; a pan press starts panning from the press point, takes the live pan as the pan at the start of the drag, keeps the live and committed zoom and pan and changes nothing else; a draw press inside the image starts a zero-size crop at the image point and changes only the selection; any other press changes nothing |
| Editor.MouseDownStartsOneGesture | hooks/useEditor.ts:345-366 | from rest a press starts at most one of handle drag, pan and draw, and none while loading |
| Editor.MouseMove | hooks/useEditor.ts:368-449 | during a handle drag only the expansion rectangle changes, nothing without an image size, the rectangle becomes the proposal from the drag's start under the normalized lock whenever both of the proposal's sides exceed 0.2, and a changed rectangle exceeds 0.2 on both sides and, under a preset, has normalized width over height equal to its w / h; else a pan changes only the live pan, by the pointer's travel from the press; else only the crop changes, to the span of anchor and pointer |
| Editor.HandleDragMove | hooks/useEditor.ts:368-441 | a handle-drag move changes only the expansion rectangle: it becomes the proposal from the drag's start when both of that proposal's sides exceed 0.2 and stays otherwise, and a changed rectangle keeps the lock's ratio |
| Editor.PixelLockedMouseMove | hooks/useEditor.ts:368-449 | the corrected move differs from the source's only in a handle drag, which changes only the rectangle and takes the pixel-locked proposal from the drag's start whenever both of its sides exceed 0.2; a changed rectangle exceeds 0.2 on both sides and has the preset's w / h in pixels |
| Editor.MouseUp | hooks/useEditor.ts:451-457 | a release ends every gesture, commits a pan, drops the label when a drawn crop completes and changes nothing else |
| Editor.LoadingKey | hooks/useEditor.ts:72-79 | the loading text follows the first running call in the order detect, generate, identify, expand, upscale, and there is none when none runs |
| Editor.HintKey | hooks/useEditor.ts:157-175 | the crop-mode hint asks to wait during detection, to pick a box with candidates, and to draw one without |
| Editor.FormatTime | hooks/useEditor.ts:16-20 | below 100 minutes the timer reads mm:ss |
| Editor.FormatTimeParses | hooks/useEditor.ts:16-20 | splitting the timer at the colon gives digits whose minutes times 60 plus seconds is the total, with seconds below 60 |
| Editor.EtaText | hooks/useEditor.ts:118-121 | the estimate of 30 000 ms reads "00:30" |
| Editor.FormatTimeUnderMinute | hooks/useEditor.ts:16-20 | from 10 to 59 seconds the timer reads "00:" followed by the seconds |
| Editor.DownloadExtension | hooks/useEditor.ts:338 | the download extension is never empty and holds no slash |
| Editor.DataUrlExtension | hooks/useEditor.ts:338 | an image data URL downloads with its own subtype as extension |
| Editor.SubtypeExtension | hooks/useEditor.ts:338 | a source of the form prefix, `/`, subtype, `;`, anything (no `/` or `;` in prefix or subtype, subtype not empty) downloads with that subtype as extension |
| Editor.NoSubtypeDownloadsPng | hooks/useEditor.ts:338 | without a slash before the first semicolon the download is a .png |
| Editor.ModeActionsPreserveValid | hooks/useEditor.ts:193-283 | no mode action puts crop mode and magic-ratio mode on together or breaks history or viewport |
| Editor.PointerActionsPreserveValid | hooks/useEditor.ts:345-457 | no pointer event breaks the editor's invariant |
| Editor.StillHandleClickReshapesPreset | hooks/useEditor.ts:345-457 | as written, on a 200x100 image the 1:1 preset (1x2 in normalized units), a press on its bottom-right handle, a move back onto the press point and a release leave a 2x2 rectangle |
| Editor.StillHandleClickKeepsPreset | hooks/useEditor.ts:345-457 | with the pixel lock, a press on any handle of a preset, a move back onto the press point and a release leave the preset rectangle as it was |
| Editor.GenerateThenUndo | hooks/useEditor.ts:305-310 | undoing a returned edit restores and saves the image it replaced |
| Editor.ExpansionThenUndo | hooks/useEditor.ts:316-324 | undoing a returned expansion restores and saves the image it replaced, and apart from magic-ratio mode the editor is as before |
| Editor.UpscaleThenUndo | hooks/useEditor.ts:326-333 | undoing a returned upscale restores and saves the image it replaced, and the editor is otherwise as before |
| Editor.SelectThenCancel | hooks/useEditor.ts:221-267 | choosing a preset and cancelling leaves the frame, no ratio and the pan tool |
| EditorView.CursorFor | components/Editor.tsx:91-96 | the cursor is grabbing while panning, grab where a press would pan, a crosshair for the crop tool without candidates, else the default |
| EditorView.CursorAgreesWithRouting | components/Editor.tsx:91-96 | away from handles the grab cursor shows exactly when a press pans, and in crop mode the crosshair exactly when it draws |
| EditorView.CrosshairWithoutCropMode | components/Editor.tsx:91-96 | outside crop mode the crosshair can show although a press draws nothing |
| EditorView.HandleCursor | components/Editor.tsx:105-122 | each handle name gets the resize cursor of its axis, and any other string none |
| EditorView.HandleCursorMatchesDrag | components/Editor.tsx:105-122 | the vertical cursor marks the handles that move only vertically, the horizontal one those that move only horizontally, and each diagonal cursor its corners |
| EditorView.ByAreaDescending | components/Editor.tsx:202-203 | candidates are drawn largest first, as a permutation of the detections |
| EditorView.SortKeepsCandidates | components/Editor.tsx:202-203 | a candidate is drawn exactly when it was detected |
| EditorView.SortedInputUnchanged | components/Editor.tsx:202-203 | candidates already in order are drawn in their order |
| EditorView.CandidateClick | components/Editor.tsx:214-220 | a click on a candidate selects it with the crop tool and warns with the pan tool in crop mode |
| EditorView.ClickCandidate | components/Editor.tsx:214-220 | a selecting click highlights the candidate, and any other click leaves the editor unchanged |
| EditorView.CanGenerateIffPromptHasText | components/Editor.tsx:481 | generating is enabled exactly when nothing loads, a crop exists and the prompt holds a non-space character |
| EditorView.ExpansionOfferedOnlyAfterChange | components/Editor.tsx:493 | after cancelling, there is no expansion to apply |
| EditorView.SomeModeButtonEnabled | components/Editor.tsx:369-387 | while nothing loads, at least one of the two mode buttons is enabled |
| EditorView.ZoomButtonsInverse | components/Editor.tsx:305-334 | inside the zoom range, zooming in and then out by the buttons returns to the same zoom |
| Projects.ProjectName | hooks/useAppLogic.ts:41 | a project is named after its file without the last extension, or "New Project" when that is empty |
| Projects.ProjectNameDropsLastExtension | hooks/useAppLogic.ts:41 | a file name with two dots, such as "a.b.png", is named by everything before the second dot ("a.b") |
| Projects.ProjectNameFallback | hooks/useAppLogic.ts:41 | "photo" and ".png" both give "New Project" |
| Projects.NewProject | hooks/useAppLogic.ts:36-48 | a new project, with the file's data as original and current image, goes first, is selected and opens the editor |
| Projects.SelectProject | hooks/useAppLogic.ts:50-53 | selecting a project opens the editor on its id and keeps the list |
| Projects.BackToGallery | hooks/useAppLogic.ts:55-58 | going back shows the gallery with nothing selected and keeps the list |
| Projects.SaveProject | hooks/useAppLogic.ts:60-64 | saving replaces the current image of the projects with the id and changes nothing else |
| Projects.DeleteProject | hooks/useAppLogic.ts:66-68 | deleting keeps exactly the projects with another id |
| Projects.Find | hooks/useAppLogic.ts:70 | the lookup finds the first project with the id, and nothing exactly when none has it |
| Projects.SelectedProject | hooks/useAppLogic.ts:70 | the shown project is in the list and has the selected id |
| Projects.DeleteConcat | hooks/useAppLogic.ts:66-68 | deleting keeps the remaining projects in order |
| Projects.DeleteAbsent | hooks/useAppLogic.ts:66-68 | deleting an id no project has changes nothing |
| Projects.NewThenDelete | hooks/useAppLogic.ts:36-68 | a new project with a fresh id is shown, and deleting it restores the list |
| Projects.SaveThenFind | hooks/useAppLogic.ts:60-70 | after saving, looking up the id finds the same project with the new image |
| Projects.SelectThenBack | hooks/useAppLogic.ts:50-70 | opening shows the first project with the id, and going back undoes the opening |
| Projects.DeleteOpenProject | hooks/useAppLogic.ts:66-70 | deleting the open project leaves the editor page with no project to show |
| Translations.Lookup | context/LanguageContext.tsx:109 | a key's entry is used when it is non-empty, else the key itself |
| Template.Expand | context/LanguageContext.tsx:111 | a replacement without "$" is inserted as it is |
| Template.ReplaceFirst | context/LanguageContext.tsx:111 | only the first occurrence of the pattern is replaced, and a string without it is unchanged |
| Translations.T | context/LanguageContext.tsx:108-114 | without arguments the translation is the looked-up template |
| Translations.SameKeys | context/LanguageContext.tsx:92-95 | both languages define the same keys |
| Translations.TablesHaveNoEmptyEntry | context/LanguageContext.tsx:3-88 | no entry is empty, so no lookup falls back to the key |
| Template.PlainArgumentReplacesFirst | context/LanguageContext.tsx:110-112 | an argument without "$" replaces the first "{i}" |
| Template.ArgumentsWithoutPlaceholders | context/LanguageContext.tsx:110-112 | a template without placeholders is returned unchanged whatever the arguments |
| Translations.EtaExample | context/LanguageContext.tsx:33 | the English estimate of any time without `$` reads "Est. " followed by that time |
| Translations.MissingArgumentKeepsPlaceholder | context/LanguageContext.tsx:110-112 | a placeholder `{m}` of the template with no argument (m at least the number of arguments) is still in the translation, whatever the arguments |
| Translations.ArgumentsApplyOneByOne | context/LanguageContext.tsx:110-112 | the translation with one more argument is the translation without it in which the first occurrence of that argument's placeholder is replaced by it |
| Template.Placeholder | context/LanguageContext.tsx:111 | the placeholder of i is a brace, the decimal digits of i and a closing brace |
| Template.ReplaceKeepsOtherPlaceholder | context/LanguageContext.tsx:111 | replacing the first `{i}` leaves an occurrence of every other placeholder `{m}` in the text |
| Template.PlaceholdersApart | context/LanguageContext.tsx:111 | occurrences of two different placeholders never overlap |
| Template.ArgumentsApplyInOrder | context/LanguageContext.tsx:110-112 | arguments are substituted in order: with `"{0} {1}"` and the arguments `"{1}"` and `x` (no `$` in `x`), the first argument's `{1}` is itself replaced, giving `x + " {1}"` |
| Template.DollarPatternInArgument | context/LanguageContext.tsx:111 | an argument "$&" inserts the matched placeholder, not the two characters |
| DataUrl.Parse | services/geminiService.ts:14-20 | a parse yields a mime type and data that rebuild the URL under the pattern's rules, or the invalid-format error |
| DataUrl.ParseFailsIffNoMatch | services/geminiService.ts:15-18 | the parse fails exactly when no split of the URL matches the pattern |
| DataUrl.ParseIsGreedy | services/geminiService.ts:15 | of the matching splits, the parse takes the longest mime type |
| DataUrl.Build | services/geminiService.ts:34 | the assembled URL starts with "data:" and holds the mime type and the data in place |
| DataUrl.ParseBuild | services/geminiService.ts:15-19 | an assembled URL with an image type and marker-free data parses back into its parts |
| DataUrl.MarkerInDataMovesSplit | services/geminiService.ts:15 | when the data holds ";base64," followed by more data free of it, the parser splits at that later marker: the mime type absorbs the marker and the data before it |
| DataUrl.ResizeMime | utils/canvasUtils.ts:207 | the resize type always starts with "image/" |
| DataUrl.ResizeKeepsParsedMime | utils/canvasUtils.ts:207 | a URL the service accepts keeps its type through a resize unless it ends with the marker |
| DataUrl.ResizeDefaultsToJpeg | utils/canvasUtils.ts:207 | a URL not starting with "data:image/" is resized to JPEG |
| Gemini.ToObject | services/geminiService.ts:148-156 | a detection item becomes a candidate with its name and the box between its corners |
| Gemini.MapDetections | services/geminiService.ts:148-156 | the reply maps to one candidate per item in the same order |
| Gemini.MappingRecoversItems | services/geminiService.ts:148-156 | each item's name and corners are recovered from its candidate |
| Gemini.MappedIdsDistinct | services/geminiService.ts:148-156 | the candidates of a reply are told apart |
| Gemini.OrderedCornersInside | services/geminiService.ts:148-156 | ordered corners inside the image give a box inside the image |
| Gemini.Identify | services/geminiService.ts:196-205 | an identification is a name exactly when the reply holds a non-space character, and it is the reply as written |
| Gemini.IdentifyKeepsSpacing | services/geminiService.ts:196-200 | the name keeps its surrounding spaces |
| Canvas.ResizePlan | utils/canvasUtils.ts:176-195 | an image within the limit is kept; otherwise the longer side becomes the limit and the aspect is kept |
| Canvas.ResizeShrinks | utils/canvasUtils.ts:176-195 | a resize never enlarges either side |
| Canvas.FullFrameIsIdentity | utils/canvasUtils.ts:15-19 | the whole frame gives the image's own size, drawn at the origin |
| Canvas.CoveredOriginalFits | utils/canvasUtils.ts:15-19 | a rectangle covering the image gives a canvas that holds the whole original |
| Canvas.MaskAt | utils/canvasUtils.ts:37-41 | a mask pixel is black exactly inside the original's block |
| Canvas.SourcePixel | utils/canvasUtils.ts:28 | an extended pixel comes from the original pixel at the offset, when that is inside the original |
| Canvas.MaskMarksNewArea | utils/canvasUtils.ts:28-41 | the mask is white exactly where the extended image has no original pixel |
| Canvas.FullFrameMaskAllBlack | utils/canvasUtils.ts:37-41 | the whole frame leaves nothing to fill in |
| Canvas.CropToPixels | utils/canvasUtils.ts:155-158 | the crop's pixel rectangle, divided by the natural size, gives back the crop |
| Canvas.CropPixelsInside | utils/canvasUtils.ts:155-158 | a crop inside the image gives a rectangle inside the mask canvas |
| Canvas.Luminance | utils/canvasUtils.ts:99-108 | the alpha lies in [0, 255] and between the smallest and largest channel |
| Canvas.GreyLuminance | utils/canvasUtils.ts:99-108 | a grey pixel's alpha is its own level, so white keeps the original and black hides it |
| Canvas.LuminanceMonotone | utils/canvasUtils.ts:99-108 | a brighter mask pixel never gives a lower alpha |

## Left out

- Network calls (`callGeminiForImage`, the request parts, `useGemini`'s loading flags and error texts): a call's result arrives as an `Option` parameter, and `None` stands for a failure.
- Canvas drawing, `toDataURL`, image decoding and `FileReader`: browser services. Only their arithmetic is modelled.
- Canvas integer truncation of widths, heights and offsets, and the `Uint8ClampedArray` rounding of the alpha: the model keeps the exact reals.
- Floating point, `NaN` and `Infinity`: numbers are exact reals, so the ratio checks hold exactly rather than within a tolerance.
- `localStorage` persistence and the `Date.now()` project ids: the saved list and the new id are parameters.
- Timers: the 150 ms wheel debounce and the 200 ms gesture indicator are explicit steps. The 3000 ms pan warning, the placeholder animation, the loading-text transition and the elapsed-time counter are not modelled.
- React closures, effect ordering and state batching: each handler sees the state current when it runs.
- `String(number)`: numbers shown in text are naturals formatted in decimal. Other numbers are not formatted.
- Handle names are a datatype; `ParseHandle` maps the `data-handle` strings onto it.
- Keyboard event targets are a boolean saying whether the key went to a text field.
- Detected-object identity: the source compares object references; the model gives each candidate its position in the reply as id.
- `JSON.parse` failures and replies without the expected fields: they appear as `None` replies.
- Canvas.ExtensionGeometry: it has no contract of its own. For rectangles that do not cover the image its sizes and offsets can be negative or cut the image, which the lemmas about it exclude.
- Selection.IsSelected, Editor.CanPan, Editor.PanMoves, Editor.ShowsPanning, Editor.NeedsIdentification, Editor.Fits, EditorView.CanGenerate, EditorView.CanApplyExpansion, EditorView.MagicCropEnabled, EditorView.MagicRatioEnabled, MagicRatio.HasPixelRatio, Template.ApplyArgs: definitions of the source's conditions and loops with no contract of their own; the contracts and lemmas above that use them state their properties.
- Editor.DownloadName: it has no contract of its own; its extension is stated by `Editor.DownloadExtension`.
- Viewport.GestureElapsed: only the preservation of the viewport invariant is stated about it.
- Sort stability of the candidate order is not stated; only the order by area and the permutation are.
- The `t` argument types: arguments are strings; a number argument is formatted before the call.

## Findings

| source | as written | input that shows it | evidently intended | confidence | as-written member | corrected member |
|---|---|---|---|---|---|---|
| hooks/useEditor.ts:383-401 | a locked drag keeps normalized width over height at the preset's w / h, while the preset rectangle (lines 246-266) has w / h in pixels | a 200x100 image, preset 1:1 (rectangle x 0, y -0.5, 1 wide, 2 high), then a press on the bottom-right handle, a mouse move back onto the press point and a release: the rectangle becomes 2 by 2, a 2:1 shape in pixels | the lock divides w / h by the image's own ratio, so a drag keeps the preset's pixel aspect and a move that returns to the press point changes nothing | not executed | Editor.StillHandleClickReshapesPreset | Editor.StillHandleClickKeepsPreset |

=== FILE: canvas.dfy ===
/** The arithmetic of utils/canvasUtils.ts: the downscale rule of `resizeImage`,
    the canvas and mask of `createExtendedImageAndMask`, the pixel rectangle of
    `createMaskFromCrop`, and the luminance `applyMaskToImage` turns into alpha.
    The drawing itself is not modelled; image sizes arrive as values. */
module Canvas {
  import opened Wrappers
  import opened Geometry
  import opened DataUrl

  // ---------------------------------------------------------------------------
  // resizeImage

  /** The size a resize produces; `None` means the input is returned unchanged. */
  function ResizePlan(width: real, height: real, maxDimension: real): (r: Option<(real, real)>)
    requires width >= 0.0 && height >= 0.0 && maxDimension > 0.0
    ensures r.None? <==> width <= maxDimension && height <= maxDimension
    ensures r.Some? ==> r.value.0 <= maxDimension && r.value.1 <= maxDimension
    ensures r.Some? ==> r.value.0 * height == r.value.1 * width
    ensures r.Some? && width > height ==> r.value.0 == maxDimension
    ensures r.Some? && width <= height ==> r.value.1 == maxDimension
  {
    if width <= maxDimension && height <= maxDimension then None
    else if width > height then
      if width > maxDimension then
        ScaledSide(height, width, maxDimension);
        Some((maxDimension, height * (maxDimension / width)))
      else
        assert false;
        Some((width, height))
    else
      if height > maxDimension then
        ScaledSide(width, height, maxDimension);
        Some((width * (maxDimension / height), maxDimension))
      else
        assert false;
        Some((width, height))
  }

  /** The shorter side scaled by the factor that brings the longer one to `m`. */
  lemma ScaledSide(short: real, long: real, m: real)
    requires 0.0 <= short <= long && long > 0.0 && m > 0.0
    ensures short * (m / long) <= m
    ensures short * (m / long) * long == short * m
  {
    var f := m / long;
    assert f * long == m;
    assert f > 0.0;
    assert short * f <= long * f;
  }

  /** The size `identifyObjectInCrop` sends: the longer side at most 1024. */
  const IdentifyMaxDimension: real := 1024.0

  /** A resize never enlarges: each side shrinks by the same factor. */
  lemma ResizeShrinks(width: real, height: real, maxDimension: real)
    requires width > 0.0 && height > 0.0 && maxDimension > 0.0
    ensures var r := ResizePlan(width, height, maxDimension);
      r.Some? ==> 0.0 < r.value.0 <= width && 0.0 < r.value.1 <= height
  {
    var r := ResizePlan(width, height, maxDimension);
    if r.Some? {
      if width > height {
        assert width > maxDimension;
        FractionBelowOne(maxDimension, width);
        assert r.value.1 == height * (maxDimension / width) <= height * 1.0;
      } else {
        assert height > maxDimension;
        FractionBelowOne(maxDimension, height);
        assert r.value.0 == width * (maxDimension / height) <= width * 1.0;
      }
    }
  }

  lemma FractionBelowOne(a: real, b: real)
    requires 0.0 < a < b
    ensures 0.0 < a / b < 1.0
  {
    var q := a / b;
    assert q * b == a;
    assert q >= 1.0 ==> q * b >= 1.0 * b;
  }

  // ---------------------------------------------------------------------------
  // createExtendedImageAndMask

  /** The extended canvas and where the original is drawn on it. */
  datatype Extension = Extension(width: int, height: int, offsetX: int, offsetY: int)

  /** Lines 15-19: sizes and offset, each rounded with `Math.round`. */
  function ExtensionGeometry(img: ImageSize, rect: Rect): Extension {
    Extension(
      Side(img.width, rect.width), Side(img.height, rect.height),
      Offset(img.width, rect.x), Offset(img.height, rect.y))
  }

  /** The canvas side for `n` pixels scaled by `size`. */
  function Side(n: nat, size: real): int {
    Round(n as real * size)
  }

  /** Where the original starts on an axis whose rectangle begins at `lo`. */
  function Offset(n: nat, lo: real): int {
    Round(-lo * n as real)
  }

  /** The full frame reproduces the image: same size, drawn at the origin. */
  lemma FullFrameIsIdentity(img: ImageSize)
    ensures ExtensionGeometry(img, FullFrame) == Extension(img.width, img.height, 0, 0)
  {
    RoundShift(0.0, img.width);
    RoundShift(0.0, img.height);
  }

  /** An expansion rectangle that covers the image gives a canvas that holds the
      whole original. */
  lemma CoveredOriginalFits(img: ImageSize, rect: Rect)
    requires CoversUnitSquare(rect)
    ensures var g := ExtensionGeometry(img, rect);
      && 0 <= g.offsetX && g.offsetX + img.width <= g.width
      && 0 <= g.offsetY && g.offsetY + img.height <= g.height
  {
    CoveredAxis(img.width, rect.x, rect.width);
    CoveredAxis(img.height, rect.y, rect.height);
  }

  /** One axis of the above. */
  lemma CoveredAxis(n: nat, lo: real, size: real)
    requires lo <= 0.0 && lo + size >= 1.0
    ensures 0 <= Offset(n, lo) && Offset(n, lo) + n <= Side(n, size)
  {
    OffsetNonNegative(n, lo);
    OffsetLeavesRoom(n, lo, size);
  }

  lemma OffsetNonNegative(n: nat, lo: real)
    requires lo <= 0.0
    ensures 0 <= Offset(n, lo)
  {
    var off := -lo * n as real;
    assert off >= 0.0 by {
      assert -lo >= 0.0 && n as real >= 0.0;
    }
    RoundMonotone(0.0, off);
  }

  lemma OffsetLeavesRoom(n: nat, lo: real, size: real)
    requires lo + size >= 1.0
    ensures Offset(n, lo) + n <= Side(n, size)
  {
    var w := n as real;
    var off := -lo * w;
    RoundShift(off, n);
    AxisSlack(w, lo, size, off);
    RoundMonotone(off + w, w * size);
    assert Offset(n, lo) == Round(off);
    assert Side(n, size) == Round(w * size);
  }

  /** Before rounding: the offset plus the original's side fits in the scaled side. */
  lemma AxisSlack(w: real, lo: real, size: real, off: real)
    requires w >= 0.0 && lo + size >= 1.0 && off == -lo * w
    ensures off + w <= w * size
  {
    var d := 1.0 - lo - size;
    assert w * d <= 0.0;
    assert off + w - w * size == w * d;
  }

  datatype Color = White | Black

  /** Lines 37-41: white everywhere, then the original's block painted black. */
  function MaskAt(g: Extension, img: ImageSize, px: int, py: int): (c: Color)
    ensures c == Black <==>
      g.offsetX <= px < g.offsetX + img.width && g.offsetY <= py < g.offsetY + img.height
  {
    if g.offsetX <= px < g.offsetX + img.width && g.offsetY <= py < g.offsetY + img.height
    then Black else White
  }

  /** The pixel of the extended image drawn from the original, if any. */
  function SourcePixel(g: Extension, img: ImageSize, px: int, py: int): (r: Option<(int, int)>)
    ensures r.Some? ==> 0 <= r.value.0 < img.width && 0 <= r.value.1 < img.height
    ensures r.Some? ==> r.value == (px - g.offsetX, py - g.offsetY)
  {
    var sx := px - g.offsetX;
    var sy := py - g.offsetY;
    if 0 <= sx < img.width && 0 <= sy < img.height then Some((sx, sy)) else None
  }

  /** The mask leaves the original's pixels black and asks for new content exactly
      where the extended canvas has no original pixel. */
  lemma MaskMarksNewArea(img: ImageSize, rect: Rect, px: int, py: int)
    ensures var g := ExtensionGeometry(img, rect);
      MaskAt(g, img, px, py) == White <==> SourcePixel(g, img, px, py).None?
  {
  }

  /** The full frame leaves nothing to fill in. */
  lemma FullFrameMaskAllBlack(img: ImageSize, px: int, py: int)
    requires 0 <= px < img.width && 0 <= py < img.height
    ensures MaskAt(ExtensionGeometry(img, FullFrame), img, px, py) == Black
  {
    FullFrameIsIdentity(img);
  }

  // ---------------------------------------------------------------------------
  // createMaskFromCrop

  /** Lines 155-158: the crop in pixels of the natural size. */
  function CropToPixels(crop: Rect, img: ImageSize): (r: Rect)
    ensures img.width > 0 ==> r.x / img.width as real == crop.x && r.width / img.width as real == crop.width
    ensures img.height > 0 ==> r.y / img.height as real == crop.y && r.height / img.height as real == crop.height
  {
    Rect(crop.x * img.width as real, crop.y * img.height as real,
      crop.width * img.width as real, crop.height * img.height as real)
  }

  /** A crop inside the image is a white rectangle inside the mask's canvas. */
  lemma CropPixelsInside(crop: Rect, img: ImageSize)
    requires WithinUnitSquare(crop)
    ensures var r := CropToPixels(crop, img);
      && 0.0 <= r.x && r.x + r.width <= img.width as real
      && 0.0 <= r.y && r.y + r.height <= img.height as real
      && 0.0 <= r.width && 0.0 <= r.height
  {
    var w, h := img.width as real, img.height as real;
    var r := CropToPixels(crop, img);
    assert r == Rect(crop.x * w, crop.y * h, crop.width * w, crop.height * h);
    ScaledSpanInside(crop.x, crop.width, w);
    ScaledSpanInside(crop.y, crop.height, h);
  }

  /** One axis of `CropPixelsInside`: a span of the unit interval scaled by `n`
      lies within `[0, n]`. */
  lemma ScaledSpanInside(a: real, len: real, n: real)
    requires 0.0 <= a && 0.0 <= len && a + len <= 1.0 && 0.0 <= n
    ensures 0.0 <= a * n && 0.0 <= len * n && a * n + len * n <= n
  {
    assert a * n + len * n == (a + len) * n;
    assert (a + len) * n <= 1.0 * n;
  }

  // ---------------------------------------------------------------------------
  // applyMaskToImage

  /** Line 102: the luminance of a mask pixel, used as the original's alpha. */
  function Luminance(r: real, g: real, b: real): (l: real)
    requires 0.0 <= r <= 255.0 && 0.0 <= g <= 255.0 && 0.0 <= b <= 255.0
    ensures 0.0 <= l <= 255.0
    ensures Min(r, Min(g, b)) <= l <= Max(r, Max(g, b))
  {
    0.299 * r + 0.587 * g + 0.114 * b
  }

  /** The weights sum to one: a grey pixel's luminance is its own level, so white
      keeps the original opaque and black makes it transparent. */
  lemma GreyLuminance(v: real)
    requires 0.0 <= v <= 255.0
    ensures Luminance(v, v, v) == v
    ensures v == 255.0 ==> Luminance(v, v, v) == 255.0
    ensures v == 0.0 ==> Luminance(v, v, v) == 0.0
  {
  }

  /** Brighter mask pixels never give a lower alpha. */
  lemma LuminanceMonotone(r: real, g: real, b: real, r': real, g': real, b': real)
    requires 0.0 <= r <= r' <= 255.0 && 0.0 <= g <= g' <= 255.0 && 0.0 <= b <= b' <= 255.0
    ensures Luminance(r, g, b) <= Luminance(r', g', b')
  {
  }
}

=== FILE: data_url.dfy ===
/** Image data URLs as services/geminiService.ts reads and writes them: the
    `^data:(image\/.+);base64,(.+)$` splitter of `base64ToInlineData`, the URL the
    service assembles from a model reply, and the mime sniffing of `resizeImage`
    (utils/canvasUtils.ts), which uses the same pattern without its data part. */
module DataUrl {
  import opened Wrappers
  import opened Strings

  const Prefix: string := "data:"
  const ImagePrefix: string := "data:image/"
  const Marker: string := ";base64,"
  const InvalidFormat: string := "Invalid base64 string format"

  /** The characters a regular-expression `.` does not match. */
  predicate IsLineTerminator(c: char) {
    c == '\n' || c == '\r' || c == '\U{2028}' || c == '\U{2029}'
  }

  predicate NoLineTerminator(s: string) {
    forall i :: 0 <= i < |s| ==> !IsLineTerminator(s[i])
  }

  predicate StartsWith(s: string, pre: string) {
    |pre| <= |s| && s[..|pre|] == pre
  }

  /** `s` is `data:` + `mime` + `;base64,` + `data`, with each capture as the pattern
      demands: `image/` and at least one more character, then non-empty data, and
      no line terminator anywhere. */
  predicate Decomposes(s: string, mime: string, data: string) {
    && s == Prefix + mime + Marker + data
    && |mime| > 6 && mime[..6] == "image/"
    && data != ""
    && NoLineTerminator(mime) && NoLineTerminator(data)
  }

  // ---------------------------------------------------------------------------
  // Searching for the marker

  /** A marker at `p` after `data:image/` and one more character, followed by at
      least `tail` characters, with no line terminator before it. */
  predicate MarkerAt(s: string, p: int, tail: nat) {
    && |ImagePrefix| + 1 <= p && p + |Marker| + tail <= |s|
    && OccursAt(s, Marker, p)
    && NoLineTerminator(s[..p])
  }

  /** The last marker position at or before `p`: the split the greedy `(image\/.+)`
      chooses. */
  function LastMarker(s: string, p: int, tail: nat): (r: Option<nat>)
    ensures r.Some? ==> r.value <= p && MarkerAt(s, r.value, tail)
    ensures r.Some? ==> forall q :: r.value < q <= p ==> !MarkerAt(s, q, tail)
    ensures r.None? ==> forall q :: q <= p ==> !MarkerAt(s, q, tail)
    decreases p
  {
    if p < |ImagePrefix| + 1 then None
    else if MarkerAt(s, p, tail) then Some(p)
    else LastMarker(s, p - 1, tail)
  }

  // ---------------------------------------------------------------------------
  // base64ToInlineData

  /** `base64ToInlineData`: the mime type and the data of a data URL, or the error
      it throws when the pattern does not match. */
  function Parse(s: string): (r: Result<(string, string)>)
    ensures r.Err? ==> r.message == InvalidFormat
    ensures r.Ok? ==> Decomposes(s, r.value.0, r.value.1)
  {
    if !NoLineTerminator(s) || !StartsWith(s, ImagePrefix) then Err(InvalidFormat)
    else
      match LastMarker(s, |s|, 1)
      case None => Err(InvalidFormat)
      case Some(p) =>
        var mime := s[|Prefix|..p];
        var data := s[p + |Marker|..];
        assert s == Prefix + mime + Marker + data by {
          assert s[..|Prefix|] == Prefix;
          assert s[p..p + |Marker|] == Marker;
          assert s == s[..|Prefix|] + s[|Prefix|..p] + s[p..p + |Marker|] + s[p + |Marker|..];
        }
        assert mime[..6] == s[|Prefix|..|ImagePrefix|];
        Ok((mime, data))
  }

  /** The position of the marker in a decomposition. */
  lemma DecompositionMarker(s: string, mime: string, data: string)
    requires Decomposes(s, mime, data)
    ensures StartsWith(s, ImagePrefix) && NoLineTerminator(s)
    ensures MarkerAt(s, |Prefix| + |mime|, 1)
    ensures mime == s[|Prefix|..|Prefix| + |mime|] && data == s[|Prefix| + |mime| + |Marker|..]
  {
    var p := |Prefix| + |mime|;
    assert s[..|ImagePrefix|] == Prefix + mime[..6];
    assert s[p..p + |Marker|] == Marker;
    assert s[..p] == Prefix + mime;
    forall i | 0 <= i < |s|
      ensures !IsLineTerminator(s[i])
    {
      if i < |Prefix| {
        assert s[i] == Prefix[i];
      } else if i < p {
        assert s[i] == mime[i - |Prefix|];
      } else if i < p + |Marker| {
        assert s[i] == Marker[i - p];
      } else {
        assert s[i] == data[i - p - |Marker|];
      }
    }
  }

  /** The parser fails exactly when the pattern matches no way. */
  lemma ParseFailsIffNoMatch(s: string)
    ensures Parse(s).Err? <==> forall mime, data :: !Decomposes(s, mime, data)
  {
    if Parse(s).Err? {
      forall mime, data
        ensures !Decomposes(s, mime, data)
      {
        if Decomposes(s, mime, data) {
          DecompositionMarker(s, mime, data);
          assert false;
        }
      }
    }
  }

  /** Of all the ways to match, the parser takes the longest mime type: the split
      is at the last marker that leaves data after it. */
  lemma ParseIsGreedy(s: string, mime: string, data: string)
    requires Decomposes(s, mime, data)
    ensures Parse(s).Ok? && |Parse(s).value.0| >= |mime|
  {
    DecompositionMarker(s, mime, data);
    ParseFailsIffNoMatch(s);
  }

  // ---------------------------------------------------------------------------
  // Assembling a reply

  /** `data:${mimeType};base64,${data}`, as the service builds it from a reply. */
  function Build(mime: string, data: string): (s: string)
    ensures StartsWith(s, Prefix) && |s| == |Prefix| + |mime| + |Marker| + |data|
    ensures s[|Prefix|..|Prefix| + |mime|] == mime && s[|s| - |data|..] == data
  {
    Prefix + mime + Marker + data
  }

  /** A well-formed mime type and data that does not itself hold the marker come
      back out of the parser unchanged. */
  lemma ParseBuild(mime: string, data: string)
    requires |mime| > 6 && mime[..6] == "image/"
    requires data != "" && !Contains(data, Marker)
    requires NoLineTerminator(mime) && NoLineTerminator(data)
    ensures Parse(Build(mime, data)) == Ok((mime, data))
  {
    var s := Build(mime, data);
    var p := |Prefix| + |mime|;
    assert Decomposes(s, mime, data);
    DecompositionMarker(s, mime, data);
    ParseFailsIffNoMatch(s);
    var q := LastMarker(s, |s|, 1).value;
    assert q >= p;
    if p < q < p + |Marker| {
      MarkerDoesNotOverlap(s, p, q);
      assert false;
    } else if q > p {
      var k := q - p - |Marker|;
      assert data[k..k + |Marker|] == s[q..q + |Marker|];
      assert OccursAt(data, Marker, k);
      assert false;
    }
  }

  /** Two markers never overlap: only the first character of the marker is `;`. */
  lemma MarkerDoesNotOverlap(s: string, p: int, q: int)
    requires OccursAt(s, Marker, p) && p < q < p + |Marker|
    ensures !OccursAt(s, Marker, q)
  {
    if q + |Marker| <= |s| {
      assert s[q] == s[p..p + |Marker|][q - p] == Marker[q - p] != ';';
      assert s[q..q + |Marker|][0] == s[q];
    }
  }

  /** A marker inside the data moves the split: the parser reads everything up to
      the last marker as the mime type. */
  lemma MarkerInDataMovesSplit(mime: string, a: string, b: string)
    requires |mime| > 6 && mime[..6] == "image/"
    requires b != "" && !Contains(b, Marker)
    requires NoLineTerminator(mime) && NoLineTerminator(a) && NoLineTerminator(b)
    ensures Parse(Build(mime, a + Marker + b)) == Ok((mime + Marker + a, b))
  {
    var longer := mime + Marker + a;
    assert longer[..6] == mime[..6];
    NoLineTerminatorConcat(mime, Marker);
    NoLineTerminatorConcat(mime + Marker, a);
    ParseBuild(longer, b);
    BuildRegroup(mime, a, b);
  }

  lemma BuildRegroup(mime: string, a: string, b: string)
    ensures Build(mime + Marker + a, b) == Build(mime, a + Marker + b)
  {
    assert Prefix + (mime + Marker + a) + Marker + b == Prefix + mime + Marker + (a + Marker + b);
  }

  lemma NoLineTerminatorConcat(x: string, y: string)
    requires NoLineTerminator(x) && (forall i :: 0 <= i < |y| ==> !IsLineTerminator(y[i]))
    ensures NoLineTerminator(x + y)
  {
    forall i | 0 <= i < |x + y|
      ensures !IsLineTerminator((x + y)[i])
    {
      if i >= |x| {
        assert (x + y)[i] == y[i - |x|];
      }
    }
  }

  // ---------------------------------------------------------------------------
  // resizeImage's mime type

  const DefaultResizeMime: string := "image/jpeg"

  /** `base64Str.match(/^data:(image\/.+);base64,/)?.[1] || 'image/jpeg'`: the mime
      type before the last marker, which may now end the string, or JPEG. */
  function ResizeMime(s: string): (mime: string)
    ensures |mime| > 6 && mime[..6] == "image/"
  {
    if !StartsWith(s, ImagePrefix) then DefaultResizeMime
    else
      match LastMarker(s, |s|, 0)
      case None => DefaultResizeMime
      case Some(p) =>
        assert s[|Prefix|..p][..6] == s[|Prefix|..|ImagePrefix|];
        s[|Prefix|..p]
  }

  /** A URL the parser accepts keeps its mime type through a resize, unless it ends
      with the marker. */
  lemma ResizeKeepsParsedMime(s: string)
    requires Parse(s).Ok?
    requires !(|s| >= |Marker| && s[|s| - |Marker|..] == Marker)
    ensures ResizeMime(s) == Parse(s).value.0
  {
    assert StartsWith(s, ImagePrefix);
    LastMarkerIgnoresTail(s, |s|);
  }

  /** Away from the very end, a marker followed by nothing is also followed by
      something. */
  lemma MarkerTail(s: string, p: int)
    requires !(|s| >= |Marker| && s[|s| - |Marker|..] == Marker)
    ensures MarkerAt(s, p, 0) <==> MarkerAt(s, p, 1)
  {
  }

  lemma {:induction false} LastMarkerIgnoresTail(s: string, p: int)
    requires !(|s| >= |Marker| && s[|s| - |Marker|..] == Marker)
    ensures LastMarker(s, p, 0) == LastMarker(s, p, 1)
    decreases p
  {
    if p >= |ImagePrefix| + 1 {
      MarkerTail(s, p);
      LastMarkerIgnoresTail(s, p - 1);
    }
  }

  /** A URL outside the pattern is resized to JPEG. */
  lemma ResizeDefaultsToJpeg(s: string)
    requires !StartsWith(s, ImagePrefix)
    ensures ResizeMime(s) == "image/jpeg"
  {
  }
}

=== FILE: editor.dfy ===
/** The editor's state machine of `useEditor` (hooks/useEditor.ts): tools and modes,
    pointer routing between the magic-ratio handles, panning and crop drawing, and
    the history commits that follow successful AI results.  Results of the AI
    calls, the image's natural size and the pointer's image coordinates arrive as
    parameters. */
module Editor {
  import opened Wrappers
  import opened Geometry
  import opened Strings
  import History
  import Selection
  import Viewport
  import opened MagicRatio

  datatype Tool = Pan | CropTool

  datatype EditorState = EditorState(
    prompt: string,
    selectedLabel: Option<string>,
    tool: Tool,
    cropMode: bool,
    magicMode: bool,
    magicRect: Rect,
    aspect: Option<Ratio>,
    activeHandle: Option<Handle>,
    dragStartPos: Point,
    dragStartRect: Rect,
    spacePanning: bool,
    selection: Selection.Selection,
    viewport: Viewport.Viewport,
    history: History.History)

  /** The state after an action and the image source handed to `onSave`, if any. */
  datatype Outcome = Outcome(editor: EditorState, saved: Option<string>)

  /** Zoom stays positive, the history has a current entry, and crop mode and
      magic-ratio mode are never on together. */
  predicate Valid(e: EditorState) {
    Viewport.Valid(e.viewport) && History.Valid(e.history) && !(e.cropMode && e.magicMode)
  }

  /** True when no pointer gesture is in progress. */
  predicate AtRest(e: EditorState) {
    e.activeHandle.None? && !e.viewport.isPanning && !e.selection.isCropping
  }

  // ---------------------------------------------------------------------------
  // Project lifecycle

  /** The state on first render of a project whose image is `src`; `img` and `c`
      are the image's natural size and the container's size when the view is
      fitted (absent while the image has not loaded). */
  function Open(src: string, img: Option<ImageSize>, c: Option<Viewport.ContainerSize>): (e: EditorState)
    ensures Valid(e) && AtRest(e)
    ensures History.Current(e.history) == src && !History.CanUndo(e.history)
    ensures e.tool == Pan && !e.cropMode && !e.magicMode && e.magicRect == FullFrame
  {
    LoadProject(
      EditorState("", None, Pan, false, false, FullFrame, None, None, Point(0.0, 0.0), FullFrame,
                  false, Selection.Initial(), Viewport.Initial(), History.Reset(src)),
      src, img, c)
  }

  /** The effects run when the project changes: history restarts at the project's
      image and tools, modes, selection, detections and prompt are reset, and the
      view is fitted to the image as `useViewport` does on a new project.  The
      magic rectangle and its ratio are left as they were. */
  function LoadProject(e: EditorState, src: string, img: Option<ImageSize>,
                       c: Option<Viewport.ContainerSize>): (r: EditorState)
    ensures History.Valid(r.history) && History.Current(r.history) == src
    ensures !History.CanUndo(r.history) && !History.CanRedo(r.history)
    ensures r.tool == Pan && !r.cropMode && !r.magicMode
    ensures r.selection.cropRect.None? && r.selection.detected == []
    ensures r.prompt == "" && r.selectedLabel.None?
    ensures r.magicRect == e.magicRect && r.aspect == e.aspect
    ensures r.selection.isCropping == e.selection.isCropping && r.selection.anchor == e.selection.anchor
    ensures r == e.(history := r.history, tool := Pan, cropMode := false, magicMode := false,
                    selection := r.selection, prompt := "", selectedLabel := None, viewport := r.viewport)
    ensures Fits(img, c) ==>
      && r.viewport.zoom == r.viewport.liveZoom == Viewport.FitZoom(img.value, c.value)
      && r.viewport.pan == r.viewport.livePan == Viewport.Origin
      && r.viewport == e.viewport.(liveZoom := r.viewport.liveZoom, zoom := r.viewport.zoom,
                                   livePan := Viewport.Origin, pan := Viewport.Origin)
    ensures !Fits(img, c) ==> r.viewport == e.viewport
    ensures Viewport.Valid(e.viewport) ==> Viewport.Valid(r.viewport)
  {
    Refit(e.(history := History.Reset(src), tool := Pan, cropMode := false, magicMode := false,
             selection := e.selection.(cropRect := None, detected := []),
             prompt := "", selectedLabel := None),
          img, c)
  }

  /** Whether a fit can be computed: both sizes are known and have a width. */
  predicate Fits(img: Option<ImageSize>, c: Option<Viewport.ContainerSize>) {
    img.Some? && c.Some? && img.value.width > 0 && c.value.clientWidth > 0
  }

  /** The image finished loading or the window was resized: the view is fitted
      again and nothing else changes. */
  function Refit(e: EditorState, img: Option<ImageSize>, c: Option<Viewport.ContainerSize>): (r: EditorState)
    ensures r == e.(viewport := r.viewport)
    ensures Fits(img, c) ==>
      && r.viewport.zoom == r.viewport.liveZoom == Viewport.FitZoom(img.value, c.value)
      && r.viewport.pan == r.viewport.livePan == Viewport.Origin
      && r.viewport.isPanning == e.viewport.isPanning
      && r.viewport == e.viewport.(liveZoom := r.viewport.liveZoom, zoom := r.viewport.zoom,
                                   livePan := Viewport.Origin, pan := Viewport.Origin)
    ensures !Fits(img, c) ==> r == e
    ensures Valid(e) ==> Valid(r)
  {
    e.(viewport := Viewport.ResetViewToFit(e.viewport, img, c))
  }

  // ---------------------------------------------------------------------------
  // Tools and modes

  /** `handlePanToggle`: outside crop mode the tool is forced to pan; inside it the
      tool flips. */
  function PanToggle(e: EditorState): (r: EditorState)
    ensures !e.cropMode ==> r == e.(tool := Pan)
    ensures e.cropMode ==> r == e.(tool := if e.tool == Pan then CropTool else Pan)
    ensures r.tool != e.tool || !e.cropMode
  {
    if !e.cropMode then e.(tool := Pan)
    else e.(tool := if e.tool == Pan then CropTool else Pan)
  }

  /** `handleClearSelection`: no crop, no detections, no prompt, no label. */
  function ClearSelection(e: EditorState): (r: EditorState)
    ensures r.selection.cropRect.None? && r.selection.detected == []
    ensures r.prompt == "" && r.selectedLabel.None?
    ensures r.selection.isCropping == e.selection.isCropping
    ensures r == e.(selection := r.selection, prompt := "", selectedLabel := None)
  {
    e.(selection := Selection.Clear(e.selection), prompt := "", selectedLabel := None)
  }

  /** `handleMagicCropToggle`: entering crop mode selects the crop tool and leaves
      magic-ratio mode; leaving it selects pan and clears the selection. */
  function MagicCropToggle(e: EditorState): (r: EditorState)
    ensures r.cropMode == !e.cropMode
    ensures r.cropMode ==> r.tool == CropTool && !r.magicMode && r.selection == e.selection
    ensures r.cropMode ==> r == e.(cropMode := true, tool := CropTool, magicMode := false)
    ensures !r.cropMode ==>
      && r.tool == Pan && r.magicMode == e.magicMode
      && r.selection.cropRect.None? && r.selection.detected == [] && r.prompt == ""
      && r.selectedLabel.None?
      && r.selection.isCropping == e.selection.isCropping && r.selection.anchor == e.selection.anchor
      && r == e.(cropMode := false, tool := Pan, selection := r.selection, prompt := "", selectedLabel := None)
  {
    if !e.cropMode then e.(cropMode := true, tool := CropTool, magicMode := false)
    else ClearSelection(e).(cropMode := false, tool := Pan)
  }

  /** `handleCancelMagicRatio`: leaves magic-ratio mode and restores the whole frame. */
  function CancelMagicRatio(e: EditorState): (r: EditorState)
    ensures !r.magicMode && r.aspect.None? && !IsRatioChanged(r.magicRect)
    ensures r == e.(magicMode := false, aspect := None, magicRect := r.magicRect)
  {
    e.(magicMode := false, aspect := None, magicRect := FullFrame)
  }

  /** An entry of the aspect-ratio menu. */
  datatype AspectChoice = Free | Preset(ratio: Ratio)

  /** `handleSelectAspectRatio`: enters magic-ratio mode (pan tool, crop mode off,
      selection cleared); with a loaded image, "free" restores the whole frame and a
      preset installs its centred rectangle.  Without an image (or one reporting a
      zero width) the rectangle and ratio are left alone. */
  function SelectAspectRatio(e: EditorState, choice: AspectChoice, img: Option<ImageSize>): (r: EditorState)
    ensures r.magicMode && r.tool == Pan && !r.cropMode
    ensures r.selection.cropRect.None? && r.selection.detected == [] && r.prompt == ""
    ensures r.selectedLabel.None?
    ensures r.selection.isCropping == e.selection.isCropping && r.selection.anchor == e.selection.anchor
    ensures r == e.(magicMode := true, tool := Pan, cropMode := false, selection := r.selection, prompt := "",
                    selectedLabel := None, magicRect := r.magicRect, aspect := r.aspect)
    ensures img.None? || img.value.width == 0 ==> r.magicRect == e.magicRect && r.aspect == e.aspect
    ensures img.Some? && img.value.width > 0 && choice.Free? ==> r.aspect.None? && r.magicRect == FullFrame
    ensures img.Some? && img.value.width > 0 && choice.Preset? ==>
      && r.aspect == Some(choice.ratio)
      && r.magicRect == PresetRect(choice.ratio, img.value)
      && CoversUnitSquare(r.magicRect)
      && r.magicRect.width * img.value.width as real
         == RatioValue(choice.ratio) * r.magicRect.height * img.value.height as real
  {
    var base := ClearSelection(e.(magicMode := true, tool := Pan, cropMode := false));
    if img.None? || img.value.width == 0 then base
    else match choice
      case Free => base.(aspect := None, magicRect := FullFrame)
      case Preset(ar) => base.(aspect := Some(ar), magicRect := PresetRect(ar, img.value))
  }

  /** `handleDrawManually`: forget detections, clear the selection, pick the crop tool. */
  function DrawManually(e: EditorState): (r: EditorState)
    ensures r.tool == CropTool && r.selection.detected == [] && r.selection.cropRect.None?
    ensures r.cropMode == e.cropMode && r.magicMode == e.magicMode
    ensures r.prompt == "" && r.selectedLabel.None?
    ensures r.selection.isCropping == e.selection.isCropping && r.selection.anchor == e.selection.anchor
    ensures r == e.(selection := r.selection, prompt := "", selectedLabel := None, tool := CropTool)
  {
    ClearSelection(e.(selection := e.selection.(detected := []))).(tool := CropTool)
  }

  /** `handleDetectObjects` once the detection call returns: the selection is cleared
      first; a result installs the detections and picks the crop tool. */
  function DetectObjectsReturned(e: EditorState, objects: Option<seq<Selection.DetectedObject>>): (r: EditorState)
    ensures r.selection.cropRect.None? && r.prompt == "" && r.selectedLabel.None?
    ensures r.selection.isCropping == e.selection.isCropping && r.selection.anchor == e.selection.anchor
    ensures r == e.(selection := r.selection, prompt := "", selectedLabel := None, tool := r.tool)
    ensures objects.None? ==> r == ClearSelection(e)
    ensures objects.Some? ==> r.selection.detected == objects.value && r.tool == CropTool
  {
    var cleared := ClearSelection(e);
    match objects
    case None => cleared
    case Some(objs) => cleared.(selection := cleared.selection.(detected := objs), tool := CropTool)
  }

  /** `handleSelectDetectedObject`: the crop becomes the object's box, its label is
      remembered, the prompt emptied and the crop tool chosen. */
  function SelectDetectedObject(e: EditorState, o: Selection.DetectedObject): (r: EditorState)
    ensures Selection.IsSelected(r.selection.cropRect, o)
    ensures r.selectedLabel == Some(o.labelText) && r.prompt == "" && r.tool == CropTool
    ensures r.selection.detected == e.selection.detected
    ensures r.selection.isCropping == e.selection.isCropping && r.selection.anchor == e.selection.anchor
    ensures r == e.(selection := r.selection, selectedLabel := r.selectedLabel, prompt := "", tool := CropTool)
  {
    e.(selection := Selection.SelectObject(e.selection, o), selectedLabel := Some(o.labelText),
       prompt := "", tool := CropTool)
  }

  /** The space bar: pressing it outside a text field starts space-panning, and
      releasing it anywhere stops it. */
  function SpaceKey(e: EditorState, down: bool, inTextField: bool): (r: EditorState)
    ensures down && inTextField ==> r == e
    ensures !(down && inTextField) ==> r == e.(spacePanning := down)
  {
    if down && inTextField then e else e.(spacePanning := down)
  }

  // ---------------------------------------------------------------------------
  // AI results

  /** JavaScript truthiness of an optional string: present and non-empty. */
  predicate Truthy(s: Option<string>) {
    s.Some? && s.value != ""
  }

  /** The label `handleGenerate` asks the model to identify: none when the user
      picked a (non-empty) label already. */
  predicate NeedsIdentification(selectedLabel: Option<string>) {
    !Truthy(selectedLabel)
  }

  /** The prompt sent with an edit: `"<label>, <prompt>"` with the selected label,
      else the identified one, else the bare prompt. */
  function ComposePrompt(selectedLabel: Option<string>, identified: Option<string>, prompt: string): (p: string)
    ensures Truthy(selectedLabel) ==> p == selectedLabel.value + ", " + prompt
    ensures !Truthy(selectedLabel) && Truthy(identified) ==> p == identified.value + ", " + prompt
    ensures !Truthy(selectedLabel) && !Truthy(identified) ==> p == prompt
    ensures |p| >= |prompt| && p[|p| - |prompt|..] == prompt
  {
    var chosen := if Truthy(selectedLabel) then selectedLabel else identified;
    if Truthy(chosen) then chosen.value + ", " + prompt else prompt
  }

  /** `handleGenerate` once the edit returns: nothing happens without a crop or a
      result; otherwise the result is committed and saved, the selection cleared,
      crop mode left and the pan tool chosen. */
  function GenerateReturned(e: EditorState, newSrc: Option<string>): (r: Outcome)
    requires Valid(e)
    ensures Valid(r.editor)
    ensures e.selection.cropRect.None? || newSrc.None? ==> r == Outcome(e, None)
    ensures e.selection.cropRect.Some? && newSrc.Some? ==>
      && r.saved == newSrc
      && History.Current(r.editor.history) == newSrc.value
      && History.CanUndo(r.editor.history) && !History.CanRedo(r.editor.history)
      && r.editor.selection.cropRect.None? && r.editor.selection.detected == []
      && r.editor.selection.isCropping == e.selection.isCropping
      && r.editor.prompt == "" && r.editor.selectedLabel.None?
      && !r.editor.cropMode && r.editor.tool == Pan
      && r.editor == e.(history := r.editor.history, selection := r.editor.selection, prompt := "",
                        selectedLabel := None, cropMode := false, tool := Pan)
  {
    if e.selection.cropRect.None? || newSrc.None? then Outcome(e, None)
    else
      var step := History.Commit(e.history, newSrc.value);
      Outcome(ClearSelection(e.(history := step.history)).(cropMode := false, tool := Pan), step.notified)
  }

  /** `handleGenerateMagicRatio` once the expansion returns: a result is committed
      and saved and magic-ratio mode is left. */
  function ExpansionReturned(e: EditorState, newSrc: Option<string>): (r: Outcome)
    requires Valid(e)
    ensures Valid(r.editor)
    ensures newSrc.None? ==> r == Outcome(e, None)
    ensures newSrc.Some? ==>
      && r.saved == newSrc && History.Current(r.editor.history) == newSrc.value
      && History.CanUndo(r.editor.history) && !History.CanRedo(r.editor.history)
      && !r.editor.magicMode && r.editor.magicRect == e.magicRect
      && r.editor == e.(history := r.editor.history, magicMode := false)
  {
    match newSrc
    case None => Outcome(e, None)
    case Some(src) =>
      var step := History.Commit(e.history, src);
      Outcome(e.(history := step.history, magicMode := false), step.notified)
  }

  /** `handleUpscale` once the upscale returns: a result is committed and saved. */
  function UpscaleReturned(e: EditorState, newSrc: Option<string>): (r: Outcome)
    requires Valid(e)
    ensures Valid(r.editor)
    ensures newSrc.None? ==> r == Outcome(e, None)
    ensures newSrc.Some? ==>
      && r.saved == newSrc && History.Current(r.editor.history) == newSrc.value
      && History.CanUndo(r.editor.history) && !History.CanRedo(r.editor.history)
      && r.editor == e.(history := r.editor.history)
  {
    match newSrc
    case None => Outcome(e, None)
    case Some(src) =>
      var step := History.Commit(e.history, src);
      Outcome(e.(history := step.history), step.notified)
  }

  /** `handleUndo`: steps back and saves the entry it lands on. */
  function Undo(e: EditorState): (r: Outcome)
    requires Valid(e)
    ensures Valid(r.editor) && r.editor == e.(history := r.editor.history)
    ensures History.CanUndo(e.history) ==> r.saved == Some(History.Current(r.editor.history))
    ensures !History.CanUndo(e.history) ==> r == Outcome(e, None)
  {
    var step := History.Undo(e.history);
    Outcome(e.(history := step.history), step.notified)
  }

  /** `handleRedo`: steps forward and saves the entry it lands on. */
  function Redo(e: EditorState): (r: Outcome)
    requires Valid(e)
    ensures Valid(r.editor) && r.editor == e.(history := r.editor.history)
    ensures History.CanRedo(e.history) ==> r.saved == Some(History.Current(r.editor.history))
    ensures !History.CanRedo(e.history) ==> r == Outcome(e, None)
  {
    var step := History.Redo(e.history);
    Outcome(e.(history := step.history), step.notified)
  }

  // ---------------------------------------------------------------------------
  // Pointer routing

  /** Who receives a mouse-down. */
  datatype Route = Ignored | HandleDrag(handle: Handle) | PanDrag | CropDraw | NoTarget

  /** `handleMouseDown`'s decision: nothing while an AI call runs; a handle in
      magic-ratio mode starts a handle drag; otherwise a pan when panning is allowed,
      else a crop draw in crop mode with the crop tool and no detections. */
  function RouteMouseDown(e: EditorState, loading: bool, handle: Option<Handle>): (route: Route)
    ensures loading <==> route == Ignored
    ensures route.HandleDrag? <==> !loading && e.magicMode && handle.Some?
    ensures route.HandleDrag? ==> route.handle == handle.value
    ensures route == PanDrag <==> !loading && !(e.magicMode && handle.Some?) && CanPan(e)
    ensures route == CropDraw <==>
      && !loading && !(e.magicMode && handle.Some?) && !CanPan(e)
      && e.cropMode && e.tool == CropTool && |e.selection.detected| == 0
  {
    if loading then Ignored
    else if e.magicMode && handle.Some? then HandleDrag(handle.value)
    else if CanPan(e) then PanDrag
    else if e.cropMode && e.tool == CropTool && |e.selection.detected| == 0 then CropDraw
    else NoTarget
  }

  /** `canPan`: the pan tool, the crop tool with space held, or magic-ratio mode. */
  predicate CanPan(e: EditorState) {
    e.tool == Pan || (e.tool == CropTool && e.spacePanning) || e.magicMode
  }

  /** A mouse-down at `client`, `coords` being its position on the image (if any).
      It starts the gesture its route names and touches nothing else. */
  function MouseDown(e: EditorState, loading: bool, handle: Option<Handle>, client: Point,
                     coords: Option<Point>): (r: EditorState)
    ensures var route := RouteMouseDown(e, loading, handle);
      && (route.HandleDrag? ==>
            && r.activeHandle == handle && r.dragStartPos == client && r.dragStartRect == e.magicRect
            && r == e.(activeHandle := r.activeHandle, dragStartPos := client, dragStartRect := e.magicRect))
      && (route == PanDrag ==>
            && r.viewport.isPanning && r.viewport.panStart == client
            && r.viewport.livePan == e.viewport.livePan && r.viewport.liveZoom == e.viewport.liveZoom
            && r.viewport.startPan == e.viewport.livePan
            && r.viewport.zoom == e.viewport.zoom && r.viewport.pan == e.viewport.pan
            && r.viewport.pendingCommit == e.viewport.pendingCommit && r.viewport.gesture == e.viewport.gesture
            && r == e.(viewport := r.viewport))
      && (route == CropDraw && coords.Some? ==>
            && r.selection.isCropping && r.selection.anchor == coords.value
            && r.selection.cropRect == Some(Selection.Crop(Rect(coords.value.x, coords.value.y, 0.0, 0.0), None))
            && r == e.(selection := r.selection))
      && (route == CropDraw && coords.None? ==> r == e)
      && (route == Ignored || route == NoTarget ==> r == e)
  {
    match RouteMouseDown(e, loading, handle)
    case HandleDrag(h) =>
      e.(activeHandle := Some(h), dragStartPos := client, dragStartRect := e.magicRect)
    case PanDrag => e.(viewport := Viewport.PanMouseDown(e.viewport, client))
    case CropDraw => e.(selection := Selection.MouseDown(e.selection, coords))
    case _ => e
  }

  /** `handleMouseMove`: a handle drag reshapes the magic rectangle (when the image
      has a size), locked to the preset's `w / h` read as the ratio of the
      rectangle's normalized sides; otherwise the pan follows the pointer when
      panning, else a crop draw follows it. */
  function MouseMove(e: EditorState, client: Point, coords: Option<Point>, img: Option<ImageSize>): (r: EditorState)
    requires Valid(e)
    ensures e.magicMode && e.activeHandle.Some? ==>
      && r == e.(magicRect := r.magicRect)
      && (img.None? || img.value.width == 0 ==> r == e)
      && (img.Some? && img.value.width > 0 ==>
            var q := Propose(e.dragStartRect, AsWrittenLock(e.aspect), e.activeHandle.value,
                             NormalizedDelta(e.dragStartPos, client, e.viewport.zoom, img.value));
            q.width > MinMagicSize && q.height > MinMagicSize ==> r.magicRect == q)
      && (r.magicRect != e.magicRect ==>
            && r.magicRect.width > MinMagicSize && r.magicRect.height > MinMagicSize
            && (e.aspect.Some? ==> HasRatio(r.magicRect, RatioValue(e.aspect.value))))
    ensures !(e.magicMode && e.activeHandle.Some?) && PanMoves(e) ==>
      && r == e.(viewport := e.viewport.(livePan := r.viewport.livePan))
      && (e.viewport.isPanning ==>
            && r.viewport.livePan.x - e.viewport.startPan.x == client.x - e.viewport.panStart.x
            && r.viewport.livePan.y - e.viewport.startPan.y == client.y - e.viewport.panStart.y)
      && (!e.viewport.isPanning ==> r == e)
    ensures !(e.magicMode && e.activeHandle.Some?) && !PanMoves(e) ==>
      && r == e.(selection := e.selection.(cropRect := r.selection.cropRect))
      && (e.selection.isCropping && coords.Some? ==>
            r.selection.cropRect == Some(Selection.Crop(Selection.Span(e.selection.anchor, coords.value), None)))
      && (!e.selection.isCropping || coords.None? ==> r == e)
  {
    if e.magicMode && e.activeHandle.Some? then
      if img.None? || img.value.width == 0 then e
      else HandleDragMove(e, client, img.value, AsWrittenLock(e.aspect))
    else if PanMoves(e) then e.(viewport := Viewport.PanMouseMove(e.viewport, client))
    else if e.selection.isCropping then e.(selection := Selection.MouseMove(e.selection, coords))
    else e
  }

  /** One pointer move of a handle drag under the ratio lock `lock`: the rectangle
      becomes the proposal measured from the drag start when both of its sides
      exceed 0.2, and nothing else changes. */
  function HandleDragMove(e: EditorState, client: Point, img: ImageSize, lock: Option<real>): (r: EditorState)
    requires Valid(e) && e.activeHandle.Some? && ValidLock(lock) && img.width > 0
    ensures r == e.(magicRect := r.magicRect)
    ensures var q := Propose(e.dragStartRect, lock, e.activeHandle.value,
                             NormalizedDelta(e.dragStartPos, client, e.viewport.zoom, img));
      && (r.magicRect == e.magicRect || r.magicRect == q)
      && (q.width > MinMagicSize && q.height > MinMagicSize ==> r.magicRect == q)
    ensures r.magicRect != e.magicRect ==>
      && r.magicRect.width > MinMagicSize && r.magicRect.height > MinMagicSize
      && (lock.Some? ==> HasRatio(r.magicRect, lock.value))
  {
    e.(magicRect := DragTo(e.magicRect, e.dragStartRect, lock, e.activeHandle.value,
                           e.dragStartPos, client, e.viewport.zoom, img))
  }

  /** `handleMouseMove` with the lock measured in pixels (`MagicRatio.PixelLock`),
      the behaviour a preset evidently intends: a drag keeps the rectangle at the
      preset's ratio in pixels.  Everything but the handle drag is as in
      `MouseMove`. */
  function PixelLockedMouseMove(e: EditorState, client: Point, coords: Option<Point>,
                                img: Option<ImageSize>): (r: EditorState)
    requires Valid(e)
    ensures !(e.magicMode && e.activeHandle.Some? && img.Some? && img.value.width > 0) ==>
      r == MouseMove(e, client, coords, img)
    ensures e.magicMode && e.activeHandle.Some? ==> r == e.(magicRect := r.magicRect)
    ensures e.magicMode && e.activeHandle.Some? && img.Some? && img.value.width > 0 ==>
      var q := Propose(e.dragStartRect, PixelLock(e.aspect, img.value), e.activeHandle.value,
                       NormalizedDelta(e.dragStartPos, client, e.viewport.zoom, img.value));
      q.width > MinMagicSize && q.height > MinMagicSize ==> r.magicRect == q
    ensures e.magicMode && e.activeHandle.Some? && r.magicRect != e.magicRect ==>
      r.magicRect.width > MinMagicSize && r.magicRect.height > MinMagicSize
    ensures e.magicMode && e.activeHandle.Some? && e.aspect.Some? && img.Some?
            && r.magicRect != e.magicRect ==>
      HasPixelRatio(r.magicRect, RatioValue(e.aspect.value), img.value)
  {
    if e.magicMode && e.activeHandle.Some? && img.Some? && img.value.width > 0 then
      var lock := PixelLock(e.aspect, img.value);
      var r := HandleDragMove(e, client, img.value, lock);
      if e.aspect.Some? && r.magicRect != e.magicRect then
        PixelLockGivesPixelRatio(r.magicRect, e.aspect.value, img.value);
        r
      else r
    else MouseMove(e, client, coords, img)
  }

  /** The condition under which a mouse-move goes to the pan handler. */
  predicate PanMoves(e: EditorState) {
    e.viewport.isPanning || (e.spacePanning && e.tool == CropTool) || (e.magicMode && e.viewport.isPanning)
  }

  /** `handleMouseUpOrLeave`: ends a handle drag, a pan and a crop draw; a completed
      draw forgets the selected object's label. */
  function MouseUp(e: EditorState): (r: EditorState)
    ensures AtRest(r)
    ensures r == e.(activeHandle := None, viewport := r.viewport, selection := r.selection,
                    selectedLabel := r.selectedLabel)
    ensures r.viewport == Viewport.PanMouseUp(e.viewport)
    ensures r.selection == Selection.MouseUp(e.selection).selection
    ensures Selection.MouseUp(e.selection).completed.Some? ==> r.selectedLabel.None?
    ensures Selection.MouseUp(e.selection).completed.None? ==> r.selectedLabel == e.selectedLabel
  {
    var release := Selection.MouseUp(e.selection);
    var kept := if release.completed.Some? then None else e.selectedLabel;
    e.(activeHandle := None, viewport := Viewport.PanMouseUp(e.viewport),
       selection := release.selection, selectedLabel := kept)
  }

  /** The `isPanning` flag reported to the view. */
  predicate ShowsPanning(e: EditorState) {
    e.viewport.isPanning || (e.spacePanning && e.tool == CropTool)
    || (e.magicMode && e.viewport.isPanning && e.activeHandle.None?)
  }

  // ---------------------------------------------------------------------------
  // Loading text and hints

  datatype Busy = Busy(detecting: bool, generating: bool, identifying: bool, extending: bool, upscaling: bool)

  /** The translation key of the loading message: the first running call in the
      order detection, edit, identification, expansion, upscale. */
  function LoadingKey(b: Busy): (key: Option<string>)
    ensures key.None? <==> !b.detecting && !b.generating && !b.identifying && !b.extending && !b.upscaling
    ensures b.detecting ==> key == Some("detectingObjects")
    ensures !b.detecting && b.generating ==> key == Some("applyingEdits")
    ensures !b.detecting && !b.generating && b.identifying ==> key == Some("identifyingObject")
    ensures !b.detecting && !b.generating && !b.identifying && b.extending ==> key == Some("expandingCanvas")
    ensures !b.detecting && !b.generating && !b.identifying && !b.extending && b.upscaling ==>
      key == Some("upscalingImageFactor")
  {
    if b.detecting then Some("detectingObjects")
    else if b.generating then Some("applyingEdits")
    else if b.identifying then Some("identifyingObject")
    else if b.extending then Some("expandingCanvas")
    else if b.upscaling then Some("upscalingImageFactor")
    else None
  }

  /** The translation key of the prompt box's second hint line, if it has one. */
  function HintKey(e: EditorState, detecting: bool): (key: Option<string>)
    ensures key.Some? ==> e.cropMode
    ensures key.Some? && !detecting ==> e.selection.cropRect.None?
    ensures e.cropMode && detecting ==> key == Some("waitingForAutoDetect")
    ensures e.cropMode && !detecting && e.selection.cropRect.None? ==>
      key == Some(if |e.selection.detected| > 0 then "selectLabelBox" else "makeCropBox")
  {
    if !e.cropMode then None
    else if detecting then Some("waitingForAutoDetect")
    else if |e.selection.detected| > 0 && e.selection.cropRect.None? then Some("selectLabelBox")
    else if |e.selection.detected| == 0 && e.selection.cropRect.None? then Some("makeCropBox")
    else None
  }

  // ---------------------------------------------------------------------------
  // Timer text and download name

  /** `formatTime`: whole minutes and seconds, each left-padded to two digits. */
  function FormatTime(totalSeconds: nat): (s: string)
    ensures totalSeconds < 6000 ==> |s| == 5 && s[2] == ':'
  {
    var minutes := PadStart(Show(totalSeconds / 60), 2, '0');
    var seconds := PadStart(Show(totalSeconds % 60), 2, '0');
    TwoDigitFields(totalSeconds);
    minutes + ":" + seconds
  }

  /** Below 100 minutes both fields of `formatTime` are two characters wide. */
  lemma TwoDigitFields(totalSeconds: nat)
    ensures totalSeconds < 6000 ==> |PadStart(Show(totalSeconds / 60), 2, '0')| == 2
    ensures |PadStart(Show(totalSeconds % 60), 2, '0')| == 2
  {
    var q, r := totalSeconds / 60, totalSeconds % 60;
    PadsToTwo(r);
    if totalSeconds < 6000 {
      assert q * 60 <= totalSeconds;
      PadsToTwo(q);
    }
  }

  lemma PadsToTwo(k: nat)
    requires k < 100
    ensures |PadStart(Show(k), 2, '0')| == 2
  {
  }

  /** The estimate shown while an AI call runs: 30 000 ms rounded to seconds. */
  const EstimatedMillis: nat := 30000

  function EtaText(): (s: string)
    ensures s == "00:30"
  {
    EstimateSeconds();
    FormatTimeUnderMinute(30);
    ShowThirty();
    FormatTime(Round(EstimatedMillis as real / 1000.0))
  }

  lemma EstimateSeconds()
    ensures Round(EstimatedMillis as real / 1000.0) == 30
  {
    assert EstimatedMillis as real / 1000.0 == 30.0;
  }

  lemma ShowThirty()
    ensures Show(30) == "30"
  {
    assert Show(3) == "3";
  }

  /** Between ten and fifty-nine seconds the minutes read `00`. */
  lemma FormatTimeUnderMinute(n: nat)
    requires 10 <= n < 60
    ensures FormatTime(n) == "00:" + Show(n)
  {
    assert n / 60 == 0 && n % 60 == n;
    ZeroMinutes();
    TwoDigitsUnpadded(n);
    assert "00:" == "00" + ":";
  }

  lemma ZeroMinutes()
    ensures PadStart(Show(0), 2, '0') == "00"
  {
    assert Show(0) == "0";
    assert Repeat('0', 1) == "0";
  }

  lemma TwoDigitsUnpadded(n: nat)
    requires 10 <= n < 100
    ensures PadStart(Show(n), 2, '0') == Show(n)
  {
  }

  /** `formatTime` is read back by splitting at the colon: the minutes and a
      two-digit seconds field below 60 recompose the total. */
  lemma FormatTimeParses(n: nat)
    ensures var parts := Split(FormatTime(n), ':');
      && |parts| == 2 && AllDigits(parts[0]) && AllDigits(parts[1])
      && |parts[1]| == 2 && Value(parts[1]) < 60
      && Value(parts[0]) * 60 + Value(parts[1]) == n
  {
    var m, sec := Show(n / 60), Show(n % 60);
    var pm, ps := PadStart(m, 2, '0'), PadStart(sec, 2, '0');
    PaddedDigits(m);
    PaddedDigits(sec);
    NotInDigits(pm, ':');
    NotInDigits(ps, ':');
    SplitTwo(pm, ':', ps);
    assert FormatTime(n) == pm + [':'] + ps;
    ValueShow(n / 60);
    ValueShow(n % 60);
  }

  /** Padding a numeral with zeros keeps its digits and its value. */
  lemma PaddedDigits(s: string)
    requires AllDigits(s) && |s| >= 1
    ensures var p := PadStart(s, 2, '0'); AllDigits(p) && Value(p) == Value(s)
    ensures |s| <= 2 ==> |PadStart(s, 2, '0')| == 2
  {
    if |s| < 2 {
      ValueLeadingZeros(2 - |s|, s);
    }
  }

  /** `handleDownload`'s file extension: the text between the first `'/'` and the
      next `'/'` of the part before the first `';'`, or `"png"` when that is
      missing or empty. */
  function DownloadExtension(src: string): (ext: string)
    ensures ext != "" && '/' !in ext
  {
    var parts := Split(Split(src, ';')[0], '/');
    if |parts| >= 2 && parts[1] != "" then parts[1] else "png"
  }

  /** `handleDownload`'s file name. */
  function DownloadName(projectName: string, src: string): string {
    projectName + "." + DownloadExtension(src)
  }

  /** A base64 image data URL downloads with its own subtype as extension. */
  lemma DataUrlExtension(subtype: string, data: string)
    requires subtype != "" && ';' !in subtype && '/' !in subtype
    ensures DownloadExtension("data:image/" + subtype + ";base64," + data) == subtype
  {
    var pre := "data:image";
    var rest := "base64," + data;
    assert "data:image/" == pre + ['/'];
    assert ";base64," + data == [';'] + rest;
    assert "data:image/" + subtype + ";base64," + data == pre + ['/'] + subtype + [';'] + rest;
    SubtypeExtension(pre, subtype, rest);
  }

  /** The extension is whatever stands between the first `'/'` and the first `';'`. */
  lemma SubtypeExtension(pre: string, subtype: string, rest: string)
    requires ';' !in pre && '/' !in pre
    requires subtype != "" && ';' !in subtype && '/' !in subtype
    ensures DownloadExtension(pre + ['/'] + subtype + [';'] + rest) == subtype
  {
    var head := pre + ['/'] + subtype;
    assert pre + ['/'] + subtype + [';'] + rest == head + [';'] + rest;
    assert ';' !in head;
    DataUrlHead(head, rest);
    SplitTwo(pre, '/', subtype);
  }

  lemma DataUrlHead(head: string, rest: string)
    requires ';' !in head
    ensures Split(head + [';'] + rest, ';')[0] == head
  {
    SplitFirst(head, ';', rest);
  }

  /** Without a `'/'` before the first `';'` the download falls back to `.png`. */
  lemma NoSubtypeDownloadsPng(src: string)
    requires '/' !in Split(src, ';')[0]
    ensures DownloadExtension(src) == "png"
  {
    SplitSingleton(Split(src, ';')[0], '/');
  }

  // ---------------------------------------------------------------------------
  // Properties

  /** Every tool and mode action keeps the editor valid. */
  lemma ModeActionsPreserveValid(e: EditorState, choice: AspectChoice, img: Option<ImageSize>,
                                 objects: Option<seq<Selection.DetectedObject>>,
                                 o: Selection.DetectedObject, down: bool, inText: bool)
    requires Valid(e)
    ensures Valid(PanToggle(e)) && Valid(ClearSelection(e)) && Valid(MagicCropToggle(e))
    ensures Valid(CancelMagicRatio(e)) && Valid(SelectAspectRatio(e, choice, img))
    ensures Valid(DrawManually(e)) && Valid(DetectObjectsReturned(e, objects))
    ensures Valid(SelectDetectedObject(e, o)) && Valid(SpaceKey(e, down, inText))
  {
  }

  /** Every pointer action keeps the editor valid. */
  lemma PointerActionsPreserveValid(e: EditorState, img: Option<ImageSize>, loading: bool,
                                    handle: Option<Handle>, client: Point, coords: Option<Point>)
    requires Valid(e)
    ensures Valid(MouseDown(e, loading, handle, client, coords))
    ensures Valid(MouseMove(e, client, coords, img)) && Valid(MouseUp(e))
  {
    Viewport.OperationsPreserveValid(e.viewport, None, None, Viewport.Wheel(0.0, 0.0, false), 1.0, 1.0, client);
  }

  /** From rest, a mouse-down starts at most one gesture, and starts none while an
      AI call runs. */
  lemma MouseDownStartsOneGesture(e: EditorState, loading: bool, handle: Option<Handle>,
                                  client: Point, coords: Option<Point>)
    requires AtRest(e)
    ensures var r := MouseDown(e, loading, handle, client, coords);
      && (loading ==> AtRest(r))
      && (r.activeHandle.Some? ==> !r.viewport.isPanning && !r.selection.isCropping)
      && (r.viewport.isPanning ==> r.activeHandle.None? && !r.selection.isCropping)
  {
  }

  /** As written, on a 200x100 image a 1:1 preset turns from 1x2 into 2x2 when its
      bottom-right handle is pressed and the pointer moves back onto the press
      point before the release. */
  lemma StillHandleClickReshapesPreset(e: EditorState, client: Point)
    requires Valid(e)
    ensures var img: ImageSize := NaturalSize(200, 100);
      var s := SelectAspectRatio(e, Preset(AspectRatio(1, 1)), Some(img));
      var d := MouseDown(s, false, Some(BottomRight), client, None);
      && s.magicRect == Rect(0.0, -0.5, 1.0, 2.0)
      && MouseUp(MouseMove(d, client, None, Some(img))).magicRect == Rect(0.0, -0.5, 2.0, 2.0)
  {
    var img: ImageSize := NaturalSize(200, 100);
    var ar: Ratio := AspectRatio(1, 1);
    var s := SelectAspectRatio(e, Preset(ar), Some(img));
    assert Valid(s);
    var p := s.magicRect;
    var d := MouseDown(s, false, Some(BottomRight), client, None);
    assert d == s.(activeHandle := Some(BottomRight), dragStartPos := client, dragStartRect := p);
    AsWrittenStillDragReshapesPreset(client, s.viewport.zoom);
    var m := HandleDragMove(d, client, img, AsWrittenLock(Some(ar)));
    assert m.magicRect == DragTo(p, p, AsWrittenLock(Some(ar)), BottomRight, client, client, s.viewport.zoom, img);
    assert MouseMove(d, client, None, Some(img)) == m;
  }

  /** With the pixel lock, pressing a handle of a preset, moving the pointer back
      onto the press point and releasing leaves the rectangle as it was. */
  lemma StillHandleClickKeepsPreset(e: EditorState, ar: Ratio, img: ImageSize, h: Handle, client: Point)
    requires Valid(e) && img.width > 0
    ensures var s := SelectAspectRatio(e, Preset(ar), Some(img));
      var d := MouseDown(s, false, Some(h), client, None);
      MouseUp(PixelLockedMouseMove(d, client, None, Some(img))).magicRect == s.magicRect
  {
    var s := SelectAspectRatio(e, Preset(ar), Some(img));
    assert Valid(s);
    StillDragKeepsPreset(ar, img, h, client, s.viewport.zoom);
  }

  /** An edit that returns can be undone back to the image it replaced, and the
      undo saves that image. */
  lemma GenerateThenUndo(e: EditorState, newSrc: string)
    requires Valid(e) && e.selection.cropRect.Some?
    ensures var g := GenerateReturned(e, Some(newSrc)).editor;
      var u := Undo(g);
      History.Current(u.editor.history) == History.Current(e.history)
      && u.saved == Some(History.Current(e.history))
  {
    History.UndoCommit(e.history, newSrc);
  }

  /** An expansion that returns can be undone back to the image it replaced; the
      undo saves that image and, magic-ratio mode aside, restores nothing else. */
  lemma ExpansionThenUndo(e: EditorState, newSrc: string)
    requires Valid(e)
    ensures var x := ExpansionReturned(e, Some(newSrc)).editor;
      var u := Undo(x);
      History.Current(u.editor.history) == History.Current(e.history)
      && u.saved == Some(History.Current(e.history))
      && u.editor == e.(history := u.editor.history, magicMode := false)
  {
    History.UndoCommit(e.history, newSrc);
  }

  /** An upscale that returns can be undone back to the image it replaced, and
      the undo saves that image. */
  lemma UpscaleThenUndo(e: EditorState, newSrc: string)
    requires Valid(e)
    ensures var x := UpscaleReturned(e, Some(newSrc)).editor;
      var u := Undo(x);
      History.Current(u.editor.history) == History.Current(e.history)
      && u.saved == Some(History.Current(e.history))
      && u.editor == e.(history := u.editor.history)
  {
    History.UndoCommit(e.history, newSrc);
  }

  /** Choosing a preset and cancelling leaves the rectangle unchanged from the
      whole frame and no ratio active. */
  lemma SelectThenCancel(e: EditorState, ar: Ratio, img: Option<ImageSize>)
    ensures var r := CancelMagicRatio(SelectAspectRatio(e, Preset(ar), img));
      !r.magicMode && r.aspect.None? && r.magicRect == FullFrame && !r.cropMode && r.tool == Pan
  {
  }
}

=== FILE: editor_view.dfy ===
/** Decisions the editor view takes from the editor's state (components/Editor.tsx):
    the container cursor, the handle cursors, the order candidates are drawn in,
    what a click on a candidate does, and when the action buttons are enabled. */
module EditorView {
  import opened Wrappers
  import opened Geometry
  import opened Strings
  import Selection
  import Viewport
  import opened MagicRatio
  import opened Editor

  // ---------------------------------------------------------------------------
  // Container cursor

  datatype Cursor = Grabbing | Grab | Crosshair | DefaultCursor

  /** `getCursor`: grabbing while panning; grab where a press would pan; a
      crosshair for the crop tool with no candidates; the default otherwise. */
  function CursorFor(e: EditorState): (c: Cursor)
    ensures c == Grabbing <==> ShowsPanning(e)
    ensures c == Grab <==> !ShowsPanning(e) && CanPan(e)
    ensures c == Crosshair <==>
      !ShowsPanning(e) && !CanPan(e) && e.tool == CropTool && |e.selection.detected| == 0
  {
    if ShowsPanning(e) then Grabbing
    else if e.tool == Pan || (e.tool == CropTool && e.spacePanning) || e.magicMode then Grab
    else if e.tool == CropTool && |e.selection.detected| == 0 then Crosshair
    else DefaultCursor
  }

  /** Away from the handles, the cursor announces what a press does: grab exactly
      when it would pan, and (in crop mode) a crosshair exactly when it would draw. */
  lemma CursorAgreesWithRouting(e: EditorState)
    requires !ShowsPanning(e)
    ensures CursorFor(e) == Grab <==> RouteMouseDown(e, false, None) == PanDrag
    ensures e.cropMode ==> (CursorFor(e) == Crosshair <==> RouteMouseDown(e, false, None) == CropDraw)
  {
  }

  /** The crosshair also shows for the crop tool outside crop mode, where a press
      draws nothing. */
  lemma CrosshairWithoutCropMode(e: EditorState)
    requires !ShowsPanning(e) && !e.magicMode && !e.spacePanning && !e.cropMode
    requires e.tool == CropTool && |e.selection.detected| == 0
    ensures CursorFor(e) == Crosshair && RouteMouseDown(e, false, None) == NoTarget
  {
  }

  // ---------------------------------------------------------------------------
  // Handle cursors

  /** The resize axis a handle's cursor shows. */
  datatype Axis = Nwse | Nesw | Ns | Ew

  function AxisOf(h: Handle): Axis {
    match h
    case TopLeft => Nwse
    case BottomRight => Nwse
    case TopRight => Nesw
    case BottomLeft => Nesw
    case Top => Ns
    case Bottom => Ns
    case Left => Ew
    case Right => Ew
  }

  function AxisClass(a: Axis): string {
    match a
    case Nwse => "cursor-nwse-resize"
    case Nesw => "cursor-nesw-resize"
    case Ns => "cursor-ns-resize"
    case Ew => "cursor-ew-resize"
  }

  /** `getHandleCursor`: the resize cursor of a handle name; `""` for any other
      string. */
  function HandleCursor(name: string): (c: string)
    ensures c == "" <==> ParseHandle(name).None?
    ensures ParseHandle(name).Some? ==> c == AxisClass(AxisOf(ParseHandle(name).value))
  {
    match ParseHandle(name)
    case None => ""
    case Some(h) => AxisClass(AxisOf(h))
  }

  /** The cursor shows the directions the handle actually moves in a free drag:
      vertical only for the top and bottom handles, horizontal only for the side
      handles, and for a corner the diagonal through the corner it moves. */
  lemma HandleCursorMatchesDrag(h: Handle, start: Rect)
    ensures AxisOf(h) == Ns <==>
      (forall d' :: ProposeFree(start, h, d').x == start.x && ProposeFree(start, h, d').width == start.width)
    ensures AxisOf(h) == Ew <==>
      (forall d' :: ProposeFree(start, h, d').y == start.y && ProposeFree(start, h, d').height == start.height)
    ensures AxisOf(h) == Nwse <==> IsCorner(h) && (HasLeft(h) <==> HasTop(h))
    ensures AxisOf(h) == Nesw <==> IsCorner(h) && (HasLeft(h) <==> HasBottom(h))
  {
    if AxisOf(h) != Ns {
      var r := ProposeFree(start, h, Point(1.0, 1.0));
      assert r.x != start.x || r.width != start.width;
    }
    if AxisOf(h) != Ew {
      var r := ProposeFree(start, h, Point(1.0, 1.0));
      assert r.y != start.y || r.height != start.height;
    }
  }

  // ---------------------------------------------------------------------------
  // Candidate order

  function Area(o: Selection.DetectedObject): real {
    o.box.width * o.box.height
  }

  /** Larger boxes first. */
  predicate SortedByArea(s: seq<Selection.DetectedObject>) {
    forall i, j :: 0 <= i < j < |s| ==> Area(s[i]) >= Area(s[j])
  }

  /** Inserts `o` after every box at least as large, keeping the order. */
  function InsertByArea(o: Selection.DetectedObject, s: seq<Selection.DetectedObject>): (r: seq<Selection.DetectedObject>)
    requires SortedByArea(s)
    ensures SortedByArea(r)
    ensures multiset(r) == multiset(s) + multiset{o}
    ensures |r| == |s| + 1
    ensures forall x :: x in r ==> x == o || x in s
  {
    if |s| == 0 then [o]
    else if Area(s[0]) >= Area(o) then
      var rest := InsertByArea(o, s[1..]);
      assert s == [s[0]] + s[1..];
      HeadBoundsInsert(s[0], o, s[1..], rest);
      ConsSorted(s[0], rest);
      [s[0]] + rest
    else
      ConsSorted(o, s);
      [o] + s
  }

  /** A box at least as large as the inserted one and as every box after it is at
      least as large as every box of the insertion. */
  lemma HeadBoundsInsert(head: Selection.DetectedObject, o: Selection.DetectedObject,
                         tail: seq<Selection.DetectedObject>, rest: seq<Selection.DetectedObject>)
    requires SortedByArea([head] + tail) && Area(head) >= Area(o)
    requires forall x :: x in rest ==> x == o || x in tail
    ensures forall k :: 0 <= k < |rest| ==> Area(head) >= Area(rest[k])
  {
    forall k | 0 <= k < |rest|
      ensures Area(head) >= Area(rest[k])
    {
      assert rest[k] in rest;
      if rest[k] != o {
        assert rest[k] in tail;
        var m :| 0 <= m < |tail| && tail[m] == rest[k];
        var all := [head] + tail;
        assert all[0] == head && all[m + 1] == rest[k];
        assert Area(all[0]) >= Area(all[m + 1]);
      }
    }
  }

  /** Putting a box in front of a sorted list keeps it sorted when the box is at
      least as large as every box of the list. */
  lemma ConsSorted(x: Selection.DetectedObject, s: seq<Selection.DetectedObject>)
    requires SortedByArea(s)
    requires forall k :: 0 <= k < |s| ==> Area(x) >= Area(s[k])
    ensures SortedByArea([x] + s)
  {
    forall i, j | 0 <= i < j < |[x] + s|
      ensures Area(([x] + s)[i]) >= Area(([x] + s)[j])
    {
      assert ([x] + s)[j] == s[j - 1];
      if i > 0 {
        assert ([x] + s)[i] == s[i - 1];
      }
    }
  }

  /** The candidates in drawing order: a copy of the detections sorted by area,
      largest first. */
  function ByAreaDescending(objs: seq<Selection.DetectedObject>): (r: seq<Selection.DetectedObject>)
    ensures SortedByArea(r)
    ensures multiset(r) == multiset(objs)
    ensures |r| == |objs|
  {
    if |objs| == 0 then []
    else
      var init := objs[..|objs| - 1];
      assert objs == init + [objs[|objs| - 1]];
      InsertByArea(objs[|objs| - 1], ByAreaDescending(init))
  }

  /** Sorting the copy neither adds nor loses a candidate, so every candidate
      drawn is one of the detections and each detection is drawn. */
  lemma SortKeepsCandidates(objs: seq<Selection.DetectedObject>, o: Selection.DetectedObject)
    ensures o in ByAreaDescending(objs) <==> o in objs
  {
    var r := ByAreaDescending(objs);
    assert o in r <==> o in multiset(r);
    assert o in objs <==> o in multiset(objs);
  }

  /** An already ordered list is drawn as it is. */
  lemma {:induction false} SortedInputUnchanged(objs: seq<Selection.DetectedObject>)
    requires SortedByArea(objs)
    ensures ByAreaDescending(objs) == objs
  {
    if |objs| > 0 {
      var init := objs[..|objs| - 1];
      SortedInputUnchanged(init);
      InsertAtEnd(objs[|objs| - 1], init);
      assert init + [objs[|objs| - 1]] == objs;
    }
  }

  lemma {:induction false} InsertAtEnd(o: Selection.DetectedObject, s: seq<Selection.DetectedObject>)
    requires SortedByArea(s)
    requires forall i :: 0 <= i < |s| ==> Area(s[i]) >= Area(o)
    ensures InsertByArea(o, s) == s + [o]
  {
    if |s| > 0 {
      InsertAtEnd(o, s[1..]);
      assert [s[0]] + (s[1..] + [o]) == s + [o];
    }
  }

  // ---------------------------------------------------------------------------
  // Candidate clicks

  datatype Click = SelectIt | WarnPan | NoEffect

  /** A click on a candidate box: selects it with the crop tool, warns with the
      pan tool in crop mode, and does nothing otherwise. */
  function CandidateClick(tool: Tool, cropMode: bool): (c: Click)
    ensures c == SelectIt <==> tool == CropTool
    ensures c == WarnPan <==> tool == Pan && cropMode
  {
    if tool == CropTool then SelectIt
    else if tool == Pan && cropMode then WarnPan
    else NoEffect
  }

  /** The editor after a click on candidate `o`, and whether the pan warning shows. */
  function ClickCandidate(e: EditorState, o: Selection.DetectedObject): (r: (EditorState, bool))
    ensures r.1 <==> CandidateClick(e.tool, e.cropMode) == WarnPan
    ensures CandidateClick(e.tool, e.cropMode) == SelectIt ==> Selection.IsSelected(r.0.selection.cropRect, o)
    ensures CandidateClick(e.tool, e.cropMode) != SelectIt ==> r.0 == e
  {
    match CandidateClick(e.tool, e.cropMode)
    case SelectIt => (SelectDetectedObject(e, o), false)
    case WarnPan => (e, true)
    case NoEffect => (e, false)
  }

  // ---------------------------------------------------------------------------
  // Button enablement

  /** The generate button: not loading, a prompt that is not blank, and a crop. */
  predicate CanGenerate(loading: bool, prompt: string, crop: Option<Selection.Crop>) {
    !loading && Trim(prompt) != "" && crop.Some?
  }

  /** Generation is offered exactly when some character of the prompt is not
      white space. */
  lemma CanGenerateIffPromptHasText(loading: bool, prompt: string, crop: Option<Selection.Crop>)
    ensures CanGenerate(loading, prompt, crop) <==>
      !loading && crop.Some? && exists i :: 0 <= i < |prompt| && !IsWhitespace(prompt[i])
  {
    TrimEmpty(prompt);
  }

  /** The apply-expansion button: not loading and a rectangle other than the frame. */
  predicate CanApplyExpansion(loading: bool, rect: Rect) {
    !loading && IsRatioChanged(rect)
  }

  /** The magic-crop toggle is disabled in magic-ratio mode and while loading; the
      magic-ratio button is disabled in crop mode and while loading. */
  predicate MagicCropEnabled(e: EditorState, loading: bool) { !e.magicMode && !loading }
  predicate MagicRatioEnabled(e: EditorState, loading: bool) { !e.cropMode && !loading }

  /** Cancelling magic ratio leaves nothing to apply. */
  lemma ExpansionOfferedOnlyAfterChange(e: EditorState, loading: bool)
    ensures !CanApplyExpansion(loading, CancelMagicRatio(e).magicRect)
  {
  }

  /** When nothing is loading, at least one of the two mode buttons is usable. */
  lemma SomeModeButtonEnabled(e: EditorState)
    requires Valid(e)
    ensures MagicCropEnabled(e, false) || MagicRatioEnabled(e, false)
  {
  }

  /** The zoom buttons scale by 1.2 and by 1/1.2; inside the zoom range they undo
      each other. */
  lemma ZoomButtonsInverse(v: Viewport.Viewport)
    requires Viewport.MinZoom <= v.liveZoom && v.liveZoom * 1.2 <= Viewport.MaxZoom
    ensures Viewport.HandleZoom(Viewport.HandleZoom(v, 1.2), 1.0 / 1.2).liveZoom == v.liveZoom
  {
    var z := Viewport.HandleZoom(v, 1.2).liveZoom;
    assert z == v.liveZoom * 1.2;
    assert z * (1.0 / 1.2) == v.liveZoom;
  }
}

=== FILE: gemini.dfy ===
/** What services/geminiService.ts makes of the model's replies: the detection
    list becomes candidate objects, and an identification becomes a name or
    nothing.  The requests themselves are not modelled; a reply arrives as a value. */
module Gemini {
  import opened Wrappers
  import opened Geometry
  import opened Strings
  import Selection

  /** One item of the detection reply: a name and a box given by its corners. */
  datatype DetectionItem = DetectionItem(objectName: string, xMin: real, yMin: real, xMax: real, yMax: real)

  /** One item mapped to a candidate; the position in the reply serves as the
      candidate's identity. */
  function ToObject(i: nat, item: DetectionItem): (o: Selection.DetectedObject)
    ensures o.id == i && o.labelText == item.objectName
    ensures o.box.x == item.xMin && o.box.x + o.box.width == item.xMax
    ensures o.box.y == item.yMin && o.box.y + o.box.height == item.yMax
  {
    Selection.DetectedObject(i, item.objectName,
      Rect(item.xMin, item.yMin, item.xMax - item.xMin, item.yMax - item.yMin))
  }

  /** `detectedData.map(...)` in `detectObjectsInImage`: one candidate per item, in
      the same order. */
  function MapDetections(items: seq<DetectionItem>): (r: seq<Selection.DetectedObject>)
    ensures |r| == |items|
    ensures forall i :: 0 <= i < |items| ==> r[i] == ToObject(i, items[i])
  {
    seq(|items|, i requires 0 <= i < |items| => ToObject(i, items[i]))
  }

  /** The corners of a candidate's box, as the reply gave them. */
  function Corners(o: Selection.DetectedObject): DetectionItem {
    DetectionItem(o.labelText, o.box.x, o.box.y, o.box.x + o.box.width, o.box.y + o.box.height)
  }

  /** Mapping loses nothing: each reply item is recovered from its candidate. */
  lemma MappingRecoversItems(items: seq<DetectionItem>)
    ensures var objs := MapDetections(items);
      forall i :: 0 <= i < |items| ==> Corners(objs[i]) == items[i]
  {
  }

  /** Candidates from one reply are told apart, as the selection highlight needs. */
  lemma MappedIdsDistinct(items: seq<DetectionItem>)
    ensures Selection.DistinctIds(MapDetections(items))
  {
  }

  /** Ordered corners inside the image give a candidate box inside the image. */
  lemma OrderedCornersInside(item: DetectionItem, i: nat)
    requires 0.0 <= item.xMin <= item.xMax <= 1.0 && 0.0 <= item.yMin <= item.yMax <= 1.0
    ensures WithinUnitSquare(ToObject(i, item).box)
  {
  }

  /** The reply to `identifyObjectInCrop`: `None` stands for a failed request, an
      unreadable reply or a reply without `objectName`. */
  function Identify(reply: Option<string>): (name: Option<string>)
    ensures name.Some? <==>
      reply.Some? && exists i :: 0 <= i < |reply.value| && !IsWhitespace(reply.value[i])
    ensures name.Some? ==> name == reply
  {
    match reply
    case None => None
    case Some(n) =>
      TrimEmpty(n);
      if n != "" && Trim(n) != "" then Some(n) else None
  }

  /** The name comes back as the model wrote it, surrounding white space included. */
  lemma IdentifyKeepsSpacing()
    ensures Identify(Some(" hat ")) == Some(" hat ")
  {
    assert !IsWhitespace(" hat "[1]);
  }
}

=== FILE: geometry.dfy ===
/** Value types shared by the editor's engines (types.ts): normalized rectangles,
    points, natural image sizes, and the JavaScript `Math` helpers the hooks use. */
module Geometry {

  /** A point; in pixels or normalized units depending on where it is used. */
  datatype Point = Point(x: real, y: real)

  /** `CropRect` of types.ts: fractions of the image's natural dimensions. */
  datatype Rect = Rect(x: real, y: real, width: real, height: real)

  /** The full-frame rectangle `{x: 0, y: 0, width: 1, height: 1}`. */
  const FullFrame: Rect := Rect(0.0, 0.0, 1.0, 1.0)

  /** `naturalWidth`/`naturalHeight` of an image element. A loaded image has both
      positive; an image that failed to decode reports 0 x 0. */
  datatype NaturalSize = NaturalSize(width: nat, height: nat)
  type ImageSize = s: NaturalSize | (s.width == 0) == (s.height == 0) witness NaturalSize(0, 0)

  function Min(a: real, b: real): (r: real)
    ensures r <= a && r <= b && (r == a || r == b)
  {
    if a <= b then a else b
  }

  function Max(a: real, b: real): (r: real)
    ensures r >= a && r >= b && (r == a || r == b)
  {
    if a >= b then a else b
  }

  function Abs(a: real): (r: real)
    ensures r >= 0.0 && (r == a || r == -a)
  {
    if a < 0.0 then -a else a
  }

  /** `Math.max(lo, Math.min(v, hi))`. */
  function Clamp(v: real, lo: real, hi: real): (r: real)
    requires lo <= hi
    ensures lo <= r <= hi
    ensures lo <= v <= hi ==> r == v
    ensures v < lo ==> r == lo
    ensures v > hi ==> r == hi
  {
    Max(lo, Min(v, hi))
  }

  /** `Math.round`: rounds half-way cases towards positive infinity. */
  function Round(x: real): (r: int)
    ensures x - 0.5 < r as real <= x + 0.5
  {
    (x + 0.5).Floor
  }

  lemma RoundShift(x: real, n: int)
    ensures Round(x + n as real) == Round(x) + n
  {
    var a := Round(x);
    var b := Round(x + n as real);
    assert (a + n) as real <= x + n as real + 0.5 < (a + n) as real + 1.0;
  }

  lemma RoundMonotone(x: real, y: real)
    requires x <= y
    ensures Round(x) <= Round(y)
  {
  }

  /** The point lies in the closed unit square. */
  predicate InUnitSquare(p: Point) {
    0.0 <= p.x <= 1.0 && 0.0 <= p.y <= 1.0
  }

  /** The rectangle has non-negative size and lies within the closed unit square. */
  predicate WithinUnitSquare(r: Rect) {
    0.0 <= r.x && 0.0 <= r.y && 0.0 <= r.width && 0.0 <= r.height
    && r.x + r.width <= 1.0 && r.y + r.height <= 1.0
  }

  /** The rectangle covers the whole unit square (an expansion rectangle). */
  predicate CoversUnitSquare(r: Rect) {
    r.x <= 0.0 && r.y <= 0.0 && r.x + r.width >= 1.0 && r.y + r.height >= 1.0
  }
}

=== FILE: history.dfy ===
/** The linear undo/redo history of `useHistory` (hooks/useHistory.ts): a sequence
    of image sources plus a cursor. Every operation returns the new history and the
    source it passed to `onStateChange`, if it called it. */
module History {
  import opened Wrappers

  datatype History = History(entries: seq<string>, index: nat)

  /** The result of an operation: the new history and the `onStateChange` argument. */
  datatype Step = Step(history: History, notified: Option<string>)

  /** The cursor points at an entry. */
  predicate Valid(h: History) {
    h.index < |h.entries|
  }

  function Current(h: History): string
    requires Valid(h)
  {
    h.entries[h.index]
  }

  /** `canUndo`. */
  predicate CanUndo(h: History) {
    h.index > 0
  }

  /** `canRedo`: `index < history.length - 1`. */
  predicate CanRedo(h: History) {
    h.index + 1 < |h.entries|
  }

  /** The initial state and `resetHistory(src)`; neither notifies. */
  function Reset(src: string): (h: History)
    ensures Valid(h) && Current(h) == src && |h.entries| == 1
    ensures !CanUndo(h) && !CanRedo(h)
  {
    History([src], 0)
  }

  /** `updateHistory(newSrc)`: drops the redo branch, appends, moves to the end. */
  function Commit(h: History, src: string): (r: Step)
    requires Valid(h)
    ensures Valid(r.history)
    ensures |r.history.entries| == h.index + 2
    ensures forall i :: 0 <= i <= h.index ==> r.history.entries[i] == h.entries[i]
    ensures Current(r.history) == src && r.notified == Some(src)
    ensures CanUndo(r.history) && !CanRedo(r.history)
  {
    Step(History(h.entries[..h.index + 1] + [src], h.index + 1), Some(src))
  }

  /** `handleUndo`: a no-op without notification at the first entry. */
  function Undo(h: History): (r: Step)
    requires Valid(h)
    ensures Valid(r.history) && r.history.entries == h.entries
    ensures !CanUndo(h) ==> r == Step(h, None)
    ensures CanUndo(h) ==> r.history.index + 1 == h.index
    ensures CanUndo(h) ==> r.notified == Some(h.entries[h.index - 1])
    ensures CanUndo(h) ==> CanRedo(r.history)
  {
    if CanUndo(h) then
      var h' := h.(index := h.index - 1);
      Step(h', Some(Current(h')))
    else Step(h, None)
  }

  /** `handleRedo`: a no-op without notification at the last entry. */
  function Redo(h: History): (r: Step)
    requires Valid(h)
    ensures Valid(r.history) && r.history.entries == h.entries
    ensures !CanRedo(h) ==> r == Step(h, None)
    ensures CanRedo(h) ==> r.history.index == h.index + 1
    ensures CanRedo(h) ==> r.notified == Some(h.entries[h.index + 1])
    ensures CanRedo(h) ==> CanUndo(r.history)
  {
    if CanRedo(h) then
      var h' := h.(index := h.index + 1);
      Step(h', Some(Current(h')))
    else Step(h, None)
  }

  /** Undo followed by redo restores the history exactly. */
  lemma UndoThenRedo(h: History)
    requires Valid(h) && CanUndo(h)
    ensures Redo(Undo(h).history).history == h
    ensures Redo(Undo(h).history).notified == Some(Current(h))
  {
  }

  /** Redo followed by undo restores the history exactly. */
  lemma RedoThenUndo(h: History)
    requires Valid(h) && CanRedo(h)
    ensures Undo(Redo(h).history).history == h
    ensures Undo(Redo(h).history).notified == Some(Current(h))
  {
  }

  /** Undoing a commit returns to the entry that was current before it. */
  lemma UndoCommit(h: History, src: string)
    requires Valid(h)
    ensures Current(Undo(Commit(h, src).history).history) == Current(h)
  {
  }

  /** The operations a user can trigger on the history. */
  datatype Op = CommitOp(src: string) | UndoOp | RedoOp | ResetOp(src: string)

  function Apply(h: History, op: Op): (r: History)
    requires Valid(h)
    ensures Valid(r)
  {
    match op
    case CommitOp(src) => Commit(h, src).history
    case UndoOp => Undo(h).history
    case RedoOp => Redo(h).history
    case ResetOp(src) => Reset(src)
  }

  function Run(h: History, ops: seq<Op>): History
    requires Valid(h)
    decreases |ops|
  {
    if |ops| == 0 then h else Run(Apply(h, ops[0]), ops[1..])
  }

  /** Any run of operations from a valid history keeps the cursor on an entry
      of a non-empty history. */
  lemma {:induction false} RunValid(h: History, ops: seq<Op>)
    requires Valid(h)
    ensures Valid(Run(h, ops))
    ensures |Run(h, ops).entries| >= 1
    decreases |ops|
  {
    if |ops| > 0 {
      RunValid(Apply(h, ops[0]), ops[1..]);
    }
  }

  /** Starting from `[A]`: commit B, commit C, undo, commit D gives `[A, B, D]`
      at D, with C gone and redo unavailable. */
  lemma BranchingScenario(a: string, b: string, c: string, d: string)
    ensures var h1 := Commit(Reset(a), b).history;
      var h2 := Commit(h1, c).history;
      var h3 := Undo(h2).history;
      var h4 := Commit(h3, d).history;
      && Current(h3) == b
      && h4.entries == [a, b, d] && Current(h4) == d
      && !CanRedo(h4) && CanUndo(h4)
  {
    var h1 := Commit(Reset(a), b).history;
    var h2 := Commit(h1, c).history;
    assert h2.entries == [a, b, c];
    var h3 := Undo(h2).history;
    assert h3.entries[..h3.index + 1] == [a, b];
  }
}

=== FILE: magic_ratio.dfy ===
/** The "magic ratio" expansion rectangle of `useEditor` (hooks/useEditor.ts):
    aspect-ratio presets, the eight drag handles, and the constrained resize rule. */
module MagicRatio {
  import opened Wrappers
  import opened Geometry
  import opened Strings

  // ---------------------------------------------------------------------------
  // Aspect ratios

  /** A `"w:h"` aspect ratio with positive terms. */
  datatype AspectRatio = AspectRatio(w: nat, h: nat)
  type Ratio = r: AspectRatio | r.w > 0 && r.h > 0 witness AspectRatio(1, 1)

  /** The preset menu `ASPECT_RATIOS` of components/Editor.tsx. */
  const Presets: seq<Ratio> :=
    [AspectRatio(1, 1), AspectRatio(4, 3), AspectRatio(3, 2), AspectRatio(16, 9), AspectRatio(9, 16)]

  /** The menu label, e.g. `"16:9"`. */
  function RatioName(r: Ratio): string {
    Show(r.w) + ":" + Show(r.h)
  }

  /** `const [w, h] = name.split(':').map(Number); w / h`. */
  function RatioValue(r: Ratio): (v: real)
    ensures v > 0.0
  {
    r.w as real / r.h as real
  }

  /** Splitting a preset's label on `':'` yields its two terms as decimal numerals,
      so the source's `split(':').map(Number)` reads back the ratio it was given. */
  lemma RatioNameParses(r: Ratio)
    ensures var parts := Split(RatioName(r), ':');
      |parts| == 2 && AllDigits(parts[0]) && AllDigits(parts[1])
      && Value(parts[0]) == r.w && Value(parts[1]) == r.h
  {
    var a, b := Show(r.w), Show(r.h);
    NotInDigits(a, ':');
    NotInDigits(b, ':');
    SplitTwo(a, ':', b);
    assert RatioName(r) == a + [':'] + b;
    ValueShow(r.w);
    ValueShow(r.h);
  }

  /** Aspect ratio `w / h` of the image's natural size. */
  function ImageRatio(img: ImageSize): (v: real)
    requires img.width > 0
    ensures v > 0.0
  {
    img.width as real / img.height as real
  }

  /** The rectangle a preset selects: full height and centred horizontally when the
      ratio is wider than the image, otherwise full width and centred vertically. */
  function PresetRect(r: Ratio, img: ImageSize): (rect: Rect)
    requires img.width > 0
    ensures CoversUnitSquare(rect)
    ensures rect.width == 1.0 || rect.height == 1.0
    ensures rect.x + rect.width / 2.0 == 0.5 && rect.y + rect.height / 2.0 == 0.5
    ensures rect.width * img.width as real == RatioValue(r) * rect.height * img.height as real
  {
    var target := RatioValue(r);
    var ir := ImageRatio(img);
    var W, H := img.width as real, img.height as real;
    if target > ir then
      WidePreset(target, W, H);
      Rect((1.0 - target / ir) / 2.0, 0.0, target / ir, 1.0)
    else
      TallPreset(target, W, H);
      Rect(0.0, (1.0 - ir / target) / 2.0, 1.0, ir / target)
  }

  /** A ratio wider than the image: the width factor exceeds one and gives the
      ratio in pixels. */
  lemma WidePreset(target: real, W: real, H: real)
    requires W > 0.0 && H > 0.0 && target > W / H
    ensures target / (W / H) > 1.0
    ensures target / (W / H) * W == target * 1.0 * H
  {
    var ir := W / H;
    var nw := target / ir;
    assert ir * H == W;
    assert nw * ir == target;
    assert nw * W == nw * ir * H;
    QuotientAboveOne(target, ir);
  }

  /** A ratio no wider than the image: the height factor is at least one and gives
      the ratio in pixels. */
  lemma TallPreset(target: real, W: real, H: real)
    requires W > 0.0 && H > 0.0 && 0.0 < target <= W / H
    ensures (W / H) / target >= 1.0
    ensures 1.0 * W == target * ((W / H) / target) * H
  {
    var ir := W / H;
    var nh := ir / target;
    assert nh * target == ir;
    assert ir * H == W;
    assert target * nh * H == ir * H;
    QuotientAtLeastOne(ir, target);
  }

  lemma QuotientAtLeastOne(a: real, b: real)
    requires a >= b > 0.0
    ensures a / b >= 1.0
  {
  }

  lemma QuotientAboveOne(a: real, b: real)
    requires a > b > 0.0
    ensures a / b > 1.0
  {
  }

  // ---------------------------------------------------------------------------
  // Handles

  /** The eight `data-handle` values rendered around the rectangle. */
  datatype Handle = TopLeft | TopRight | BottomLeft | BottomRight | Top | Bottom | Left | Right

  function HandleName(h: Handle): string {
    match h
    case TopLeft => "top-left"
    case TopRight => "top-right"
    case BottomLeft => "bottom-left"
    case BottomRight => "bottom-right"
    case Top => "top"
    case Bottom => "bottom"
    case Left => "left"
    case Right => "right"
  }

  /** The handle a `data-handle` string names, if any. */
  function ParseHandle(s: string): (r: Option<Handle>)
    ensures r.Some? ==> HandleName(r.value) == s
  {
    if s == "top-left" then Some(TopLeft)
    else if s == "top-right" then Some(TopRight)
    else if s == "bottom-left" then Some(BottomLeft)
    else if s == "bottom-right" then Some(BottomRight)
    else if s == "top" then Some(Top)
    else if s == "bottom" then Some(Bottom)
    else if s == "left" then Some(Left)
    else if s == "right" then Some(Right)
    else None
  }

  /** Every handle's name parses back to it. */
  lemma ParseHandleName(h: Handle)
    ensures ParseHandle(HandleName(h)) == Some(h)
  {
  }

  /** `activeHandle.includes('left')`, and likewise for the other sides. */
  predicate HasLeft(h: Handle) { h == TopLeft || h == BottomLeft || h == Left }
  predicate HasRight(h: Handle) { h == TopRight || h == BottomRight || h == Right }
  predicate HasTop(h: Handle) { h == TopLeft || h == TopRight || h == Top }
  predicate HasBottom(h: Handle) { h == BottomLeft || h == BottomRight || h == Bottom }

  predicate IsCorner(h: Handle) { h == TopLeft || h == TopRight || h == BottomLeft || h == BottomRight }

  // ---------------------------------------------------------------------------
  // Dragging

  /** `r`'s normalized width is `k` times its normalized height. */
  predicate HasRatio(r: Rect, k: real) { r.width == r.height * k }

  /** Smallest width and height (exclusive) an update may produce. */
  const MinMagicSize: real := 0.2

  /** The pointer's movement since the drag started, undone of the zoom and
      expressed as a fraction of the image's natural size. */
  function NormalizedDelta(startPos: Point, client: Point, zoom: real, img: ImageSize): (d: Point)
    requires zoom > 0.0 && img.width > 0
    ensures d.x * zoom * img.width as real == client.x - startPos.x
    ensures d.y * zoom * img.height as real == client.y - startPos.y
  {
    var dx := (client.x - startPos.x) / zoom;
    var dy := (client.y - startPos.y) / zoom;
    Point(dx / img.width as real, dy / img.height as real)
  }

  /** Free transform: each handle moves only its own edges; a left or top handle
      keeps the opposite edge where it was. */
  function ProposeFree(start: Rect, h: Handle, d: Point): (r: Rect)
    ensures HasLeft(h) ==> r.x == start.x + d.x && r.x + r.width == start.x + start.width
    ensures HasRight(h) ==> r.x == start.x && r.width == start.width + d.x
    ensures !HasLeft(h) && !HasRight(h) ==> r.x == start.x && r.width == start.width
    ensures HasTop(h) ==> r.y == start.y + d.y && r.y + r.height == start.y + start.height
    ensures HasBottom(h) ==> r.y == start.y && r.height == start.height + d.y
    ensures !HasTop(h) && !HasBottom(h) ==> r.y == start.y && r.height == start.height
  {
    var x := if HasLeft(h) then start.x + d.x else start.x;
    var w := if HasLeft(h) then start.width - d.x else if HasRight(h) then start.width + d.x else start.width;
    var y := if HasTop(h) then start.y + d.y else start.y;
    var hh := if HasTop(h) then start.height - d.y else if HasBottom(h) then start.height + d.y else start.height;
    Rect(x, y, w, hh)
  }

  /** The height that gives width `w` the ratio `k`. */
  function HeightFor(w: real, k: real): (hh: real)
    requires k > 0.0
    ensures w == hh * k
  {
    w / k
  }

  /** Locked corner: the axis the pointer moved further along follows it (height on
      a tie), the other is derived from the ratio `k = width / height`, and the
      opposite corner stays. */
  function ProposeLockedCorner(start: Rect, k: real, h: Handle, d: Point): (r: Rect)
    requires k > 0.0 && IsCorner(h)
    ensures HasRatio(r, k)
    ensures Abs(d.x) > Abs(d.y) ==>
      r.width == (if HasRight(h) then start.width + d.x else start.width - d.x)
    ensures Abs(d.x) <= Abs(d.y) ==>
      r.height == (if HasBottom(h) then start.height + d.y else start.height - d.y)
    ensures HasLeft(h) ==> r.x + r.width == start.x + start.width
    ensures HasRight(h) ==> r.x == start.x
    ensures HasTop(h) ==> r.y + r.height == start.y + start.height
    ensures HasBottom(h) ==> r.y == start.y
  {
    var pw := if HasRight(h) then start.width + d.x else if HasLeft(h) then start.width - d.x else start.width;
    var ph := if HasBottom(h) then start.height + d.y else if HasTop(h) then start.height - d.y else start.height;
    var size := LockedSize(pw, ph, k, Abs(d.x) > Abs(d.y));
    var w, hh := size.0, size.1;
    var x := if HasLeft(h) then (start.x + start.width) - w else start.x;
    var y := if HasTop(h) then (start.y + start.height) - hh else start.y;
    Rect(x, y, w, hh)
  }

  /** The size of a locked corner drag: the leading axis keeps its proposed length
      and the other follows from the ratio. */
  function LockedSize(pw: real, ph: real, k: real, widthLeads: bool): (size: (real, real))
    requires k > 0.0
    ensures size.0 == size.1 * k
    ensures widthLeads ==> size.0 == pw
    ensures !widthLeads ==> size.1 == ph
  {
    if widthLeads then (pw, HeightFor(pw, k)) else (ph * k, ph)
  }

  /** Locked left/right edge: the width follows the pointer, the height is derived
      from the ratio and re-centred vertically, and the opposite edge stays. */
  function ProposeLockedSide(start: Rect, k: real, h: Handle, d: Point): (r: Rect)
    requires k > 0.0 && (h == Left || h == Right)
    ensures HasRatio(r, k)
    ensures r.width == (if h == Right then start.width + d.x else start.width - d.x)
    ensures r.y + r.height / 2.0 == start.y + start.height / 2.0
    ensures h == Left ==> r.x + r.width == start.x + start.width
    ensures h == Right ==> r.x == start.x
  {
    var w := if h == Right then start.width + d.x else start.width - d.x;
    var hh := HeightFor(w, k);
    var y := start.y - (hh - start.height) / 2.0;
    var x := if h == Left then start.x + d.x else start.x;
    Rect(x, y, w, hh)
  }

  /** Locked top/bottom edge: the height follows the pointer, the width is derived
      from the ratio and re-centred horizontally, and the opposite edge stays. */
  function ProposeLockedEnd(start: Rect, k: real, h: Handle, d: Point): (r: Rect)
    requires k > 0.0 && (h == Top || h == Bottom)
    ensures HasRatio(r, k)
    ensures r.height == (if h == Bottom then start.height + d.y else start.height - d.y)
    ensures r.x + r.width / 2.0 == start.x + start.width / 2.0
    ensures h == Top ==> r.y + r.height == start.y + start.height
    ensures h == Bottom ==> r.y == start.y
  {
    var hh := if h == Bottom then start.height + d.y else start.height - d.y;
    var w := hh * k;
    var x := start.x - (w - start.width) / 2.0;
    var y := if h == Top then start.y + d.y else start.y;
    Rect(x, y, w, hh)
  }

  /** A drag lock: `Some(k)` keeps `width == height * k` on the rectangle's
      normalized sides; `None` is the free transform. */
  predicate ValidLock(lock: Option<real>) { lock.Some? ==> lock.value > 0.0 }

  /** The rectangle proposed by dragging handle `h` by `d` from `start`. */
  function Propose(start: Rect, lock: Option<real>, h: Handle, d: Point): (r: Rect)
    requires ValidLock(lock)
    ensures lock.None? ==> r == ProposeFree(start, h, d)
    ensures lock.Some? && IsCorner(h) ==> r == ProposeLockedCorner(start, lock.value, h, d)
    ensures lock.Some? && (h == Left || h == Right) ==> r == ProposeLockedSide(start, lock.value, h, d)
    ensures lock.Some? && (h == Top || h == Bottom) ==> r == ProposeLockedEnd(start, lock.value, h, d)
    ensures lock.Some? ==> HasRatio(r, lock.value)
  {
    match lock
    case None => ProposeFree(start, h, d)
    case Some(k) =>
      if IsCorner(h) then ProposeLockedCorner(start, k, h, d)
      else if h == Left || h == Right then ProposeLockedSide(start, k, h, d)
      else ProposeLockedEnd(start, k, h, d)
  }

  /** A proposal replaces the current rectangle only when both sides exceed 0.2. */
  function ApplyProposal(current: Rect, proposed: Rect): (r: Rect)
    ensures proposed.width > MinMagicSize && proposed.height > MinMagicSize ==> r == proposed
    ensures !(proposed.width > MinMagicSize && proposed.height > MinMagicSize) ==> r == current
  {
    if proposed.width > MinMagicSize && proposed.height > MinMagicSize then proposed else current
  }

  /** One pointer move of a handle drag: always measured from the rectangle and
      pointer position at the start of the drag. */
  function DragTo(current: Rect, start: Rect, lock: Option<real>, h: Handle,
                  startPos: Point, client: Point, zoom: real, img: ImageSize): (r: Rect)
    requires ValidLock(lock) && zoom > 0.0 && img.width > 0
    ensures r == current || r == Propose(start, lock, h, NormalizedDelta(startPos, client, zoom, img))
    ensures var q := Propose(start, lock, h, NormalizedDelta(startPos, client, zoom, img));
      q.width > MinMagicSize && q.height > MinMagicSize ==> r == q
    ensures r != current ==> r.width > MinMagicSize && r.height > MinMagicSize
    ensures current.width > MinMagicSize && current.height > MinMagicSize ==>
      r.width > MinMagicSize && r.height > MinMagicSize
  {
    ApplyProposal(current, Propose(start, lock, h, NormalizedDelta(startPos, client, zoom, img)))
  }

  /** The lock the source applies: the preset's `w / h`, used directly as the ratio
      of the rectangle's normalized width to its normalized height. */
  function AsWrittenLock(aspect: Option<Ratio>): (lock: Option<real>)
    ensures ValidLock(lock) && lock.Some? == aspect.Some?
    ensures aspect.Some? ==> lock.value == RatioValue(aspect.value)
  {
    match aspect
    case None => None
    case Some(ar) => Some(RatioValue(ar))
  }

  /** The lock that keeps the ratio in pixels: `w / h` divided by the image's
      own aspect ratio, the normalized ratio `PresetRect` produces. */
  function PixelLock(aspect: Option<Ratio>, img: ImageSize): (lock: Option<real>)
    requires img.width > 0
    ensures ValidLock(lock) && lock.Some? == aspect.Some?
    ensures aspect.Some? ==>
      lock.value * img.width as real == RatioValue(aspect.value) * img.height as real
  {
    match aspect
    case None => None
    case Some(ar) => Some(RatioValue(ar) / ImageRatio(img))
  }

  /** The rectangle's sides, in pixels of `img`, are in the ratio `v`. */
  predicate HasPixelRatio(r: Rect, v: real, img: ImageSize) {
    r.width * img.width as real == v * r.height * img.height as real
  }

  /** A rectangle held at the pixel lock of a preset has the preset's ratio in
      pixels. */
  lemma PixelLockGivesPixelRatio(r: Rect, ar: Ratio, img: ImageSize)
    requires img.width > 0 && HasRatio(r, PixelLock(Some(ar), img).value)
    ensures HasPixelRatio(r, RatioValue(ar), img)
  {
    var k, v := PixelLock(Some(ar), img).value, RatioValue(ar);
    var W, H := img.width as real, img.height as real;
    assert k * W == v * H;
    calc {
      r.width * W;
      (r.height * k) * W;
      r.height * (k * W);
      r.height * (v * H);
      v * r.height * H;
    }
  }

  /** `isRatioChanged`: the rectangle differs from the whole image. */
  function IsRatioChanged(r: Rect): (changed: bool)
    ensures changed <==> r != FullFrame
  {
    r.x != 0.0 || r.y != 0.0 || r.width != 1.0 || r.height != 1.0
  }

  // ---------------------------------------------------------------------------
  // Properties of the drag

  /** A locked drag keeps the rectangle's normalized aspect at the lock, whichever
      handle moves and whether or not the proposal is accepted. */
  lemma LockedDragKeepsRatio(current: Rect, start: Rect, k: real, h: Handle, d: Point)
    requires k > 0.0 && HasRatio(current, k)
    ensures HasRatio(ApplyProposal(current, Propose(start, Some(k), h, d)), k)
  {
    ApplyKeepsRatio(current, Propose(start, Some(k), h, d), k);
  }

  lemma ApplyKeepsRatio(current: Rect, proposed: Rect, k: real)
    requires HasRatio(current, k) && HasRatio(proposed, k)
    ensures HasRatio(ApplyProposal(current, proposed), k)
  {
  }

  /** The drag is not cumulative: a later move overrides an earlier one it accepts. */
  lemma DragNotCumulative(current: Rect, start: Rect, lock: Option<real>, h: Handle,
                          startPos: Point, p1: Point, p2: Point, zoom: real, img: ImageSize)
    requires ValidLock(lock) && zoom > 0.0 && img.width > 0
    requires var q := Propose(start, lock, h, NormalizedDelta(startPos, p2, zoom, img));
      q.width > MinMagicSize && q.height > MinMagicSize
    ensures DragTo(DragTo(current, start, lock, h, startPos, p1, zoom, img), start, lock, h, startPos, p2, zoom, img)
      == DragTo(current, start, lock, h, startPos, p2, zoom, img)
  {
  }

  /** When the pointer moves equally far on both axes, a locked corner derives the
      width from the height. */
  lemma CornerTieBreak(start: Rect, k: real, h: Handle, d: Point)
    requires k > 0.0 && IsCorner(h) && Abs(d.x) == Abs(d.y)
    ensures var r := ProposeLockedCorner(start, k, h, d);
      r.height == (if HasBottom(h) then start.height + d.y else start.height - d.y)
      && HasRatio(r, k)
  {
  }

  /** A preset rectangle is at least as large as the image on both axes. */
  lemma PresetAtLeastWholeImage(ar: Ratio, img: ImageSize)
    requires img.width > 0
    ensures var p := PresetRect(ar, img); p.width >= 1.0 && p.height >= 1.0
  {
  }

  /** The source's lock disagrees with its own presets: the preset makes the pixel
      aspect equal the ratio, the lock the normalized one, and the two agree
      exactly when the image is square. */
  lemma AsWrittenLockMatchesPresetOnlyOnSquareImages(ar: Ratio, img: ImageSize)
    requires img.width > 0
    ensures var p := PresetRect(ar, img);
      HasRatio(p, AsWrittenLock(Some(ar)).value) <==> img.width == img.height
  {
    var p := PresetRect(ar, img);
    PresetAtLeastWholeImage(ar, img);
    assert AsWrittenLock(Some(ar)).value == RatioValue(ar);
    LockAgreement(p.width, p.height, img.width as real, img.height as real, RatioValue(ar));
  }

  /** A rectangle whose pixel aspect is `r` also has normalized aspect `r` exactly
      when the image is square. */
  lemma LockAgreement(pw: real, ph: real, W: real, H: real, r: real)
    requires W > 0.0 && H > 0.0 && r > 0.0 && ph >= 1.0
    requires pw * W == r * ph * H
    ensures pw == ph * r <==> W == H
  {
    var k := r * ph;
    assert k >= r * 1.0;
    assert pw * W == k * H;
    if pw == ph * r {
      assert W * k == H * k;
      CancelFactor(W, H, k);
    }
    if W == H {
      CancelFactor(pw, k, W);
    }
  }

  /** A positive factor cancels from both sides of an equation. */
  lemma CancelFactor(a: real, b: real, c: real)
    requires c > 0.0 && a * c == b * c
    ensures a == b
  {
    assert (a - b) * c == 0.0;
  }

  /** Consequence: on a 200x100 image, selecting 1:1 and then pressing a corner
      handle and moving the pointer back onto the press point reshapes the
      rectangle. */
  lemma AsWrittenStillDragReshapesPreset(pos: Point, zoom: real)
    requires zoom > 0.0
    ensures var img := NaturalSize(200, 100);
      var ar := AspectRatio(1, 1);
      var p := PresetRect(ar, img);
      && p == Rect(0.0, -0.5, 1.0, 2.0)
      && DragTo(p, p, AsWrittenLock(Some(ar)), BottomRight, pos, pos, zoom, img)
         == Rect(0.0, -0.5, 2.0, 2.0)
  {
    var img := NaturalSize(200, 100);
    var ar := AspectRatio(1, 1);
    assert RatioValue(ar) == 1.0;
    assert ImageRatio(img) == 2.0;
    var p := PresetRect(ar, img);
    assert p == Rect(0.0, -0.5, 1.0, 2.0);
    var d := NormalizedDelta(pos, pos, zoom, img);
    StillDeltaIsZero(pos, zoom, img);
    var q := ProposeLockedCorner(p, 1.0, BottomRight, d);
    assert q == Rect(0.0, -0.5, 2.0, 2.0);
    assert Propose(p, AsWrittenLock(Some(ar)), BottomRight, d) == q;
  }

  /** A pointer that has not moved since the press gives no offset. */
  lemma StillDeltaIsZero(pos: Point, zoom: real, img: ImageSize)
    requires zoom > 0.0 && img.width > 0
    ensures NormalizedDelta(pos, pos, zoom, img) == Point(0.0, 0.0)
  {
    var d := NormalizedDelta(pos, pos, zoom, img);
    assert d.x * zoom * img.width as real == 0.0;
    assert d.y * zoom * img.height as real == 0.0;
  }

  /** With the pixel lock every preset already has the locked ratio. */
  lemma PresetHasPixelLock(ar: Ratio, img: ImageSize)
    requires img.width > 0
    ensures var p := PresetRect(ar, img);
      HasRatio(p, PixelLock(Some(ar), img).value)
  {
    var p := PresetRect(ar, img);
    var k := PixelLock(Some(ar), img).value;
    PixelRatioMatches(p.width, p.height, img.width as real, img.height as real, RatioValue(ar), k);
  }

  /** A rectangle whose pixel aspect is `r` has normalized aspect `k` when `k`
      converts `r` to the image's proportions. */
  lemma PixelRatioMatches(pw: real, ph: real, W: real, H: real, r: real, k: real)
    requires W > 0.0 && pw * W == r * ph * H && k * W == r * H
    ensures pw == ph * k
  {
    assert pw * W == ph * (k * W);
    assert pw * W == (ph * k) * W;
    CancelFactor(pw, ph * k, W);
  }

  /** With the pixel lock, pressing and releasing any handle of a preset without
      moving leaves the rectangle as it was. */
  lemma StillDragKeepsPreset(ar: Ratio, img: ImageSize, h: Handle, pos: Point, zoom: real)
    requires img.width > 0 && zoom > 0.0
    ensures var p := PresetRect(ar, img);
      DragTo(p, p, PixelLock(Some(ar), img), h, pos, pos, zoom, img) == p
  {
    var p := PresetRect(ar, img);
    var k := PixelLock(Some(ar), img).value;
    PresetHasPixelLock(ar, img);
    PresetAtLeastWholeImage(ar, img);
    StillDeltaIsZero(pos, zoom, img);
    StillProposalIsStart(p, k, h);
  }

  lemma StillProposalIsStart(start: Rect, k: real, h: Handle)
    requires k > 0.0 && HasRatio(start, k)
    ensures Propose(start, Some(k), h, Point(0.0, 0.0)) == start
  {
    if IsCorner(h) {
      StillCornerIsStart(start, k, h);
    } else if h == Left || h == Right {
      StillSideIsStart(start, k, h);
    } else {
      StillEndIsStart(start, k, h);
    }
  }

  lemma StillCornerIsStart(start: Rect, k: real, h: Handle)
    requires k > 0.0 && HasRatio(start, k) && IsCorner(h)
    ensures ProposeLockedCorner(start, k, h, Point(0.0, 0.0)) == start
  {
    var r := ProposeLockedCorner(start, k, h, Point(0.0, 0.0));
    assert r.height == start.height;
    assert r.width == r.height * k == start.height * k == start.width;
  }

  lemma StillSideIsStart(start: Rect, k: real, h: Handle)
    requires k > 0.0 && HasRatio(start, k) && (h == Left || h == Right)
    ensures ProposeLockedSide(start, k, h, Point(0.0, 0.0)) == start
  {
    var r := ProposeLockedSide(start, k, h, Point(0.0, 0.0));
    assert r.width == start.width;
    assert r.height * k == start.height * k;
    CancelFactor(r.height, start.height, k);
  }

  lemma StillEndIsStart(start: Rect, k: real, h: Handle)
    requires k > 0.0 && HasRatio(start, k) && (h == Top || h == Bottom)
    ensures ProposeLockedEnd(start, k, h, Point(0.0, 0.0)) == start
  {
    var r := ProposeLockedEnd(start, k, h, Point(0.0, 0.0));
    assert r.height == start.height;
    assert r.width == r.height * k == start.height * k == start.width;
  }
}

=== FILE: projects.dfy ===
/** The project gallery of `useAppLogic` (hooks/useAppLogic.ts): a list of projects,
    the selected project's id and the current page.  Ids, file contents and file
    names arrive as parameters. */
module Projects {
  import opened Wrappers
  import opened Strings

  /** `Project` of types.ts. */
  datatype Project = Project(id: string, name: string, originalSrc: string, currentSrc: string)

  datatype Page = Gallery | EditorPage

  datatype App = App(page: Page, projects: seq<Project>, selectedId: Option<string>)

  function Initial(saved: seq<Project>): App {
    App(Gallery, saved, None)
  }

  // ---------------------------------------------------------------------------
  // Names

  const DefaultName: string := "New Project"

  /** The project name for an uploaded file: the file name without its last
      `.`-separated segment, or "New Project" when that leaves nothing. */
  function ProjectName(fileName: string): (name: string)
    ensures name != ""
    ensures BeforeLast(fileName, '.') != "" ==> name == BeforeLast(fileName, '.')
    ensures BeforeLast(fileName, '.') == "" ==> name == DefaultName
  {
    JoinAllButLast(fileName, '.');
    var stem := Join(AllButLast(Split(fileName, '.')), '.');
    if stem == "" then DefaultName else stem
  }

  /** A name with two dots, such as `"a.b.png"`, is named by the part before the
      second dot, `"a.b"`. */
  lemma ProjectNameDropsLastExtension(a: string, b: string, ext: string)
    requires '.' !in a && '.' !in b && '.' !in ext
    ensures ProjectName(a + ['.'] + b + ['.'] + ext) == a + ['.'] + b
  {
    StemOfTwoDots(a, b, ext);
  }

  lemma StemOfTwoDots(a: string, b: string, ext: string)
    requires '.' !in a && '.' !in b && '.' !in ext
    ensures Join(AllButLast(Split(a + ['.'] + b + ['.'] + ext, '.')), '.') == a + ['.'] + b
  {
    SplitThree(a, b, ext);
    assert AllButLast([a, b, ext]) == [a, b];
    JoinTwo(a, b);
  }

  lemma SplitThree(a: string, b: string, ext: string)
    requires '.' !in a && '.' !in b && '.' !in ext
    ensures Split(a + ['.'] + b + ['.'] + ext, '.') == [a, b, ext]
  {
    assert a + ['.'] + b + ['.'] + ext == a + ['.'] + (b + ['.'] + ext);
    SplitFirst(a, '.', b + ['.'] + ext);
    SplitTwo(b, '.', ext);
  }

  lemma JoinTwo(a: string, b: string)
    ensures Join([a, b], '.') == a + ['.'] + b
  {
    assert [a, b][1..] == [b];
  }

  /** A name without a dot and a bare extension both fall back to the default. */
  lemma ProjectNameFallback()
    ensures ProjectName("photo") == DefaultName
    ensures ProjectName(".png") == DefaultName
  {
    assert FirstIndexOf("photo", '.').None?;
    assert ".png" == "" + ['.'] + "png";
    SplitTwo("", '.', "png");
  }

  // ---------------------------------------------------------------------------
  // Operations

  /** `handleNewProject`: the new project, whose original and current image are
      both the file's data, goes first; it is selected and the editor opens. */
  function NewProject(app: App, id: string, fileName: string, data: string): (r: App)
    ensures r.projects == [Project(id, ProjectName(fileName), data, data)] + app.projects
    ensures r.selectedId == Some(id) && r.page == EditorPage
  {
    App(EditorPage, [Project(id, ProjectName(fileName), data, data)] + app.projects, Some(id))
  }

  /** `handleSelectProject`. */
  function SelectProject(app: App, id: string): (r: App)
    ensures r.page == EditorPage && r.selectedId == Some(id) && r.projects == app.projects
  {
    app.(selectedId := Some(id), page := EditorPage)
  }

  /** `handleBackToGallery`. */
  function BackToGallery(app: App): (r: App)
    ensures r.page == Gallery && r.selectedId.None? && r.projects == app.projects
  {
    app.(selectedId := None, page := Gallery)
  }

  /** `handleSaveProject`: every project with the id gets the new current image;
      nothing else changes. */
  function SaveProject(ps: seq<Project>, id: string, src: string): (r: seq<Project>)
    ensures |r| == |ps|
    ensures forall i :: 0 <= i < |ps| ==>
      r[i] == if ps[i].id == id then ps[i].(currentSrc := src) else ps[i]
  {
    if |ps| == 0 then []
    else
      var head := if ps[0].id == id then ps[0].(currentSrc := src) else ps[0];
      [head] + SaveProject(ps[1..], id, src)
  }

  /** `handleDeleteProject`: removes every project with the id. */
  function DeleteProject(ps: seq<Project>, id: string): (r: seq<Project>)
    ensures forall p :: p in r <==> p in ps && p.id != id
    ensures |r| <= |ps|
  {
    if |ps| == 0 then []
    else if ps[0].id == id then DeleteProject(ps[1..], id)
    else [ps[0]] + DeleteProject(ps[1..], id)
  }

  /** `i` is the position of the first project with the id. */
  predicate FirstWithId(ps: seq<Project>, id: string, i: int) {
    0 <= i < |ps| && ps[i].id == id && forall j :: 0 <= j < i ==> ps[j].id != id
  }

  /** `selectedProject`: the first project with the selected id, if any. */
  function Find(ps: seq<Project>, id: Option<string>): (r: Option<Project>)
    ensures r.None? <==> id.None? || forall i :: 0 <= i < |ps| ==> ps[i].id != id.value
    ensures r.Some? ==> exists i :: FirstWithId(ps, id.value, i) && ps[i] == r.value
  {
    if id.None? || |ps| == 0 then None
    else if ps[0].id == id.value then
      assert FirstWithId(ps, id.value, 0);
      Some(ps[0])
    else
      var r := Find(ps[1..], id);
      FirstMatchShift(ps, id.value, r);
      r
  }

  lemma FirstMatchShift(ps: seq<Project>, id: string, r: Option<Project>)
    requires |ps| > 0 && ps[0].id != id
    requires r.Some? ==> exists i :: FirstWithId(ps[1..], id, i) && ps[1..][i] == r.value
    ensures r.Some? ==> exists i :: FirstWithId(ps, id, i) && ps[i] == r.value
  {
    if r.Some? {
      var i :| FirstWithId(ps[1..], id, i) && ps[1..][i] == r.value;
      assert ps[i + 1] == r.value;
      forall j | 0 <= j < i + 1
        ensures ps[j].id != id
      {
        if j > 0 { assert ps[j] == ps[1..][j - 1]; }
      }
      assert FirstWithId(ps, id, i + 1);
    }
  }

  function SelectedProject(app: App): (r: Option<Project>)
    ensures r.Some? ==> r.value in app.projects && app.selectedId.Some? && r.value.id == app.selectedId.value
  {
    FoundIsListed(app.projects, app.selectedId);
    Find(app.projects, app.selectedId)
  }

  lemma FoundIsListed(ps: seq<Project>, id: Option<string>)
    ensures Find(ps, id).Some? ==> id.Some? && Find(ps, id).value in ps && Find(ps, id).value.id == id.value
  {
    if Find(ps, id).Some? {
      var i :| FirstWithId(ps, id.value, i) && ps[i] == Find(ps, id).value;
      assert ps[i] in ps;
    }
  }

  // ---------------------------------------------------------------------------
  // Properties

  /** Deleting distributes over concatenation, so the kept projects stay in order. */
  lemma {:induction false} DeleteConcat(xs: seq<Project>, ys: seq<Project>, id: string)
    ensures DeleteProject(xs + ys, id) == DeleteProject(xs, id) + DeleteProject(ys, id)
  {
    if |xs| > 0 {
      var zs := xs + ys;
      assert zs[0] == xs[0] && zs[1..] == xs[1..] + ys;
      DeleteConcat(xs[1..], ys, id);
      DeleteStep(xs, id);
      DeleteStep(zs, id);
      var head, a, b := DeleteHead(xs[0], id), DeleteProject(xs[1..], id), DeleteProject(ys, id);
      assert head + (a + b) == (head + a) + b;
    } else {
      assert xs + ys == ys;
    }
  }

  /** What a delete keeps of one project: the project itself unless it has the id. */
  function DeleteHead(x: Project, id: string): seq<Project> {
    if x.id == id then [] else [x]
  }

  /** A delete handles the first project and then the rest. */
  lemma DeleteStep(ps: seq<Project>, id: string)
    requires |ps| > 0
    ensures DeleteProject(ps, id) == DeleteHead(ps[0], id) + DeleteProject(ps[1..], id)
  {
  }

  /** A list holding no project with the id is left as it is by a delete. */
  lemma {:induction false} DeleteAbsent(ps: seq<Project>, id: string)
    requires forall i :: 0 <= i < |ps| ==> ps[i].id != id
    ensures DeleteProject(ps, id) == ps
  {
    if |ps| > 0 {
      DeleteAbsent(ps[1..], id);
      assert [ps[0]] + ps[1..] == ps;
    }
  }

  /** A new project with a fresh id is the selected project, and deleting it gives
      back the previous list. */
  lemma NewThenDelete(app: App, id: string, fileName: string, data: string)
    requires forall i :: 0 <= i < |app.projects| ==> app.projects[i].id != id
    ensures var r := NewProject(app, id, fileName, data);
      && SelectedProject(r) == Some(Project(id, ProjectName(fileName), data, data))
      && DeleteProject(r.projects, id) == app.projects
  {
    var r := NewProject(app, id, fileName, data);
    assert r.projects[1..] == app.projects;
    DeleteAbsent(app.projects, id);
  }

  /** Saving a project changes what a lookup of its id finds to the new image,
      and keeps every id in place. */
  lemma {:induction false} SaveThenFind(ps: seq<Project>, id: string, src: string)
    ensures var saved := SaveProject(ps, id, src);
      && (forall i :: 0 <= i < |saved| ==> saved[i].id == ps[i].id)
      && Find(saved, Some(id)) ==
         (if Find(ps, Some(id)).Some? then Some(Find(ps, Some(id)).value.(currentSrc := src)) else None)
  {
    if |ps| > 0 {
      SaveThenFind(ps[1..], id, src);
      assert SaveProject(ps, id, src)[1..] == SaveProject(ps[1..], id, src);
    }
  }

  /** Opening a project shows the first project with its id, and going back to
      the gallery afterwards is the same as never having opened it. */
  lemma SelectThenBack(app: App, id: string)
    ensures SelectedProject(SelectProject(app, id)) == Find(app.projects, Some(id))
    ensures BackToGallery(SelectProject(app, id)) == BackToGallery(app)
    ensures SelectedProject(BackToGallery(app)).None?
  {
  }

  /** Deleting the open project leaves the editor page with no project to show. */
  lemma DeleteOpenProject(app: App)
    requires app.selectedId.Some? && app.page == EditorPage
    ensures var r := app.(projects := DeleteProject(app.projects, app.selectedId.value));
      SelectedProject(r).None? && r.page == EditorPage
  {
  }
}

=== FILE: selection.dfy ===
/** The selection/crop engine of `useSelection` (hooks/useSelection.ts): a crop
    rectangle drawn from an anchor to the pointer, or taken from a detected object. */
module Selection {
  import opened Wrappers
  import opened Geometry

  /** `DetectedObject` of types.ts, with `labelText` for its `label` and a synthetic `id` standing for the object's
      identity (the source compares the `box` reference). */
  datatype DetectedObject = DetectedObject(id: nat, labelText: string, box: Rect)

  /** The crop rectangle and, when it was assigned from a detected object's box,
      that object's id; a drawn rectangle is a fresh object with no source. */
  datatype Crop = Crop(rect: Rect, source: Option<nat>)

  datatype Selection = Selection(
    cropRect: Option<Crop>,
    isCropping: bool,
    anchor: Point,
    detected: seq<DetectedObject>)

  /** A drawn rectangle narrower or shorter than this is discarded on release. */
  const MinDrawnSize: real := 0.02

  function Initial(): Selection {
    Selection(None, false, Point(0.0, 0.0), [])
  }

  /** `handleClearSelection`. */
  function Clear(s: Selection): (r: Selection)
    ensures r.cropRect.None? && r.detected == []
    ensures r.isCropping == s.isCropping && r.anchor == s.anchor
  {
    s.(cropRect := None, detected := [])
  }

  /** `handleSelectDetectedObject`: the crop becomes the object's own box. */
  function SelectObject(s: Selection, o: DetectedObject): (r: Selection)
    ensures r.cropRect == Some(Crop(o.box, Some(o.id)))
    ensures r.detected == s.detected && r.isCropping == s.isCropping && r.anchor == s.anchor
  {
    s.(cropRect := Some(Crop(o.box, Some(o.id))))
  }

  /** The axis-aligned rectangle spanned by the anchor and the pointer. */
  function Span(anchor: Point, p: Point): (r: Rect)
    ensures r.width >= 0.0 && r.height >= 0.0
    ensures r.x == Min(anchor.x, p.x) && r.x + r.width == Max(anchor.x, p.x)
    ensures r.y == Min(anchor.y, p.y) && r.y + r.height == Max(anchor.y, p.y)
  {
    Rect(Min(p.x, anchor.x), Min(p.y, anchor.y), Abs(p.x - anchor.x), Abs(p.y - anchor.y))
  }

  /** `handleCropMouseDown`: ignored off the image; otherwise starts a draw with a
      zero-size rectangle at the anchor. */
  function MouseDown(s: Selection, coords: Option<Point>): (r: Selection)
    ensures coords.None? ==> r == s
    ensures coords.Some? ==>
      && r.isCropping && r.anchor == coords.value
      && r.cropRect == Some(Crop(Rect(coords.value.x, coords.value.y, 0.0, 0.0), None))
      && r.detected == s.detected
  {
    match coords
    case None => s
    case Some(p) =>
      s.(isCropping := true, anchor := p, cropRect := Some(Crop(Rect(p.x, p.y, 0.0, 0.0), None)))
  }

  /** `handleCropMouseMove`: while drawing, the crop spans the anchor and pointer. */
  function MouseMove(s: Selection, coords: Option<Point>): (r: Selection)
    ensures !s.isCropping || coords.None? ==> r == s
    ensures s.isCropping && coords.Some? ==>
      r == s.(cropRect := Some(Crop(Span(s.anchor, coords.value), None)))
  {
    if !s.isCropping then s
    else match coords
      case None => s
      case Some(p) => s.(cropRect := Some(Crop(Span(s.anchor, p), None)))
  }

  /** The new selection and the rectangle handed to `onCropComplete`, if any. */
  datatype Release = Release(selection: Selection, completed: Option<Rect>)

  predicate TooSmall(r: Rect) {
    r.width < MinDrawnSize || r.height < MinDrawnSize
  }

  /** `handleCropMouseUpOrLeave`: ends a draw, discarding a rectangle below the
      minimum size and reporting any other one as complete. */
  function MouseUp(s: Selection): (r: Release)
    ensures !s.isCropping ==> r == Release(s, None)
    ensures s.isCropping ==> !r.selection.isCropping
    ensures s.isCropping ==> r.selection.detected == s.detected && r.selection.anchor == s.anchor
    ensures s.isCropping && s.cropRect.Some? && TooSmall(s.cropRect.value.rect) ==>
      r.selection.cropRect.None? && r.completed.None?
    ensures s.isCropping && s.cropRect.Some? && !TooSmall(s.cropRect.value.rect) ==>
      r.selection.cropRect == s.cropRect && r.completed == Some(s.cropRect.value.rect)
    ensures s.isCropping && s.cropRect.None? ==> r.selection.cropRect.None? && r.completed.None?
  {
    if !s.isCropping then Release(s, None)
    else
      var s' := s.(isCropping := false);
      match s.cropRect
      case None => Release(s', None)
      case Some(c) =>
        if TooSmall(c.rect) then Release(s'.(cropRect := None), None)
        else Release(s', Some(c.rect))
  }

  /** The drawn rectangle does not depend on the drag direction. */
  lemma SpanSymmetric(a: Point, b: Point)
    ensures Span(a, b) == Span(b, a)
  {
  }

  /** Dragging between two points of the unit square draws inside the unit square. */
  lemma SpanWithinUnitSquare(a: Point, b: Point)
    requires InUnitSquare(a) && InUnitSquare(b)
    ensures WithinUnitSquare(Span(a, b))
  {
  }

  /** A draw from (0.5, 0.5) to (0.51, 0.51) is discarded on release. */
  lemma TinyDrawDiscarded()
    ensures var s := MouseMove(MouseDown(Initial(), Some(Point(0.5, 0.5))), Some(Point(0.51, 0.51)));
      var r := MouseUp(s);
      r.selection.cropRect.None? && r.completed.None? && !r.selection.isCropping
  {
    var s := MouseMove(MouseDown(Initial(), Some(Point(0.5, 0.5))), Some(Point(0.51, 0.51)));
    assert s.cropRect.value.rect.width == 0.01;
  }

  /** The object a crop was taken from: `cropRect === object.box`. */
  predicate IsSelected(crop: Option<Crop>, o: DetectedObject) {
    crop.Some? && crop.value.source == Some(o.id)
  }

  /** Ids are distinct, as the detection mapping assigns them. */
  predicate DistinctIds(objs: seq<DetectedObject>) {
    forall i, j :: 0 <= i < j < |objs| ==> objs[i].id != objs[j].id
  }

  /** After selecting a candidate, exactly that candidate reads as selected. */
  lemma SelectedIsExactlyTheChosenObject(s: Selection, k: nat)
    requires DistinctIds(s.detected) && k < |s.detected|
    ensures forall i :: 0 <= i < |s.detected| ==>
      (IsSelected(SelectObject(s, s.detected[k]).cropRect, s.detected[i]) <==> i == k)
  {
  }

  /** A freshly drawn rectangle is never mistaken for a candidate's box, even when
      it has the same geometry. */
  lemma DrawnRectSelectsNothing(s: Selection, p: Option<Point>, o: DetectedObject)
    requires s.isCropping && p.Some?
    ensures !IsSelected(MouseMove(s, p).cropRect, o)
  {
  }
}

=== FILE: strings.dfy ===
/** The JavaScript string built-ins the source relies on, over `seq<char>`:
    `split`/`join` on a one-character separator, `String(n)` for naturals,
    `padStart`, `trim`, and substring search. */
module Strings {
  import opened Wrappers

  // ---------------------------------------------------------------------------
  // Searching

  /** `pat` occurs in `s` starting at index `i`. */
  predicate OccursAt(s: string, pat: string, i: int) {
    0 <= i && i + |pat| <= |s| && s[i..i + |pat|] == pat
  }

  /** `s.includes(pat)`. */
  predicate Contains(s: string, pat: string) {
    exists i :: 0 <= i <= |s| && OccursAt(s, pat, i)
  }

  /** `s.indexOf(pat)` as an option: the first position where `pat` occurs. */
  function IndexOf(s: string, pat: string): (r: Option<nat>)
    ensures r.None? <==> !Contains(s, pat)
    ensures r.Some? ==> OccursAt(s, pat, r.value) && forall k :: 0 <= k < r.value ==> !OccursAt(s, pat, k)
  {
    IndexFrom(s, pat, 0)
  }

  /** The first occurrence of `pat` at or after `j`. */
  function IndexFrom(s: string, pat: string, j: nat): (r: Option<nat>)
    requires j <= |s|
    ensures r.Some? ==> j <= r.value && OccursAt(s, pat, r.value)
    ensures r.Some? ==> forall k :: j <= k < r.value ==> !OccursAt(s, pat, k)
    ensures r.None? ==> forall k :: j <= k <= |s| ==> !OccursAt(s, pat, k)
    decreases |s| - j
  {
    if OccursAt(s, pat, j) then Some(j)
    else if j == |s| then None
    else IndexFrom(s, pat, j + 1)
  }

  /** `s.indexOf(c)` as an option: the first position of `c`. */
  function FirstIndexOf(s: string, c: char): (r: Option<nat>)
    ensures r.None? <==> c !in s
    ensures r.Some? ==> r.value < |s| && s[r.value] == c && c !in s[..r.value]
  {
    if |s| == 0 then None
    else if s[0] == c then Some(0)
    else match FirstIndexOf(s[1..], c)
      case None => None
      case Some(k) => assert s[..k + 1] == [s[0]] + s[1..][..k]; Some(k + 1)
  }

  /** `s.lastIndexOf(c)` as an option: the last position of `c`. */
  function LastIndexOf(s: string, c: char): (r: Option<nat>)
    ensures r.None? <==> c !in s
    ensures r.Some? ==> r.value < |s| && s[r.value] == c && c !in s[r.value + 1..]
  {
    if |s| == 0 then None
    else if s[|s| - 1] == c then Some(|s| - 1)
    else
      assert s == s[..|s| - 1] + [s[|s| - 1]];
      match LastIndexOf(s[..|s| - 1], c)
      case None => None
      case Some(k) =>
        assert s[k + 1..] == s[..|s| - 1][k + 1..] + [s[|s| - 1]];
        Some(k)
  }

  // ---------------------------------------------------------------------------
  // split / join on a single-character separator

  /** `s.split(c)`: the maximal `c`-free pieces of `s`, at least one of them. */
  function Split(s: string, c: char): (parts: seq<string>)
    ensures |parts| >= 1
    ensures forall i :: 0 <= i < |parts| ==> c !in parts[i]
    decreases |s|
  {
    match FirstIndexOf(s, c)
    case None => [s]
    case Some(i) => [s[..i]] + Split(s[i + 1..], c)
  }

  /** `parts.join(c)`. */
  function Join(parts: seq<string>, c: char): string {
    if |parts| == 0 then ""
    else if |parts| == 1 then parts[0]
    else parts[0] + [c] + Join(parts[1..], c)
  }

  /** Splitting and re-joining on the same separator gives the string back. */
  lemma {:induction false} JoinSplit(s: string, c: char)
    ensures Join(Split(s, c), c) == s
    decreases |s|
  {
    match FirstIndexOf(s, c)
    case None =>
    case Some(i) =>
      var rest := s[i + 1..];
      var tail := Split(rest, c);
      JoinSplit(rest, c);
      var parts := [s[..i]] + tail;
      assert Split(s, c) == parts;
      assert parts[1..] == tail;
      JoinCons(s[..i], tail, c);
      assert s == s[..i] + [c] + rest;
  }

  lemma JoinCons(head: string, tail: seq<string>, c: char)
    requires |tail| >= 1
    ensures Join([head] + tail, c) == head + [c] + Join(tail, c)
  {
    assert ([head] + tail)[1..] == tail;
  }

  /** `s.split(c).slice(0, -1).join(c)` is the part of `s` before its last `c`,
      and the empty string when `s` has no `c`. */
  lemma {:induction false} JoinAllButLast(s: string, c: char)
    ensures Join(AllButLast(Split(s, c)), c) == BeforeLast(s, c)
    decreases |s|
  {
    match FirstIndexOf(s, c)
    case None =>
    case Some(i) =>
      var rest := s[i + 1..];
      var tail := Split(rest, c);
      var parts := [s[..i]] + tail;
      assert Split(s, c) == parts;
      assert AllButLast(parts) == [s[..i]] + AllButLast(tail);
      SplitSingleton(rest, c);
      if |tail| == 1 {
        LastIndexUnique(s, c, i);
      } else {
        JoinAllButLast(rest, c);
        JoinCons(s[..i], AllButLast(tail), c);
        BeforeLastStep(s, c, i);
      }
  }

  /** Past a first occurrence at `i`, the last occurrence lies in the rest. */
  lemma BeforeLastStep(s: string, c: char, i: nat)
    requires i < |s| && s[i] == c && c in s[i + 1..]
    ensures BeforeLast(s, c) == s[..i] + [c] + BeforeLast(s[i + 1..], c)
  {
    var rest := s[i + 1..];
    var k := LastIndexOf(rest, c).value;
    assert s[i + 1 + k + 1..] == rest[k + 1..];
    LastIndexUnique(s, c, i + 1 + k);
    assert s == (s[..i] + [c]) + rest;
    PrefixOfConcat(s[..i] + [c], rest, k);
  }

  lemma PrefixOfConcat(a: string, b: string, n: nat)
    requires n <= |b|
    ensures (a + b)[..|a| + n] == a + b[..n]
  {
  }

  /** `split` yields a single piece exactly when the separator does not occur. */
  lemma SplitSingleton(s: string, c: char)
    ensures |Split(s, c)| == 1 <==> c !in s
  {
  }

  /** Splitting at a first separator peels off the text before it. */
  lemma SplitFirst(a: string, c: char, b: string)
    requires c !in a
    ensures Split(a + [c] + b, c) == [a] + Split(b, c)
  {
    var s := a + [c] + b;
    assert s[..|a|] == a && s[|a|] == c;
    assert FirstIndexOf(s, c) == Some(|a|);
    assert s[|a| + 1..] == b;
  }

  /** A string with exactly one separator splits into the two sides. */
  lemma SplitTwo(a: string, c: char, b: string)
    requires c !in a && c !in b
    ensures Split(a + [c] + b, c) == [a, b]
  {
    SplitFirst(a, c, b);
    assert FirstIndexOf(b, c).None?;
  }

  /** No separator other than a digit occurs in a numeral. */
  lemma NotInDigits(s: string, c: char)
    requires AllDigits(s) && !IsDigit(c)
    ensures c !in s
  {
  }

  /** `parts.slice(0, -1)` on a non-empty array. */
  function AllButLast(parts: seq<string>): seq<string>
    requires |parts| >= 1
  {
    parts[..|parts| - 1]
  }

  /** The part of `s` before its last `c`; empty when there is none. */
  function BeforeLast(s: string, c: char): string {
    match LastIndexOf(s, c)
    case None => ""
    case Some(k) => s[..k]
  }

  /** The last position of `c` is the one after which no `c` occurs. */
  lemma LastIndexUnique(s: string, c: char, k: nat)
    requires k < |s| && s[k] == c && c !in s[k + 1..]
    ensures LastIndexOf(s, c) == Some(k)
  {
  }

  // ---------------------------------------------------------------------------
  // Decimal rendering of naturals: `String(n)`

  predicate IsDigit(c: char) {
    '0' <= c <= '9'
  }

  predicate AllDigits(s: string) {
    forall i :: 0 <= i < |s| ==> IsDigit(s[i])
  }

  function DigitChar(d: nat): (c: char)
    requires d < 10
    ensures IsDigit(c) && (c as int) - ('0' as int) == d
  {
    ('0' as int + d) as char
  }

  /** The natural number a string of decimal digits denotes. */
  function Value(s: string): nat
    requires AllDigits(s)
  {
    if |s| == 0 then 0
    else Value(s[..|s| - 1]) * 10 + ((s[|s| - 1] as int) - ('0' as int))
  }

  /** `String(n)` for a natural `n`: its shortest decimal rendering. */
  function Show(n: nat): (s: string)
    ensures |s| >= 1 && AllDigits(s)
    ensures n < 10 <==> |s| == 1
    ensures 10 <= n < 100 ==> |s| == 2
  {
    if n < 10 then [DigitChar(n)] else Show(n / 10) + [DigitChar(n % 10)]
  }

  /** Reading back what `Show` wrote gives the number. */
  lemma {:induction false} ValueShow(n: nat)
    ensures Value(Show(n)) == n
  {
    if n >= 10 {
      ValueShow(n / 10);
      var s := Show(n);
      assert s[..|s| - 1] == Show(n / 10);
    }
  }

  // ---------------------------------------------------------------------------
  // padStart

  function Repeat(c: char, n: nat): (s: string)
    ensures |s| == n && forall i :: 0 <= i < n ==> s[i] == c
  {
    if n == 0 then "" else [c] + Repeat(c, n - 1)
  }

  /** `s.padStart(n, c)`: left-pads with `c` up to length `n`, never truncating. */
  function PadStart(s: string, n: nat, c: char): (r: string)
    ensures |r| == if |s| >= n then |s| else n
    ensures r[|r| - |s|..] == s
    ensures forall i :: 0 <= i < |r| - |s| ==> r[i] == c
  {
    if |s| >= n then s else Repeat(c, n - |s|) + s
  }

  /** Leading zeros do not change the value of a digit string. */
  lemma {:induction false} ValueLeadingZeros(z: nat, s: string)
    requires AllDigits(s)
    ensures AllDigits(Repeat('0', z) + s)
    ensures Value(Repeat('0', z) + s) == Value(s)
    decreases z, |s|
  {
    var t := Repeat('0', z) + s;
    if |s| == 0 {
      assert t == Repeat('0', z);
      if z > 0 {
        assert t[..|t| - 1] == Repeat('0', z - 1) + "";
        ValueLeadingZeros(z - 1, "");
      }
    } else {
      assert t[..|t| - 1] == Repeat('0', z) + s[..|s| - 1];
      ValueLeadingZeros(z, s[..|s| - 1]);
    }
  }

  // ---------------------------------------------------------------------------
  // trim

  /** White space and line terminators as `String.prototype.trim` removes them. */
  predicate IsWhitespace(c: char) {
    c == ' ' || c == '\t' || c == '\n' || c == '\r' || c == '\U{000B}' || c == '\U{000C}'
    || c == '\U{00A0}' || c == '\U{1680}' || ('\U{2000}' <= c <= '\U{200A}')
    || c == '\U{2028}' || c == '\U{2029}' || c == '\U{202F}' || c == '\U{205F}'
    || c == '\U{3000}' || c == '\U{FEFF}'
  }

  predicate AllWhitespace(s: string) {
    forall i :: 0 <= i < |s| ==> IsWhitespace(s[i])
  }

  function TrimStart(s: string): (r: string)
    ensures |r| <= |s| && r == s[|s| - |r|..]
    ensures |r| > 0 ==> !IsWhitespace(r[0])
    ensures AllWhitespace(s[..|s| - |r|])
  {
    if |s| > 0 && IsWhitespace(s[0]) then
      var t := s[1..];
      var r := TrimStart(t);
      assert t[|t| - |r|..] == s[|s| - |r|..];
      var cut := s[..|s| - |r|];
      forall i | 0 <= i < |cut|
        ensures IsWhitespace(cut[i])
      {
        if i > 0 {
          assert cut[i] == t[..|t| - |r|][i - 1];
        }
      }
      r
    else s
  }

  function TrimEnd(s: string): (r: string)
    ensures |r| <= |s| && r == s[..|r|]
    ensures |r| > 0 ==> !IsWhitespace(r[|r| - 1])
    ensures AllWhitespace(s[|r|..])
  {
    if |s| > 0 && IsWhitespace(s[|s| - 1]) then
      var t := s[..|s| - 1];
      var r := TrimEnd(t);
      assert t[..|r|] == s[..|r|];
      var cut := s[|r|..];
      forall i | 0 <= i < |cut|
        ensures IsWhitespace(cut[i])
      {
        if i < |cut| - 1 {
          assert cut[i] == t[|r|..][i];
        }
      }
      r
    else s
  }

  /** `s.trim()`. */
  function Trim(s: string): string {
    TrimEnd(TrimStart(s))
  }

  /** `s.trim()` is empty exactly when every character of `s` is white space. */
  lemma TrimEmpty(s: string)
    ensures Trim(s) == "" <==> AllWhitespace(s)
  {
  }
}

=== FILE: template.dfy ===
/** The text substitution behind the translation function `t` of
    context/LanguageContext.tsx: `String.prototype.replace` with a string pattern,
    and the placeholders `{0}`, `{1}`, ... replaced once each, in order. */
module Template {
  import opened Wrappers
  import opened Strings

  // ---------------------------------------------------------------------------
  // String.prototype.replace with a string pattern

  /** The replacement text for one match, with the `$` patterns a string pattern
      understands: `$$` is a dollar sign, `$&` the match, `$\`` the text before it
      and `$'` the text after it; any other `$` is literal. */
  function Expand(repl: string, matched: string, before: string, after: string): (r: string)
    ensures '$' !in repl ==> r == repl
    decreases |repl|
  {
    if |repl| == 0 then ""
    else if repl[0] == '$' && |repl| >= 2 && repl[1] in "$&`'" then
      var piece := match repl[1]
        case '$' => "$"
        case '&' => matched
        case '`' => before
        case _ => after;
      piece + Expand(repl[2..], matched, before, after)
    else
      assert repl == [repl[0]] + repl[1..];
      [repl[0]] + Expand(repl[1..], matched, before, after)
  }

  /** `s.replace(pat, repl)`: only the first occurrence is replaced. */
  function ReplaceFirst(s: string, pat: string, repl: string): (r: string)
    ensures !Contains(s, pat) ==> r == s
    ensures Contains(s, pat) ==>
      var i := IndexOf(s, pat).value;
      r == s[..i] + Expand(repl, pat, s[..i], s[i + |pat|..]) + s[i + |pat|..]
  {
    match IndexOf(s, pat)
    case None => s
    case Some(i) => s[..i] + Expand(repl, pat, s[..i], s[i + |pat|..]) + s[i + |pat|..]
  }

  /** An argument without `$` replaces the first occurrence of its placeholder and
      leaves the rest of the template alone. */
  lemma PlainArgumentReplacesFirst(s: string, pat: string, arg: string, i: nat)
    requires '$' !in arg && OccursAt(s, pat, i)
    requires forall k :: 0 <= k < i ==> !OccursAt(s, pat, k)
    ensures ReplaceFirst(s, pat, arg) == s[..i] + arg + s[i + |pat|..]
  {
    assert Contains(s, pat);
    var j := IndexOf(s, pat).value;
    assert OccursAt(s, pat, j);
    assert j == i;
  }

  /** A template that starts with the pattern has that occurrence replaced. */
  lemma ReplaceAtStart(pat: string, rest: string, arg: string)
    requires '$' !in arg
    ensures ReplaceFirst(pat + rest, pat, arg) == arg + rest
  {
    var s := pat + rest;
    assert OccursAt(s, pat, 0) by {
      assert s[..|pat|] == pat;
    }
    PlainArgumentReplacesFirst(s, pat, arg, 0);
    assert s[|pat|..] == rest;
  }

  /** A pattern whose first character does not occur before it is replaced where
      it stands. */
  lemma ReplaceAfter(pre: string, pat: string, rest: string, arg: string)
    requires '$' !in arg && |pat| > 0 && pat[0] !in pre
    ensures ReplaceFirst(pre + pat + rest, pat, arg) == pre + arg + rest
  {
    var s := pre + pat + rest;
    var i := |pre|;
    assert OccursAt(s, pat, i) by {
      assert s[i..i + |pat|] == pat;
    }
    forall k | 0 <= k < i
      ensures !OccursAt(s, pat, k)
    {
      assert s[k] == pre[k];
      if k + |pat| <= |s| {
        assert s[k..k + |pat|][0] == s[k];
      }
    }
    PlainArgumentReplacesFirst(s, pat, arg, i);
    assert s[..i] == pre && s[i + |pat|..] == rest;
  }

  /** `$&` in an argument stands for the matched placeholder, so the placeholder
      survives. */
  lemma DollarPatternInArgument()
    ensures ReplaceFirst("Est. {0}", "{0}", "$&") == "Est. {0}"
  {
    var s := "Est. {0}";
    assert OccursAt(s, "{0}", 5);
    forall k | 0 <= k < 5 ensures !OccursAt(s, "{0}", k) {
      assert s[k] != '{';
    }
    assert IndexOf(s, "{0}") == Some(5);
    assert Expand("$&", "{0}", s[..5], s[8..]) == "{0}";
  }

  // ---------------------------------------------------------------------------
  // Placeholders

  /** The literal `{i}`. */
  function Placeholder(i: nat): (p: string)
    ensures |p| >= 3 && p[0] == '{' && p[|p| - 1] == '}'
    ensures forall k :: 0 < k < |p| - 1 ==> IsDigit(p[k])
    ensures p[1..|p| - 1] == Show(i)
  {
    "{" + Show(i) + "}"
  }

  /** Arguments `i`, `i + 1`, ... applied in order to the evolving template. */
  function ApplyArgs(template: string, args: seq<string>, i: nat): string
    requires i <= |args|
    decreases |args| - i
  {
    if i == |args| then template
    else ApplyArgs(ReplaceFirst(template, Placeholder(i), args[i]), args, i + 1)
  }

  /** A template without any of the arguments' placeholders comes back unchanged:
      surplus arguments have no effect. */
  lemma {:induction false} ArgumentsWithoutPlaceholders(template: string, args: seq<string>, i: nat)
    requires i <= |args|
    requires forall k :: i <= k < |args| ==> !Contains(template, Placeholder(k))
    ensures ApplyArgs(template, args, i) == template
    decreases |args| - i
  {
    if i < |args| {
      ArgumentsWithoutPlaceholders(template, args, i + 1);
    }
  }

  /** Arguments see the template as earlier ones left it: an argument that itself
      contains `{1}` is filled by the next argument. */
  lemma ArgumentsApplyInOrder(x: string)
    requires '$' !in x
    ensures ApplyArgs("{0} {1}", ["{1}", x], 0) == x + " {1}"
  {
    var args := ["{1}", x];
    var rest := " {1}";
    assert Placeholder(0) == "{0}" by {
      assert Show(0) == "0";
    }
    assert Placeholder(1) == "{1}" by {
      assert Show(1) == "1";
    }
    assert "{0} {1}" == "{0}" + rest;
    ReplaceAtStart("{0}", rest, "{1}");
    ReplaceAtStart("{1}", rest, x);
    assert ApplyArgs(x + rest, args, 2) == x + rest;
  }

  lemma {:induction false} ApplyArgsAppend(template: string, args: seq<string>, a: string, i: nat)
    requires i <= |args|
    ensures ApplyArgs(template, args + [a], i) == ReplaceFirst(ApplyArgs(template, args, i), Placeholder(|args|), a)
    decreases |args| - i
  {
    var full := args + [a];
    if i == |args| {
      assert full[i] == a;
      assert ApplyArgs(ReplaceFirst(template, Placeholder(i), a), full, i + 1)
          == ReplaceFirst(template, Placeholder(i), a);
    } else {
      assert full[i] == args[i];
      ApplyArgsAppend(ReplaceFirst(template, Placeholder(i), args[i]), args, a, i + 1);
    }
  }

  lemma {:induction false} ApplyArgsKeepsPlaceholder(template: string, args: seq<string>, i: nat, m: nat)
    requires i <= |args| <= m && Contains(template, Placeholder(m))
    ensures Contains(ApplyArgs(template, args, i), Placeholder(m))
    decreases |args| - i
  {
    if i < |args| {
      ReplaceKeepsOtherPlaceholder(template, i, m, args[i]);
      ApplyArgsKeepsPlaceholder(ReplaceFirst(template, Placeholder(i), args[i]), args, i + 1, m);
    }
  }

  /** Replacing the first `{i}` leaves every `{m}` with `m != i` in place. */
  lemma ReplaceKeepsOtherPlaceholder(s: string, i: nat, m: nat, arg: string)
    requires i != m && Contains(s, Placeholder(m))
    ensures Contains(ReplaceFirst(s, Placeholder(i), arg), Placeholder(m))
  {
    var p :| 0 <= p <= |s| && OccursAt(s, Placeholder(m), p);
    if Contains(s, Placeholder(i)) {
      PlaceholdersApart(s, i, m, IndexOf(s, Placeholder(i)).value, p);
      ReplaceKeepsClearOccurrence(s, Placeholder(i), arg, Placeholder(m), p);
    }
  }

  /** An occurrence of `other` clear of the first occurrence of `pat` survives the
      replacement of `pat`. */
  lemma ReplaceKeepsClearOccurrence(s: string, pat: string, repl: string, other: string, p: nat)
    requires Contains(s, pat) && OccursAt(s, other, p)
    requires var j := IndexOf(s, pat).value; p + |other| <= j || j + |pat| <= p
    ensures Contains(ReplaceFirst(s, pat, repl), other)
  {
    var j, mid := ReplacedAt(s, pat, repl);
    OccurrenceSurvives(s, j, |pat|, mid, other, p, ReplaceFirst(s, pat, repl));
  }

  /** Where the first occurrence of `pat` sits and what replaces it. */
  lemma ReplacedAt(s: string, pat: string, repl: string) returns (j: nat, mid: string)
    requires Contains(s, pat)
    ensures j == IndexOf(s, pat).value && j + |pat| <= |s|
    ensures ReplaceFirst(s, pat, repl) == s[..j] + mid + s[j + |pat|..]
  {
    j := IndexOf(s, pat).value;
    mid := Expand(repl, pat, s[..j], s[j + |pat|..]);
  }

  /** Rewriting `s[j..j + n]` keeps an occurrence of `pat` that lies clear of it. */
  lemma OccurrenceSurvives(s: string, j: nat, n: nat, mid: string, pat: string, p: nat, r: string)
    requires j + n <= |s| && OccursAt(s, pat, p) && (p + |pat| <= j || j + n <= p)
    requires r == s[..j] + mid + s[j + n..]
    ensures Contains(r, pat)
  {
    var before, after := s[..j], s[j + n..];
    if p + |pat| <= j {
      assert r[p..p + |pat|] == before[p..p + |pat|];
      assert OccursAt(r, pat, p);
    } else {
      var q := j + |mid| + (p - (j + n));
      assert r[q..q + |pat|] == after[p - (j + n)..p - (j + n) + |pat|];
      assert OccursAt(r, pat, q);
    }
  }

  /** Occurrences of two different placeholders never overlap: `{` opens each and
      appears nowhere else in one, `}` closes each and appears nowhere else in one,
      and equal spans would make the numerals equal. */
  lemma PlaceholdersApart(s: string, i: nat, m: nat, j: nat, p: nat)
    requires i != m && OccursAt(s, Placeholder(i), j) && OccursAt(s, Placeholder(m), p)
    ensures p + |Placeholder(m)| <= j || j + |Placeholder(i)| <= p
  {
    var pi, pm := Placeholder(i), Placeholder(m);
    assert Show(i) != Show(m) by {
      ValueShow(i);
      ValueShow(m);
    }
    assert pi != pm;
    PlaceholderBraces(s, pi, j);
    PlaceholderBraces(s, pm, p);
  }

  /** Where a placeholder occurs, `s` has `{` at its start and nowhere else in it,
      and `}` at its end and nowhere else in it. */
  lemma PlaceholderBraces(s: string, pat: string, j: nat)
    requires OccursAt(s, pat, j) && |pat| >= 3 && pat[0] == '{' && pat[|pat| - 1] == '}'
    requires forall k :: 0 < k < |pat| - 1 ==> IsDigit(pat[k])
    ensures s[j] == '{' && s[j + |pat| - 1] == '}'
    ensures forall q :: j < q < j + |pat| ==> s[q] != '{'
    ensures forall q :: j <= q < j + |pat| - 1 ==> s[q] != '}'
  {
    forall q | j <= q < j + |pat|
      ensures s[q] == pat[q - j]
    {
      CharOfOccurrence(s, pat, j, q - j);
    }
  }

  lemma CharOfOccurrence(s: string, pat: string, j: nat, k: nat)
    requires OccursAt(s, pat, j) && k < |pat|
    ensures s[j + k] == pat[k]
  {
    assert s[j..j + |pat|][k] == s[j + k];
  }
}

=== FILE: translations.dfy ===
/** The translation function `t` of `LanguageProvider` (context/LanguageContext.tsx):
    table lookup with the key as fallback, then `{0}`, `{1}`, ... each replaced
    once, in order, with the corresponding argument. */
module Translations {
  import opened Wrappers
  import opened Strings
  import opened Template

  datatype Language = En | Id

  /** The English table. */
  const EnTable: map<string, string> :=
    map[
      "memaiBy" := "By Henoch Saerang",
      "newProject" := "New Project",
      "clickToEdit" := "Click to edit",
      "noPhotosYet" := "No photos yet",
      "getStarted" := "Click \"New Project\" to start editing your first image.",
      "backToGallery" := "Back to gallery",
      "downloadImage" := "Download image",
      "undo" := "Undo",
      "redo" := "Redo",
      "detectingObjects" := "Detecting objects...",
      "applyingEdits" := "Applying edits...",
      "identifyingObject" := "Identifying object...",
      "pan" := "Pan",
      "magicCrop" := "Magic Crop",
      "autoDetect" := "Auto Detect",
      "drawManually" := "Draw Manually",
      "clearSelection" := "Clear selection",
      "generateEdit" := "Generate edit",
      "describeYourEdit" := "Describe your edit...",
      "waitingForAutoDetect" := "waiting for the auto detect...",
      "makeCropBox" := "Make a crop box already..",
      "selectLabelBox" := "Select a label box",
      "errorFailedToDetect" := "Failed to detect objects.",
      "errorFailedToProcess" := "Failed to process image with AI.",
      "errorGeneric" := "An unknown error occurred.",
      "errorPromptAndSelection" := "Please enter a prompt and select an area.",
      "zoomIn" := "Zoom In",
      "zoomOut" := "Zoom Out",
      "panModeSelectionWarning" := "Disable Pan mode to select a box.",
      "eta" := "Est. {0}",
      "fitToScreen" := "Fit to screen",
      "upscale" := "Upscale",
      "upscalingImage" := "Upscaling image...",
      "errorFailedToUpscale" := "Failed to upscale image.",
      "upscalingImageFactor" := "Upscaling image ({0}x)...",
      "magicRatio" := "Magic Ratio",
      "applyExpansion" := "Apply Expansion",
      "expandingCanvas" := "Expanding canvas...",
      "errorFailedToExtend" := "Failed to expand the image.",
      "magicRatioMenuTitle" := "Aspect Ratio",
      "magicRatioFree" := "Free"
    ]

  /** The Indonesian table. */
  const IdTable: map<string, string> :=
    map[
      "memaiBy" := "Oleh Henoch Saerang",
      "newProject" := "Proyek Baru",
      "clickToEdit" := "Klik untuk mengedit",
      "noPhotosYet" := "Belum ada foto",
      "getStarted" := "Klik \"Proyek Baru\" untuk mulai mengedit gambar pertamamu.",
      "backToGallery" := "Kembali ke galeri",
      "downloadImage" := "Unduh gambar",
      "undo" := "Urungkan",
      "redo" := "Ulangi",
      "detectingObjects" := "Mendeteksi objek...",
      "applyingEdits" := "Menerapkan editan...",
      "identifyingObject" := "Mengidentifikasi objek...",
      "pan" := "Geser",
      "magicCrop" := "Potong Ajaib",
      "autoDetect" := "Deteksi Otomatis",
      "drawManually" := "Gambar Manual",
      "clearSelection" := "Hapus pilihan",
      "generateEdit" := "Buat editan",
      "describeYourEdit" := "Jelaskan editanmu...",
      "waitingForAutoDetect" := "menunggu deteksi otomatis...",
      "makeCropBox" := "Buat kotak potong dulu..",
      "selectLabelBox" := "Pilih kotak label",
      "errorFailedToDetect" := "Gagal mendeteksi objek.",
      "errorFailedToProcess" := "Gagal memproses gambar dengan AI.",
      "errorGeneric" := "Terjadi kesalahan yang tidak diketahui.",
      "errorPromptAndSelection" := "Silakan masukkan perintah dan pilih area.",
      "zoomIn" := "Perbesar",
      "zoomOut" := "Perkecil",
      "panModeSelectionWarning" := "Nonaktifkan mode Pan untuk memilih kotak.",
      "eta" := "Est. {0}",
      "fitToScreen" := "Pas ke layar",
      "upscale" := "Tingkatkan Skala",
      "upscalingImage" := "Meningkatkan skala gambar...",
      "errorFailedToUpscale" := "Gagal meningkatkan skala gambar.",
      "upscalingImageFactor" := "Meningkatkan skala gambar ({0}x)...",
      "magicRatio" := "Rasio Ajaib",
      "applyExpansion" := "Terapkan Perluasan",
      "expandingCanvas" := "Memperluas kanvas...",
      "errorFailedToExtend" := "Gagal memperluas gambar.",
      "magicRatioMenuTitle" := "Rasio Aspek",
      "magicRatioFree" := "Bebas"
    ]

  function Table(lang: Language): map<string, string> {
    match lang
    case En => EnTable
    case Id => IdTable
  }

  /** `translations[language][key] || key`. */
  function Lookup(lang: Language, key: string): (template: string)
    ensures key in Table(lang) && Table(lang)[key] != "" ==> template == Table(lang)[key]
    ensures key !in Table(lang) || Table(lang)[key] == "" ==> template == key
  {
    if key in Table(lang) && Table(lang)[key] != "" then Table(lang)[key] else key
  }

  // ---------------------------------------------------------------------------
  // t

  /** `t(key, ...args)`, with every argument already converted by `String`. */
  function T(lang: Language, key: string, args: seq<string>): (r: string)
    ensures |args| == 0 ==> r == Lookup(lang, key)
  {
    ApplyArgs(Lookup(lang, key), args, 0)
  }

  // ---------------------------------------------------------------------------
  // Properties

  /** Both languages translate the same keys. */
  lemma SameKeys()
    ensures EnTable.Keys == IdTable.Keys
  {
  }

  /** No entry is empty, so every key of the tables is translated, never echoed. */
  lemma TablesHaveNoEmptyEntry(lang: Language, key: string)
    requires key in Table(lang)
    ensures Lookup(lang, key) == Table(lang)[key] && Lookup(lang, key) != ""
  {
    match lang
    case En => EnEntryNonEmpty(key);
    case Id => IdEntryNonEmpty(key);
  }

  lemma EnEntryNonEmpty(key: string)
    requires key in EnTable
    ensures EnTable[key] != ""
  {
  }

  lemma IdEntryNonEmpty(key: string)
    requires key in IdTable
    ensures IdTable[key] != ""
  {
  }

  /** `t('eta', time)` in English reads "Est. " followed by the time. */
  lemma EtaExample(time: string)
    requires '$' !in time
    ensures T(En, "eta", [time]) == "Est. " + time
  {
    assert Lookup(En, "eta") == "Est. {0}";
    assert Placeholder(0) == "{0}" by {
      assert Show(0) == "0";
    }
    assert "Est. {0}" == "Est. " + "{0}" + "";
    ReplaceAfter("Est. ", "{0}", "", time);
    assert "Est. " + time + "" == "Est. " + time;
    assert ApplyArgs("Est. " + time, [time], 1) == "Est. " + time;
  }

  /** A placeholder with no argument stays in the text, whatever the arguments
      that are given. */
  lemma MissingArgumentKeepsPlaceholder(lang: Language, key: string, args: seq<string>, m: nat)
    requires m >= |args| && Contains(Lookup(lang, key), Placeholder(m))
    ensures Contains(T(lang, key, args), Placeholder(m))
  {
    ApplyArgsKeepsPlaceholder(Lookup(lang, key), args, 0, m);
  }

  /** `t` with one more argument is `t` without it, followed by the replacement of
      that argument's placeholder: arguments are applied one after another. */
  lemma ArgumentsApplyOneByOne(lang: Language, key: string, args: seq<string>, a: string)
    ensures T(lang, key, args + [a]) == ReplaceFirst(T(lang, key, args), Placeholder(|args|), a)
  {
    ApplyArgsAppend(Lookup(lang, key), args, a, 0);
  }
}

=== FILE: viewport.dfy ===
/** The viewport controller of `useViewport` (hooks/useViewport.ts). The hook keeps
    two copies of the transform: the live one in refs, applied to the DOM on every
    tick, and the committed one in React state. Timers become explicit steps: a
    pending debounced commit is a flag, and its firing is `DebounceElapsed`. */
module Viewport {
  import opened Wrappers
  import opened Geometry

  datatype ZoomDirection = ZoomIn | ZoomOut

  datatype Viewport = Viewport(
    liveZoom: real,
    livePan: Point,
    zoom: real,
    pan: Point,
    pendingCommit: bool,
    gesture: Option<ZoomDirection>,
    isPanning: bool,
    panStart: Point,
    startPan: Point)

  const MinZoom: real := 0.2
  const MaxZoom: real := 5.0
  const FitMargin: real := 0.95

  const Origin: Point := Point(0.0, 0.0)

  function Initial(): Viewport {
    Viewport(1.0, Origin, 1.0, Origin, false, None, false, Origin, Origin)
  }

  /** Both zoom values are positive, which every operation maintains. */
  predicate Valid(v: Viewport) {
    v.liveZoom > 0.0 && v.zoom > 0.0
  }

  /** `commitState`: copies the live transform into the committed one. */
  function CommitState(v: Viewport): (r: Viewport)
    ensures r.zoom == r.liveZoom == v.liveZoom && r.pan == r.livePan == v.livePan
    ensures r.pendingCommit == v.pendingCommit && r.isPanning == v.isPanning
    ensures r == v.(zoom := r.zoom, pan := r.pan)
  {
    v.(zoom := v.liveZoom, pan := v.livePan)
  }

  /** The 150 ms debounce timer fires: a pending commit is carried out. */
  function DebounceElapsed(v: Viewport): (r: Viewport)
    ensures !r.pendingCommit
    ensures v.pendingCommit ==> r.zoom == v.liveZoom && r.pan == v.livePan
    ensures !v.pendingCommit ==> r == v
    ensures r.liveZoom == v.liveZoom && r.livePan == v.livePan
    ensures r == v.(zoom := r.zoom, pan := r.pan, pendingCommit := false)
  {
    if v.pendingCommit then CommitState(v).(pendingCommit := false) else v
  }

  /** The 200 ms gesture-indicator timer fires. */
  function GestureElapsed(v: Viewport): (r: Viewport)
    ensures r.gesture.None? && r == v.(gesture := None)
  {
    v.(gesture := None)
  }

  /** The container's `clientWidth`/`clientHeight`. */
  datatype ContainerSize = ContainerSize(clientWidth: nat, clientHeight: nat)

  /** The fitted zoom: 95% of the largest scale at which the whole image fits,
      or 1 when that is not positive. */
  function FitZoom(img: ImageSize, c: ContainerSize): (z: real)
    requires img.width > 0
    ensures z > 0.0
    ensures c.clientHeight > 0 && c.clientWidth > 0 ==>
      && z * img.width as real <= FitMargin * c.clientWidth as real
      && z * img.height as real <= FitMargin * c.clientHeight as real
      && (z * img.width as real == FitMargin * c.clientWidth as real
          || z * img.height as real == FitMargin * c.clientHeight as real)
    ensures c.clientHeight == 0 || c.clientWidth == 0 ==> z == 1.0
  {
    var scaleX := c.clientWidth as real / img.width as real;
    var scaleY := c.clientHeight as real / img.height as real;
    var z := Min(scaleX, scaleY) * FitMargin;
    if z > 0.0 then z else 1.0
  }

  /** `resetViewToFit`: nothing without an image or container, or when either
      reports a zero width; otherwise both transforms become the fitted zoom with
      no pan. */
  function ResetViewToFit(v: Viewport, img: Option<ImageSize>, c: Option<ContainerSize>): (r: Viewport)
    ensures img.None? || c.None? || img.value.width == 0 || c.value.clientWidth == 0 ==> r == v
    ensures img.Some? && c.Some? && img.value.width > 0 && c.value.clientWidth > 0 ==>
      && r.liveZoom == r.zoom == FitZoom(img.value, c.value)
      && r.livePan == r.pan == Origin
      && r.isPanning == v.isPanning && r.pendingCommit == v.pendingCommit
      && r == v.(liveZoom := r.liveZoom, zoom := r.zoom, livePan := Origin, pan := Origin)
  {
    if img.None? || c.None? || img.value.width == 0 || c.value.clientWidth == 0 then v
    else
      var z := FitZoom(img.value, c.value);
      v.(liveZoom := z, livePan := Origin, zoom := z, pan := Origin)
  }

  /** A wheel event; `ctrl` marks a pinch/ctrl-wheel zoom gesture. */
  datatype Wheel = Wheel(deltaX: real, deltaY: real, ctrl: bool)

  /** `handleWheel`. `growth` is `Math.exp(deltaY * -0.01)`, computed by the caller.
      A zoom gesture rescales the live zoom within [0.2, 5]; a plain wheel pans by
      the raw deltas. Either way the committed transform waits for the debounce. */
  function HandleWheel(v: Viewport, e: Wheel, growth: real): (r: Viewport)
    ensures r.pendingCommit
    ensures r.zoom == v.zoom && r.pan == v.pan && r.isPanning == v.isPanning
    ensures r == v.(liveZoom := r.liveZoom, livePan := r.livePan, gesture := r.gesture, pendingCommit := true)
    ensures e.ctrl ==> MinZoom <= r.liveZoom <= MaxZoom && r.livePan == v.livePan
    ensures e.ctrl ==> (r.gesture == Some(ZoomIn) <==> e.deltaY < 0.0)
    ensures e.ctrl ==> r.gesture.Some?
    ensures e.ctrl && MinZoom <= v.liveZoom * growth <= MaxZoom ==> r.liveZoom == v.liveZoom * growth
    ensures e.ctrl && v.liveZoom * growth > MaxZoom ==> r.liveZoom == MaxZoom
    ensures e.ctrl && v.liveZoom * growth < MinZoom ==> r.liveZoom == MinZoom
    ensures !e.ctrl ==> r.liveZoom == v.liveZoom && r.gesture == v.gesture
    ensures !e.ctrl ==> r.livePan.x + e.deltaX == v.livePan.x && r.livePan.y + e.deltaY == v.livePan.y
  {
    if e.ctrl then
      var amount := e.deltaY * -0.01;
      var z := Clamp(v.liveZoom * growth, MinZoom, MaxZoom);
      v.(liveZoom := z, gesture := Some(if amount > 0.0 then ZoomIn else ZoomOut), pendingCommit := true)
    else
      v.(livePan := Point(v.livePan.x - e.deltaX, v.livePan.y - e.deltaY), pendingCommit := true)
  }

  /** `handleZoom(factor)` for the zoom buttons: clamps, and commits the zoom (but
      not the pan) at once. */
  function HandleZoom(v: Viewport, factor: real): (r: Viewport)
    ensures MinZoom <= r.liveZoom <= MaxZoom && r.zoom == r.liveZoom
    ensures MinZoom <= v.liveZoom * factor <= MaxZoom ==> r.liveZoom == v.liveZoom * factor
    ensures v.liveZoom * factor > MaxZoom ==> r.liveZoom == MaxZoom
    ensures v.liveZoom * factor < MinZoom ==> r.liveZoom == MinZoom
    ensures r.livePan == v.livePan && r.pan == v.pan && r.pendingCommit == v.pendingCommit
    ensures r == v.(liveZoom := r.liveZoom, zoom := r.zoom)
  {
    var z := Clamp(v.liveZoom * factor, MinZoom, MaxZoom);
    v.(liveZoom := z, zoom := z)
  }

  /** `handlePanMouseDown`: remembers the pointer and the live pan. */
  function PanMouseDown(v: Viewport, client: Point): (r: Viewport)
    ensures r.isPanning && r.panStart == client && r.startPan == v.livePan
    ensures r.livePan == v.livePan && r.pan == v.pan && r.liveZoom == v.liveZoom && r.zoom == v.zoom
    ensures r == v.(isPanning := true, panStart := client, startPan := r.startPan)
  {
    v.(isPanning := true, panStart := client, startPan := v.livePan)
  }

  /** `handlePanMouseMove`: the live pan follows the pointer from the drag start. */
  function PanMouseMove(v: Viewport, client: Point): (r: Viewport)
    ensures !v.isPanning ==> r == v
    ensures v.isPanning ==>
      && r.livePan.x - v.startPan.x == client.x - v.panStart.x
      && r.livePan.y - v.startPan.y == client.y - v.panStart.y
      && r == v.(livePan := r.livePan)
  {
    if !v.isPanning then v
    else v.(livePan := Point(v.startPan.x + (client.x - v.panStart.x),
                             v.startPan.y + (client.y - v.panStart.y)))
  }

  /** `handlePanMouseUpOrLeave`: ends a drag and commits its result. */
  function PanMouseUp(v: Viewport): (r: Viewport)
    ensures !v.isPanning ==> r == v
    ensures v.isPanning ==> !r.isPanning && r.pan == r.livePan == v.livePan && r.zoom == r.liveZoom
    ensures v.isPanning ==> r.liveZoom == v.liveZoom && r == v.(isPanning := false, zoom := r.zoom, pan := r.pan)
  {
    if v.isPanning then CommitState(v.(isPanning := false)) else v
  }

  /** Where the image is drawn inside its container (`imageRenderPosition`). */
  datatype RenderBox = RenderBox(left: real, top: real, width: real, height: real)

  predicate InsideBox(b: RenderBox, x: real, y: real) {
    b.left <= x <= b.left + b.width && b.top <= y <= b.top + b.height
  }

  /** `getRelativeCoords`: the pointer as a fraction of the rendered image, or
      nothing without a container, for an empty render box, or off the image.
      `container` is the container's top-left corner in client coordinates. */
  function RelativeCoords(container: Option<Point>, b: RenderBox, client: Point): (r: Option<Point>)
    ensures r.Some? <==>
      container.Some? && b.width != 0.0 && b.height != 0.0
      && InsideBox(b, client.x - container.value.x, client.y - container.value.y)
    ensures r.Some? ==> InUnitSquare(r.value)
    ensures r.Some? ==>
      && b.left + r.value.x * b.width == client.x - container.value.x
      && b.top + r.value.y * b.height == client.y - container.value.y
  {
    if container.None? || b.width == 0.0 || b.height == 0.0 then None
    else
      var clickX := client.x - container.value.x;
      var clickY := client.y - container.value.y;
      if clickX < b.left || clickX > b.left + b.width || clickY < b.top || clickY > b.top + b.height then None
      else Some(Point((clickX - b.left) / b.width, (clickY - b.top) / b.height))
  }

  // ---------------------------------------------------------------------------
  // Properties

  /** Every operation keeps both zoom values positive. */
  lemma OperationsPreserveValid(v: Viewport, img: Option<ImageSize>, c: Option<ContainerSize>,
                                e: Wheel, growth: real, factor: real, p: Point)
    requires Valid(v)
    ensures Valid(ResetViewToFit(v, img, c))
    ensures Valid(HandleWheel(v, e, growth)) && Valid(HandleZoom(v, factor))
    ensures Valid(PanMouseDown(v, p)) && Valid(PanMouseMove(v, p)) && Valid(PanMouseUp(v))
    ensures Valid(CommitState(v)) && Valid(DebounceElapsed(v)) && Valid(GestureElapsed(v))
  {
  }

  /** Committing is idempotent, and afterwards live and committed agree. */
  lemma CommitIdempotent(v: Viewport)
    ensures CommitState(CommitState(v)) == CommitState(v)
    ensures DebounceElapsed(DebounceElapsed(v)) == DebounceElapsed(v)
  {
  }

  function Ticks(v: Viewport, es: seq<Wheel>, growths: seq<real>): Viewport
    requires |growths| == |es|
    decreases |es|
  {
    if |es| == 0 then v else Ticks(HandleWheel(v, es[0], growths[0]), es[1..], growths[1..])
  }

  /** A burst of wheel ticks leaves exactly one commit pending and changes nothing
      committed; when the debounce fires, the committed transform is the live one
      after the last tick. */
  lemma {:induction false} WheelBurstCommitsLastState(v: Viewport, es: seq<Wheel>, growths: seq<real>)
    requires |growths| == |es| && |es| > 0
    ensures var t := Ticks(v, es, growths);
      && t.pendingCommit && t.zoom == v.zoom && t.pan == v.pan
      && DebounceElapsed(t).zoom == t.liveZoom && DebounceElapsed(t).pan == t.livePan
    decreases |es|
  {
    if |es| > 1 {
      WheelBurstCommitsLastState(HandleWheel(v, es[0], growths[0]), es[1..], growths[1..]);
    }
  }

  /** A 2000x1000 image in a 1000x1000 container fits at zoom 0.475. */
  lemma FitExample()
    ensures FitZoom(NaturalSize(2000, 1000), ContainerSize(1000, 1000)) == 0.475
  {
  }

  /** The fitted zoom is not clamped: a small image in a large container fits at a
      zoom above the wheel's maximum of 5, a huge one below its minimum of 0.2. */
  lemma FitZoomNotClamped()
    ensures FitZoom(NaturalSize(10, 10), ContainerSize(1000, 1000)) > MaxZoom
    ensures FitZoom(NaturalSize(10000, 10000), ContainerSize(1000, 1000)) < MinZoom
  {
  }

  /** Dragging the pointer back to where it was pressed restores the pan. */
  lemma DragBackRestoresPan(v: Viewport, start: Point, away: Point)
    ensures var d := PanMouseDown(v, start);
      PanMouseUp(PanMouseMove(PanMouseMove(d, away), start)).pan == v.livePan
  {
  }

  /** A relative coordinate maps back to the pixel it came from. */
  lemma RelativeCoordsRoundTrip(container: Point, b: RenderBox, u: Point)
    requires b.width > 0.0 && b.height > 0.0 && InUnitSquare(u)
    ensures var client := Point(container.x + b.left + u.x * b.width, container.y + b.top + u.y * b.height);
      RelativeCoords(Some(container), b, client) == Some(u)
  {
    var client := Point(container.x + b.left + u.x * b.width, container.y + b.top + u.y * b.height);
    AxisRoundTrip(client.x - container.x, b.left, b.width, u.x);
    AxisRoundTrip(client.y - container.y, b.top, b.height, u.y);
  }

  /** One axis of `RelativeCoordsRoundTrip`: a click at the fraction `u` of the box
      lies in the box and divides back to `u`. */
  lemma AxisRoundTrip(click: real, start: real, size: real, u: real)
    requires size > 0.0 && 0.0 <= u <= 1.0 && click - start == u * size
    ensures start <= click <= start + size && (click - start) / size == u
  {
    assert u * size <= 1.0 * size;
    assert (u * size) / size == u;
  }
}

=== FILE: wrappers.dfy ===
/** Failure-compatible wrappers shared by the whole model: `Option` stands for a
    JavaScript value that may be `null`/`undefined`, `Result` for an operation that
    may throw an `Error` carrying a message. */
module Wrappers {

  datatype Option<+T> = None | Some(value: T)

  datatype Result<+T> = Ok(value: T) | Err(message: string)
}
